=== FILE: README.md ===
# Silver Star activity tracker — a verified model

Silver Star is a desktop time tracker. Its Electron main process samples the
foreground window once a second. It keeps one open *session* (application,
window title, start time). When a different application comes to the front,
it closes that session into an *entry* of the *day record* for the current
date, adds the seconds to that day's per-application *summary*, and saves the
whole *ledger* to a JSON file. The renderer shows this ledger in many views:
- a dashboard of today's top applications;
- statistics by period and category;
- a calendar of entries;
- a year heat map;
- streaks, points and badges;
- a rule-based "coach" that picks insights.

It also has small self-contained tools: a Pomodoro timer, a focus timer, a
configurable widget dashboard, privacy rules, themes and simulated task
integrations.

This project models those parts in Dafny and proves what they promise.
- The main process is a class, `Tracker.ActivityTracker`. It has the fields
  `ledger`, `current` and `isTracking`, and a ghost `persisted` copy that
  stands for the file on disk. Its methods are proved against pure
  functions of the module `Ledger`.
- The ledger invariant is `Ledger.LedgerValid`. It says:
  - dates are unique;
  - durations are positive;
  - each day's summary holds, for each application, exactly the sum of that
    day's entry durations, and no key for an application with no entries.
  This invariant is kept by every step.
- The renderer's views are modules of functions, with methods where the
  component runs a loop. Each method is proved equal to a specifying
  function, and lemmas state the view's promises about that function.

Inputs the program reads from the outside are parameters here:
- the clock (`now`, in milliseconds, and the entry id's own time stamp);
- today's date string;
- the active-window sample and the system idle time;
- hours of the day, and calendar dates as epoch milliseconds;
- browser storage, as a map.

Shared modules:
- `Text`: ASCII lower-casing, substring search, JavaScript `trim`, decimal
  rendering and two-digit padding.
- `Tallies`: a JavaScript object used as an ordered application → seconds
  table, in insertion order.
- `Sorting`: the stable descending sort by value that
  `.sort(([, a], [, b]) => b - a)` performs, and sorted distinct strings.
- `Optional`: an Option type.
- `Arith`: small arithmetic lemmas.

## Behaviour worth knowing

- Switching tracking off does not close the open session. The tick is only
  skipped, so the session resumes when tracking is switched on again.
- A window with no owner name is recorded as `Unknown`. It is not recorded
  as idle.
- An entry's id is built from a second reading of the clock. It is not
  built from the close time.
- The `productive_day` badge tests total hours ≥ 6. It does not test a
  productivity score.
- Gamification sums the hours over all recorded days.

## Model

| member | source | states |
|---|---|---|
| Ledger.RoundToSeconds | electron/main.ts:107 | `Math.round(ms/1000)`: the result is the nearest whole second, with halves rounded up |
| Ledger.IndexOfDate | electron/main.ts:109 | `allData.find(d => d.date === today)`: the first record with the date, and the end position exactly when no record has it |
| Ledger.IndexOfDateAt | electron/main.ts:109 | any position holding the date with no earlier match is the one the search finds |
| Ledger.SummaryFor | electron/main.ts:157-161 | today's summary is the record's `appSummary` when a record exists, and the empty map otherwise |
| Ledger.IndexOfEntry | electron/main.ts:178 | `findIndex` by id: the first entry with the id, or the end position when none has it |
| Ledger.DayOfEntry | electron/main.ts:177-179 | the first day, in ledger order, that holds an entry with the id; every earlier day holds none |
| Ledger.SumForConcat | electron/main.ts:123-125 | one application's sum of durations over two entry lists concatenated is the sum of the two sums |
| Ledger.SumForSingle | electron/main.ts:124-125 | one entry contributes its duration to its own application's sum and nothing to the others' |
| Ledger.SumForPositive | electron/main.ts:182-183 | with positive durations, an application's sum is positive exactly when the day has an entry for it, which is why the key can be dropped at ≤ 0 |
| Ledger.AppendValid | electron/main.ts:109-125 | appending an entry with a positive duration keeps the ledger invariant: unique dates, positive durations, summary equal to the sums of durations |
| Ledger.AddEntryConsistent | electron/main.ts:123-125 | pushing an entry and adding its duration to its application's total keeps a day's summary consistent with its entries |
| Ledger.AppendEffect | electron/main.ts:109-125 | a record is created only when the date has none; the entry is pushed at the end of that record; only the entry's application's total grows, by the duration; other records and other totals are untouched |
| Ledger.RemoveEntryConsistent | electron/main.ts:180-185 | an entry's application always has a summary key; after subtracting the entry, dropping the key at ≤ 0 and splicing it out, the day stays consistent |
| Ledger.DeleteValid | electron/main.ts:176-191 | deleting an entry keeps the ledger invariant |
| Ledger.DeleteEffect | electron/main.ts:176-191 | the result is true exactly when some day holds the id; only the first match in ledger order is spliced out; its application's total drops by its duration and the key disappears exactly when nothing is left; other days and totals are unchanged; a missing id leaves the ledger as it was |
| Tracker.LoadData | electron/main.ts:38-47 | a readable file gives its records, and a missing or unreadable one gives the empty ledger |
| Tracker.ObservedName | electron/main.ts:208-209 | the recorded name is the trimmed owner name, or `Unknown` when there is none; it never starts or ends with white space |
| Tracker.TrimUnknown | electron/main.ts:208-209 | the fallback name survives the trim unchanged |
| Tracker.ObserveSameApp | electron/main.ts:106 | observing the application of the open session changes nothing: no entry, no summary change, same start time and title |
| Tracker.ObserveFirst | electron/main.ts:132-134 | with no open session, an observation only opens one for the application at `now` |
| Tracker.ObserveSwitch | electron/main.ts:102-134 | a switch with a positive duration appends exactly one entry to the record of the close-time date (created if missing). The entry carries the closed session's name, title and start, ends at `now`, and lasts the rounded seconds. Only that application's total grows, by that duration; other days are untouched; a new session opens for the new application at `now` |
| Tracker.ObserveZeroDuration | electron/main.ts:107-108 | a switch that rounds to zero seconds records nothing and creates no record, yet still opens the new session |
| Tracker.ObserveValid | electron/main.ts:101-135 | every observation keeps the ledger invariant |
| Tracker.TickInactiveFreezes | electron/main.ts:201 | a tick with no window, tracking off, no sample or idle time of 60 s or more leaves ledger and session exactly as they were |
| Tracker.TickActiveObserves | electron/main.ts:207-213 | an active tick observes the trimmed owner name, or `Unknown`, with the sample's title |
| Tracker.ObserveSameKeepsSession | electron/main.ts:132-134 | any run of observations of the open session's application leaves the state unchanged, so the session keeps its start time |
| Tracker.IdleGapResumes | electron/main.ts:207 | an idle tick followed by an active tick for the same application leaves the state as it was: idle time neither closes nor splits the session |
| Tracker.ChromeThenVSCode | electron/main.ts:101-135 | worked example: Chrome at 0 ms, Chrome at 5000 ms, VSCode at 10000 ms yields one 10-second Chrome entry, a summary of Chrome ↦ 10, and an open VSCode session |
| Tracker.ActivityTracker.constructor | electron/main.ts:150-151 | start-up loads the ledger, has no open session and tracks |
| Tracker.ActivityTracker.SaveData | electron/main.ts:49-55 | after saving, the persisted copy equals the ledger |
| Tracker.ActivityTracker.FindDay | electron/main.ts:109 | the search loop finds the position `IndexOfDate` specifies |
| Tracker.ActivityTracker.UpdateActivity | electron/main.ts:101-135 | the new ledger and session are exactly those of `Observe`; the invariant is kept; the file is saved exactly when an entry was recorded |
| Tracker.ActivityTracker.Tick | electron/main.ts:200-257 | the new state is that of the gated step; inactive ticks save nothing; an active tick saves the ledger exactly when it records an entry; the tracking flag is unchanged |
| Tracker.ActivityTracker.GetActivityData | electron/main.ts:155 | returns the whole ledger |
| Tracker.ActivityTracker.GetTodaySummary | electron/main.ts:157-161 | returns today's summary, or the empty map when today has no record |
| Tracker.ActivityTracker.IsTracking | electron/main.ts:168 | returns the tracking flag |
| Tracker.ActivityTracker.SetTracking | electron/main.ts:169-172 | sets the flag to the value given and returns it, changing nothing else |
| Tracker.ActivityTracker.FindEntry | electron/main.ts:178 | the search loop finds the position `IndexOfEntry` specifies |
| Tracker.ActivityTracker.FindEntryDay | electron/main.ts:177-179 | the loop over the days stops at the first day holding the entry, the day `DayOfEntry` specifies, or runs off the end when none does |
| Tracker.ActivityTracker.DeleteEntry | electron/main.ts:176-191 | ledger and result are those of `Delete`; the file is saved only when an entry was removed; the session and the flag are untouched |
| Tracker.ActivityTracker.ClearAllData | electron/main.ts:193-197 | the ledger and the persisted copy are empty and the result is true |
| AppIcons.ExactIndex | src/lib/app-icons.ts:36-38 | the position of the first key equal to the name, or the end of the table |
| AppIcons.RelatedIndex | src/lib/app-icons.ts:41-46 | the first position, in table order, whose lower-cased key contains or is contained in the lower-cased name |
| AppIcons.AppTableWellFormed | src/lib/app-icons.ts:2-32 | every key of the icon table is a non-empty name |
| AppIcons.ExactMatch | src/lib/app-icons.ts:36-38 | a name equal to a key gets that key's style |
| AppIcons.PartialMatch | src/lib/app-icons.ts:41-49 | with no exact key, the style is that of the first related key, or the default 📱 #6B7280 when none is related |
| AppIcons.EmptyNameIsFirstEntry | src/lib/app-icons.ts:41-46 | every key contains the empty name, so the empty name gets the first entry's style |
| AppIcons.EmptyNameIsCode | src/lib/app-icons.ts:41-46 | in the shipped table the empty name gets Visual Studio Code's 💻 #007ACC |
| AppIcons.FormatSeconds | src/lib/app-icons.ts:53 | under a minute, the short form is `<s>s` and the long form `<s> seconds` |
| AppIcons.FormatMinutes | src/lib/app-icons.ts:54-57 | from 1 to 59 minutes, the short form is `<m>m`; the long form is `<m> min <s> sec`, or `<m> minutes` when no seconds are left over |
| AppIcons.FormatHours | src/lib/app-icons.ts:58-73 | from an hour on, the short form is `<h>h <m>m` with m < 60; the long form is the same, or `<h> hours` when m is 0 |
| Analytics.CategorizeApp | src/lib/analytics-engine.ts:15-23 | productive exactly when the lower-cased name contains a productive keyword; distracting exactly when it is not productive and contains a distracting keyword; neutral otherwise |
| Analytics.ProductiveWins | src/lib/analytics-engine.ts:20-21 | a name matching both keyword lists is productive |
| Analytics.CodeIsNeutral | src/lib/analytics-engine.ts:16-22 | "Code", the name macOS reports for Visual Studio Code, matches no keyword and is neutral |
| Analytics.ProductivityScore | src/lib/analytics-engine.ts:25-30 | 0 for a zero total, and otherwise `round(100·p/t)` with halves rounded up |
| Analytics.ScoreRange | src/lib/analytics-engine.ts:29 | with 0 ≤ p ≤ t and t > 0 the score lies in [0, 100]; it is 100 when p = t and 0 when p = 0 |
| Analytics.CategoriesPartition | src/lib/analytics-engine.ts:39-47 | the productive, neutral and distracting sums add up to the total |
| Analytics.ProcessDayData | src/lib/analytics-engine.ts:32-63 | the loop's totals are those of the specification, and total = productive + neutral + distracting |
| Analytics.MissingFields | src/lib/analytics-engine.ts:40 | an entry with no duration adds nothing to any total |
| Analytics.NamelessIsNeutral | src/lib/analytics-engine.ts:41 | an entry with no name is neutral |
| Analytics.GenerateHeatmapData | src/lib/analytics-engine.ts:65-74 | one cell per history day, in order, with that day's total as count and its productivity score as score |
| TaskIntegrations.ProviderId | src/lib/task-integrations.ts:43 | no provider id is the filter value `all` |
| TaskIntegrations.ProviderIdInjective | src/lib/task-integrations.ts:43 | distinct providers have distinct ids |
| TaskIntegrations.MockTasksBelong | src/lib/task-integrations.ts:24-40 | every mock task's provider is the provider whose list holds it |
| TaskIntegrations.StorageKeysDistinct | src/lib/task-integrations.ts:54 | distinct providers keep their flags under distinct storage keys |
| TaskIntegrations.Storage.constructor | src/lib/task-integrations.ts:54 | the storage starts with the given items |
| TaskIntegrations.Storage.SetItem | src/lib/task-integrations.ts:64 | sets one key and leaves every other key as it was |
| TaskIntegrations.Storage.RemoveItem | src/lib/task-integrations.ts:72 | removes one key and leaves every other key as it was |
| TaskIntegrations.Adapter.constructor | src/lib/task-integrations.ts:48-55 | a new adapter is connected exactly when its stored flag is `'true'`, with an empty icon |
| TaskIntegrations.Adapter.Connect | src/lib/task-integrations.ts:57-68 | succeeds exactly when the token is non-empty; success connects and stores `'true'`; failure changes nothing |
| TaskIntegrations.Adapter.Disconnect | src/lib/task-integrations.ts:70-73 | always leaves the adapter disconnected with its flag removed; on a disconnected adapter without a flag it changes nothing |
| TaskIntegrations.Adapter.GetTasks | src/lib/task-integrations.ts:75-82 | no tasks when disconnected, the provider's mock list when connected, and only the adapter's own tasks |
| TaskIntegrations.IntegrationIdsDistinct | src/lib/task-integrations.ts:85-90 | the four adapters have distinct ids and cover every provider |
| TaskIntegrations.MakeIntegrations | src/lib/task-integrations.ts:85-90 | builds one fresh adapter per provider in the listed order, each connected according to its stored flag |
| TaskManager.LoadTasks | src/components/TaskManager.tsx:15-36 | the loop collects the tasks of the connected adapters in adapter order, and their ids as the active providers |
| TaskManager.LoadedFromConnected | src/components/TaskManager.tsx:21-27 | every loaded task belongs to an active provider; there is no active provider exactly when no adapter is connected |
| TaskManager.FilterTasks | src/components/TaskManager.tsx:42-45 | keeps exactly the tasks that pass the provider filter; a single task is kept exactly when it passes |
| TaskManager.FilterTasksAppend | src/components/TaskManager.tsx:42-45 | filtering distributes over concatenation, so the kept tasks keep their order and their repetitions |
| TaskManager.FilterAllKeepsEverything | src/components/TaskManager.tsx:43 | the filter `all` keeps every task |
| TaskManager.WithStatus | src/components/TaskManager.tsx:48-52 | a column holds exactly the tasks of its status; a single task is kept exactly when it has that status |
| TaskManager.WithStatusAppend | src/components/TaskManager.tsx:48-52 | a column keeps the order and repetitions of the task list: it distributes over concatenation |
| TaskManager.ColumnsPartition | src/components/TaskManager.tsx:48-52 | the three column sizes add up to the number of filtered tasks |
| TaskManager.ProviderIcon | src/components/TaskManager.tsx:54-63 | the default icon is used exactly for an unknown provider |
| TaskManager.PriorityColor | src/components/TaskManager.tsx:65-72 | the default colour is used exactly for a missing or unknown priority |
| TaskManager.EmptyStateAfterLoad | src/components/TaskManager.tsx:74 | after loading, the empty state shows exactly when no adapter is connected |
| Theme.OrElse | src/hooks/use-theme.ts:11 | the stored value when it is present and non-empty, else the fallback |
| Theme.ToggleMode | src/hooks/use-theme.ts:32-34 | the result is light or dark, and it differs from a light or dark input |
| Theme.ToggleTwice | src/hooks/use-theme.ts:32-34 | toggling twice restores light or dark |
| Theme.PresetIndex | src/hooks/use-theme.ts:21 | a known preset id is found; an unknown one falls back to the first theme |
| Theme.CssVarRoundTrip | src/hooks/use-theme.ts:25 | the CSS name starts with `--` and, for a key without hyphens, converting back to camelCase gives the key |
| Theme.KebabRoundTrip | src/hooks/use-theme.ts:25 | the kebab-case of a hyphen-free camelCase key converts back to the key, so distinct colour keys get distinct CSS names |
| Theme.CssVarLowerCase | src/hooks/use-theme.ts:25 | the CSS name contains no upper-case letter |
| Theme.ReloadRestores | src/hooks/use-theme.ts:18 | after the effect stores mode and preset, the initial values on reload are the same mode and preset |
| Pomodoro.ModeTime | src/components/PomodoroTimer.tsx:34-40 | 60 times the configured minutes of each mode |
| Pomodoro.AfterCompletion | src/components/PomodoroTimer.tsx:58-69 | finishing work counts a session and moves to a long break exactly when the new count is a multiple of the setting, else to a short break; finishing a break returns to work with the count unchanged |
| Pomodoro.LongBreakEveryNth | src/components/PomodoroTimer.tsx:62 | among any `every` consecutive work sessions, exactly the last is followed by a long break |
| Pomodoro.TickUpdate | src/components/PomodoroTimer.tsx:75-81 | the updater never goes below 0; it gives 0 exactly when the previous value is at most 1, and otherwise one less |
| Pomodoro.SettingInput | src/components/PomodoroTimer.tsx:231 | unparsable or zero input gives the field's default, other input is used as it is |
| Pomodoro.EditSettings | src/components/PomodoroTimer.tsx:231-258 | each field edit changes only its field, falling back to 25, 5, 15 or 4 |
| Pomodoro.EditKeepsNoZero | src/components/PomodoroTimer.tsx:231-258 | settings edited through the inputs never hold a zero, so the long-break modulus is defined |
| Pomodoro.PomodoroTimer.constructor | src/components/PomodoroTimer.tsx:23-28 | the timer starts in work mode with 25 minutes, stopped, no sessions completed and sound on |
| Pomodoro.PomodoroTimer.SwitchMode | src/components/PomodoroTimer.tsx:49-53 | sets the mode and its full time and stops the timer; settings and count are unchanged |
| Pomodoro.PomodoroTimer.HandleTimerComplete | src/components/PomodoroTimer.tsx:55-70 | mode and count move as `AfterCompletion` says, with the new mode's full time, stopped |
| Pomodoro.PomodoroTimer.Tick | src/components/PomodoroTimer.tsx:72-95 | a stopped or finished timer does not change; a running one counts down by one second; at its last second it completes and switches mode |
| Pomodoro.PomodoroTimer.ToggleRunning | src/components/PomodoroTimer.tsx:176 | flips running and nothing else |
| Pomodoro.PomodoroTimer.Reset | src/components/PomodoroTimer.tsx:189-192 | stops the timer and restores the full time of the current mode, leaving mode and count unchanged |
| Pomodoro.PomodoroTimer.ToggleSound | src/components/PomodoroTimer.tsx:201 | flips the sound flag and nothing else |
| Pomodoro.PomodoroTimer.EditSetting | src/components/PomodoroTimer.tsx:231-258 | the settings become those `EditSettings` gives |
| Clock.JsRem | src/components/PomodoroTimer.tsx:99 | JavaScript's `%` with a positive divisor: Euclidean for non-negative operands, truncating toward zero for negative ones |
| Clock.ShortNumber | src/components/PomodoroTimer.tsx:100 | a number under 100 renders in at most two digits |
| Clock.LeadingZero | src/components/PomodoroTimer.tsx:100 | a leading zero does not change the value of a digit string |
| Clock.PadTwoValue | src/components/PomodoroTimer.tsx:100 | padding to two digits keeps the number's value; under 100 the result is exactly two digits |
| Clock.Fields | src/components/PomodoroTimer.tsx:100 | `m:ss` splits back into its minutes text, the colon and the two seconds digits |
| Clock.FormatTimeRoundTrip | src/components/PomodoroTimer.tsx:97-101 | the `mm:ss` text is two runs of digits around a colon, and it reads back as minutes × 60 + seconds = the input, with seconds under 60 |
| FocusMode.FocusTimer.constructor | src/components/FocusMode.tsx:5-7 | starts with 25 minutes, inactive, preset 25 |
| FocusMode.FocusTimer.ToggleTimer | src/components/FocusMode.tsx:25 | flips the active flag and nothing else |
| FocusMode.FocusTimer.ResetTimer | src/components/FocusMode.tsx:27-31 | stops the timer, sets the preset to the given minutes (or keeps the current preset) and the time to 60 × preset |
| FocusMode.FocusTimer.Tick | src/components/FocusMode.tsx:9-23 | while active with time left it counts down by one and turns inactive on reaching 0; at 0 it only turns inactive; inactive timers do not change; time never goes negative |
| CustomDashboard.AddWidget | src/components/CustomDashboard.tsx:25-31 | appends exactly one widget with the new instance id and leaves the earlier widgets unchanged |
| CustomDashboard.RemoveWidget | src/components/CustomDashboard.tsx:33-35 | keeps exactly the widgets with another instance id; a single widget is kept exactly when its id differs |
| CustomDashboard.RemoveWidgetAppend | src/components/CustomDashboard.tsx:33-35 | removal distributes over concatenation, so the kept widgets keep their order and their repetitions |
| CustomDashboard.RemoveAbsent | src/components/CustomDashboard.tsx:34 | removing an id no widget has leaves the list equal |
| CustomDashboard.AddThenRemove | src/components/CustomDashboard.tsx:25-35 | adding a widget with a fresh instance id and removing it restores the list |
| CustomDashboard.Moved | src/components/CustomDashboard.tsx:37-45 | a move keeps the length and the multiset of widgets |
| CustomDashboard.Swap | src/components/CustomDashboard.tsx:40 | exchanges two positions and leaves all others unchanged |
| CustomDashboard.MoveWidget | src/components/CustomDashboard.tsx:37-45 | the in-place swap on the copied list gives the `Moved` list: up at i > 0 swaps i and i−1, down before the end swaps i and i+1, anything else leaves the list as it is |
| CustomDashboard.UpThenDown | src/components/CustomDashboard.tsx:39-42 | moving up at i and then down at i−1 restores the list |
| CustomDashboard.MoveAtEdges | src/components/CustomDashboard.tsx:38-44 | up at the first position and down at the last leave the list equal |
| CustomDashboard.ColSpan | src/components/CustomDashboard.tsx:114-116 | full → 12, large → 8, medium → 6, anything else → 4 |
| CustomDashboard.RenderedSpans | src/components/CustomDashboard.tsx:109-116 | at most one span per widget, and every rendered widget spans 4, 6, 8 or 12 columns |
| Privacy.AddPrivateApp | src/components/PrivacySettings.tsx:54-64 | a blank name changes nothing; otherwise exactly one enabled rule is appended, with the trimmed name, its lower-cased pattern and a time-stamp id, and the input is cleared |
| Privacy.AddEffect | src/components/PrivacySettings.tsx:55-62 | there is no deduplication: the list grows by exactly one, earlier rules are unchanged, and the new name is non-empty |
| Privacy.RemovePrivateApp | src/components/PrivacySettings.tsx:66-68 | keeps exactly the rules with another id; a single rule is kept exactly when its id differs |
| Privacy.RemovePrivateAppAppend | src/components/PrivacySettings.tsx:66-68 | removal distributes over concatenation, so the kept rules keep their order and their repetitions |
| Privacy.ToggleRule | src/components/PrivacySettings.tsx:70-74 | flips `enabled` on exactly the rules with the id and leaves the others unchanged |
| Privacy.ToggleTwice | src/components/PrivacySettings.tsx:70-74 | toggling a rule twice restores the list |
| Privacy.TogglePrivateMode | src/components/PrivacySettings.tsx:76-80 | flips the flag and stores its text |
| Privacy.PrivateModeReload | src/components/PrivacySettings.tsx:46 | the stored text reads back as the new flag |
| Privacy.FilteredApps | src/components/PrivacySettings.tsx:82-85 | keeps exactly the available apps whose lower-cased name contains the lower-cased query and that no rule already names, case-insensitively; a single app is kept exactly when it passes both tests |
| Privacy.FilteredAppsAppend | src/components/PrivacySettings.tsx:82-85 | the filter distributes over concatenation, so the suggestions keep their original order |
| Privacy.EmptyQuery | src/components/PrivacySettings.tsx:82-85 | an empty query keeps every app no rule names |
| Privacy.AllKeys | src/components/PrivacySettings.tsx:29-32 | the collected names are exactly the summary keys of the recorded days |
| Privacy.AvailableApps | src/components/PrivacySettings.tsx:28-33 | the suggestions are sorted, without duplicates, and are exactly the union of the summary keys |
| Privacy.AvailableAppsDistinct | src/components/PrivacySettings.tsx:33 | no two suggestions are equal |
| Calendar.ToEvent | src/components/CalendarView.tsx:44-52 | an event copies the entry's id, name, start and end, and has an icon exactly when one is cached |
| Calendar.DayEvents | src/components/CalendarView.tsx:39-53 | a day's events are exactly the events of its entries lasting at least a minute |
| Calendar.AllEvents | src/components/CalendarView.tsx:38-54 | no event lasts under a minute; an event is there exactly when it is an event of one of the days |
| Calendar.Names | src/components/CalendarView.tsx:43 | one name per event, in order |
| Calendar.AddDayEvents | src/components/CalendarView.tsx:39-53 | the loop appends exactly the day's events, and the collected names are those of the events |
| Calendar.AppsOfEvents | src/components/CalendarView.tsx:43 | a name is collected exactly when some event has it |
| Calendar.LoadEvents | src/components/CalendarView.tsx:38-59 | the events are those of all days; the apps are sorted, without duplicates, and are exactly the events' names; all are selected at first |
| Calendar.FilteredEvents | src/components/CalendarView.tsx:64-66 | keeps exactly the events whose application is selected; a single event is kept exactly when its application is |
| Calendar.FilteredEventsAppend | src/components/CalendarView.tsx:64-66 | the filter distributes over concatenation, so the kept events keep their order and their repetitions |
| Calendar.AllSelected | src/components/CalendarView.tsx:59-65 | with every application selected, the filter keeps all events |
| Calendar.ToggleApp | src/components/CalendarView.tsx:92-98 | the toggled application is selected exactly when it was not, and the other applications keep their selection |
| Calendar.Without | src/components/CalendarView.tsx:95 | keeps exactly the other names |
| Calendar.ToggleTwice | src/components/CalendarView.tsx:92-98 | toggling twice restores which applications are selected |
| Calendar.ZoomIn | src/components/CalendarView.tsx:186 | `min(z+1, 2)`, staying in [0, 2] and never lower |
| Calendar.ZoomOut | src/components/CalendarView.tsx:187 | `max(z−1, 0)`, staying in [0, 2] and never higher |
| Calendar.ZoomStaysInRange | src/components/CalendarView.tsx:186-187 | any sequence of zoom presses from a valid level stays in [0, 2] |
| Calendar.ZoomConfig | src/components/CalendarView.tsx:150-156 | 0 → (60, 1), 2 → (15, 4), anything else → (30, 2), so step × slots is always an hour |
| Calendar.AppDurationsTotal | src/components/CalendarView.tsx:76-80 | the per-application durations add up to the total, and there are none exactly when there are no events |
| Calendar.Metrics | src/components/CalendarView.tsx:69-88 | the loop's total is the sum of the event durations, and the top application is the one `TopApp` picks from the per-application durations |
| Calendar.TopApp | src/components/CalendarView.tsx:82-87 | `N/A` and no duration exactly for an empty table; otherwise a table entry with the largest duration |
| Calendar.TopAppIffEvents | src/components/CalendarView.tsx:82-87 | the top application is `N/A` exactly when there are no filtered events |
| Heatmap.LastIndexOf | src/components/ActivityHeatmap.tsx:21 | the last cell with the date, or −1 when none has it |
| Heatmap.DayFor | src/components/ActivityHeatmap.tsx:38 | the cell shown for a date is always for that date |
| Heatmap.DayCells | src/components/ActivityHeatmap.tsx:36-48 | one cell per date, in order |
| Heatmap.MissingDay | src/components/ActivityHeatmap.tsx:38 | a date with no data is shown with score 0 and count 0 |
| Heatmap.ChunkWeeks | src/components/ActivityHeatmap.tsx:33-52 | the weeks concatenate to the day cells; all weeks but the last have 7 days; the last has 1 to 7; there are ⌈days/7⌉ weeks |
| Heatmap.Intensity | src/components/ActivityHeatmap.tsx:57-63 | level 0 exactly for 0, then < 1800, < 7200, < 14400 and the rest give levels 1 to 4 |
| Heatmap.IntensityMonotone | src/components/ActivityHeatmap.tsx:57-63 | more recorded time never gives a lighter cell |
| Heatmap.MonthLabels | src/components/ActivityHeatmap.tsx:65-81 | the loop with `lastMonth` produces the specified labels |
| Heatmap.LabelsShape | src/components/ActivityHeatmap.tsx:65-81 | every label stands over a week whose first day is in the labelled month; consecutive labels differ in month and have strictly increasing weeks |
| Heatmap.FirstWeekLabelled | src/components/ActivityHeatmap.tsx:67-75 | the first week always gets a label |
| Heatmap.TotalHours | src/components/ActivityHeatmap.tsx:83-84 | the total of the counts in hours, rounded to the nearest hour |
| Heatmap.ActiveDays | src/components/ActivityHeatmap.tsx:85 | counts the days with a positive count: 0 exactly when none has one, all exactly when all have one |
| Stats.CategoryIndex | src/components/Stats.tsx:53-55 | the first category, in table order, with a keyword contained in the lower-cased name |
| Stats.GetCategory | src/components/Stats.tsx:51-57 | the key of the first matching category, or `other` when none matches |
| Stats.FirstMatchWins | src/components/Stats.tsx:53-54 | a category matched with no earlier match is the result |
| Stats.FirefoxIsSocial | src/components/Stats.tsx:29-31 | "firefox" contains the social keyword "x", so it is social and not browsing |
| Stats.SliceIndex | src/components/Stats.tsx:67-68 | how `slice` reads an index: negative indices count from the end, and both ends are clamped |
| Stats.PeriodsShape | src/components/Stats.tsx:66-68 | the current period is the last `dayCount` days; the previous period is up to `dayCount` days just before it; the range `all` has an empty previous period |
| Stats.Snoc | src/components/Stats.tsx:79-85 | one more pair bumps its application's total, its category's total and the overall total by its seconds |
| Stats.AddDay | src/components/Stats.tsx:79-89 | the inner loop extends all three running totals by one day |
| Stats.ProcessPeriod | src/components/Stats.tsx:70-102 | the loop's per-application, per-category and overall totals are those of the period's pairs |
| Stats.AggregateTotal | src/components/Stats.tsx:77-89 | the per-application totals add up to the overall total |
| Stats.CategoryTotal | src/components/Stats.tsx:77-89 | the per-category totals add up to the overall total |
| Stats.AggregateGet | src/components/Stats.tsx:81 | an application's aggregated value is the sum of its seconds over the pairs |
| Stats.SumForKeyAppend | src/components/Stats.tsx:81 | an application's sum splits over concatenated periods |
| Stats.SumForDistinctKey | src/components/Stats.tsx:79 | within one day's summary an application's sum is its own value |
| Stats.AggregatedPerApp | src/components/Stats.tsx:79-81 | `aggregated[app]` is the sum of `appSummary[app]` over the days of the period |
| Stats.PairsSum | src/components/Stats.tsx:79-81 | the pairs of a period hold, per application, the sum of its per-day values |
| Stats.TotalChange | src/components/Stats.tsx:107-109 | 0 when the previous total is 0; otherwise the change in percent of the previous total, positive exactly for growth and 0 exactly for no change |
| Stats.RunEnding | src/components/Stats.tsx:119-123 | a run ending at a date is at least 1 and at most the number of dates so far |
| Stats.StreakLoop | src/components/Stats.tsx:111-126 | empty data gives 0 and 0; otherwise the current streak is the run ending at the latest date, at least 1, and the maximum is the longest run and at least the current one |
| Stats.Streaks | src/components/Stats.tsx:114-126 | the same facts hold over the sorted dates |
| Stats.SortedApps | src/components/Stats.tsx:128-135 | one row per aggregated application, in non-increasing seconds, each with its category, and every application appears |
| Gamification.DayDiff | src/components/Gamification.tsx:75 | the whole days between two times, rounded down |
| Gamification.StreakAsWritten | src/components/Gamification.tsx:66-93 | as written, the longest streak is at least the current one |
| Gamification.StreakLoop | src/components/Gamification.tsx:66-93 | the loop computes `StreakAsWritten`, and the longest streak is at least the current one |
| Gamification.LoadStreak | src/components/Gamification.tsx:62-99 | the streaks are those of the loop over the dates sorted newest first; nothing recorded gives 0 and 0 and no last active day; otherwise the last active day is the newest recorded date |
| Gamification.DescendingHeadIsMax | src/components/Gamification.tsx:98 | the first of the dates sorted newest first is the newest |
| Sorting.SortIntsDescending | src/components/Gamification.tsx:66 | `sort().reverse()`: the result is newest first and a permutation of the input |
| Sorting.ReverseMultiset | src/components/Gamification.tsx:66 | `reverse()` keeps every element, each as often |
| Gamification.TodayOnlyCountsTwo | src/components/Gamification.tsx:77-86 | as written, a single day recorded today gives a streak of 2 |
| Gamification.CurrentIsOldestRun | src/components/Gamification.tsx:85-93 | as written, today, yesterday and ten days ago give a current streak of 1, the oldest run, where the user is on a 2-day streak |
| Gamification.LeadingRun | src/components/Gamification.tsx:71-91 | the run of dates from the newest on that are at most a day apart; it ends just before the first larger gap |
| Gamification.CurrentStreak | src/components/Gamification.tsx:77-93 | intended: 0 when nothing is recorded or the last day is over a day old; otherwise the run from the latest day |
| Gamification.LongestStreak | src/components/Gamification.tsx:88-92 | intended: at least the leading run, at most the number of days, at least 1 for any history |
| Gamification.LongestCoversRuns | src/components/Gamification.tsx:88-92 | every run in the history is at most the longest streak |
| Gamification.LongestCoversCurrent | src/components/Gamification.tsx:92-93 | the current streak never exceeds the longest |
| Gamification.IntendedExamples | src/components/Gamification.tsx:66-93 | intended values: today only gives 1 and 1; today, yesterday and ten days ago give 2 and 2 |
| Gamification.Points | src/components/Gamification.tsx:108-109 | one point per whole six minutes: `floor(10 · seconds / 3600)` |
| Gamification.BadgeLadder | src/components/Gamification.tsx:130-142 | streak_30 implies streak_7; marathon implies productive_day, which implies first_hour; early_bird is always unlocked and night_owl never |
| Gamification.UnknownBadgeLocked | src/components/Gamification.tsx:140 | an unknown badge id never unlocks |
| Gamification.Badges | src/components/Gamification.tsx:112-117 | one flag per badge definition, in order, as `checkBadgeUnlocked` decides |
| Gamification.GoalProgress | src/components/Gamification.tsx:144-151 | goal 1 is the daily average (over at least one day) when within its target and the target otherwise; goal 2 is the share of 8 hours, and 100 above 8 hours; goal 3 is the current streak; others give 0 |
| AICoach.ProductiveSeconds | src/components/AICoach.tsx:68-71 | with no negative durations, the productive seconds lie between 0 and the total |
| AICoach.HourlyTotals | src/components/AICoach.tsx:59 | the hourly totals always have 24 slots |
| AICoach.CoachSnoc | src/components/AICoach.tsx:63-72 | one more pair bumps the application's usage and the total, and the productive seconds exactly when the application is productive |
| AICoach.AddSummary | src/components/AICoach.tsx:63-72 | the loop over a day's summary extends the three running totals by that day |
| AICoach.AddEntries | src/components/AICoach.tsx:74-78 | each hour's slot grows by the durations of the entries starting in that hour |
| AICoach.HourlyTotalsSum | src/components/AICoach.tsx:74-78 | each hourly slot is the sum of the durations starting in that hour |
| AICoach.Accumulate | src/components/AICoach.tsx:57-79 | the accumulation loop's total, productive seconds and usage are those of all days' pairs, and each hour's slot sums the entries of all days starting in it |
| AICoach.ConcatHours | src/components/AICoach.tsx:75 | concatenating the days keeps every hour in 0 to 23 |
| AICoach.HourSumAppend | src/components/AICoach.tsx:77 | an hour's sum splits over concatenated entry lists |
| AICoach.PeakHour | src/components/AICoach.tsx:85 | `indexOf(max)`: the first hour holding the maximum |
| AICoach.PeakPeriod | src/components/AICoach.tsx:123 | morning exactly below 12, afternoon exactly from 12 to 17, evening exactly from 18 |
| AICoach.FirstDistracting | src/components/AICoach.tsx:146-149 | the first distracting application in the given order, and none exactly when no application is distracting |
| AICoach.TopDistractorIsMax | src/components/AICoach.tsx:146-149 | the top distractor has at least the usage of every distracting application |
| AICoach.ProductivityInsight | src/components/AICoach.tsx:93-120 | achievement exactly for a score ≥ 70, tip exactly for 50 to 69, warning exactly below 50 |
| AICoach.PatternInsight | src/components/AICoach.tsx:163-181 | night owl exactly when evening beats both other periods; else early bird exactly when morning beats both; else nothing |
| AICoach.InsightList | src/components/AICoach.tsx:93-181 | 2 to 5 insights: productivity first, power hours second with end (peak+2) mod 24, no second productivity insight; each of overwork, distractor and pattern is present exactly when chosen |
| AICoach.PatternOf | src/components/AICoach.tsx:86-88 | the pattern from the 6–12, 12–18 and 18–24 sums is night owl, early bird or nothing |
| AICoach.Analyze | src/components/AICoach.tsx:27-51 | no data gives exactly the single no-data tip, and data never does |
| AICoach.AnalyzeActivity | src/components/AICoach.tsx:27-184 | the accumulating and pushing code computes `Analyze` |
| AICoach.PushInsights | src/components/AICoach.tsx:93-181 | the sequence of conditional pushes produces the specified insight list |
| AICoach.Unfold | src/components/AICoach.tsx:43-44 | on data, the analysis is the insight list of the day totals and the hourly totals |
| AICoach.InsightOrder | src/components/AICoach.tsx:93-131 | the productivity insight precedes the power hours, whose start is a busiest hour and whose end is two hours later modulo 24 |
| AICoach.OverworkIff | src/components/AICoach.tsx:82-134 | the burnout warning appears exactly when the average day exceeds 10 hours |
| AICoach.AverageOver | src/components/AICoach.tsx:82 | `(total / days) / 3600 > 10` holds exactly when total > 36000 × days |
| AICoach.PatternsExclusive | src/components/AICoach.tsx:163-181 | night owl and early bird never both appear |
| AICoach.NightOwlIff | src/components/AICoach.tsx:163 | the night-owl insight appears exactly when the evening sum beats both the morning and the afternoon sums |
| AICoach.DistractorIff | src/components/AICoach.tsx:146-160 | a top-distractor insight appears exactly when some used application is distracting |
| Dashboard.TopApps | src/components/Dashboard.tsx:36-38 | at most ten entries, in non-increasing seconds, all taken from today's summary |
| Dashboard.TopAppsAreLargest | src/components/Dashboard.tsx:36-38 | an application left out has no more time than any application shown |
| Dashboard.TotalNonNegative | src/components/Dashboard.tsx:40 | with no negative durations the day's total is not negative |
| Dashboard.TopAppsWithinTotal | src/components/Dashboard.tsx:36-40 | the ten shown take at most the day's total, and all of it when there are at most ten applications |
| Dashboard.Percent | src/components/Dashboard.tsx:129 | 0 for a zero total; otherwise the share of the total in whole percent, rounded to nearest with halves up |
| Dashboard.PercentRange | src/components/Dashboard.tsx:129 | a share of the total lies between 0 and 100 percent |
| Dashboard.UpdateIcons | src/components/Dashboard.tsx:18-20 | an update with an icon sets that application's entry; one without leaves the cache; other entries never change |
| Text.Lower | src/lib/analytics-engine.ts:19 | `toLowerCase` on ASCII: the same length, each letter lower-cased |
| Text.LowerIdempotent | src/lib/analytics-engine.ts:19 | lower-casing twice is lower-casing once |
| Text.Trim | electron/main.ts:209 | the trimmed text occurs in the input and neither starts nor ends with white space |
| Text.TrimSlice | electron/main.ts:209 | the trimmed text is what lies between the leading and the trailing white space, both of which are removed in full |
| Text.TrimEmptyIff | src/components/PrivacySettings.tsx:55 | the trimmed text is empty exactly when the input is all white space |
| Text.NatToStringRoundTrip | src/lib/app-icons.ts:53 | the decimal rendering of a number reads back as that number |
| Sorting.SortByValue | src/components/Dashboard.tsx:37 | the descending sort by value is non-increasing and a permutation |
| Sorting.SortByValueStable | src/components/Dashboard.tsx:37 | the sort is stable: for every value, the entries holding it keep their order of arrival, which decides ties such as the tenth place of the top ten |
| Sorting.SortedDistinct | src/components/PrivacySettings.tsx:33 | `Array.from(set).sort()`: strictly ascending and holding exactly the given strings |
| Sorting.SortInts | src/components/Stats.tsx:114 | ascending and a permutation |

## Left out

- Electron plumbing is not modelled: windows, app lifecycle, the IPC transport, preload bridges and the live window push. The IPC handlers are methods of `Tracker.ActivityTracker`.
- The active-window sampler, the system idle time and `Date.now` are foreign calls. They are parameters.
- File and JSON I/O are not modelled. `loadData` is `Tracker.LoadData` over an optional parsed file, and `saveData` only sets the ghost `persisted` copy.
- Icon extraction (get-app-icon and the `.app` path trimming that feeds it, electron/main.ts:215-243) is not modelled. The cache is a map that is passed in.
- Overlapping asynchronous ticks are not modelled. The tick has no re-entrancy guard, and the model treats ticks as sequential.
- Dates are inputs: `toISOString` dates, `getHours`, heat-map date generation and calendar navigation. Today's date is a string, hours are integers in 0..23, and dates to compare are epoch milliseconds. Dates to sort are compared as integers, which is the order of ISO date strings.
- Heatmap.MonthLabels: the month of a date string is an input function, as `new Date(date).getMonth()` is date logic.
- Floating-point displays are not modelled: Stats loyalty and the hourly `toFixed` pattern, the insight message texts and `toFixed(1)` hours, progress rings and the calendar colour. Stats.TotalChange, Gamification.GoalProgress and AICoach.AverageOver use exact reals. `Math.round` of a single division of integers (the entry duration, the heat-map hours) is exact integer arithmetic: for the magnitudes involved, the double quotient lands on a half exactly when the exact one does.
- Analytics.ProductivityScore: rounds the exact ratio 100·p/t. The source rounds the double `(p / t) * 100`, which divides before it multiplies; near a half the double can fall just below it, so the model can be one point higher (p = 23, t = 40: the source gives 57, the model 58).
- Dashboard.Percent: rounds the exact share 100·s/t, where the source rounds the double `(s / t) * 100`; as for the productivity score, a share next to a half can come out one point higher than the source's.
- Tracker.ActivityTracker.constructor: requires the stored ledger to satisfy the ledger invariant, that is, the file is one this program wrote. `loadData` (electron/main.ts:38-47) accepts any parsed JSON, and a hand-edited or corrupted file (a summary that disagrees with its entries, say) is not modelled.
- Text.Lower: lower-cases the ASCII letters only. JavaScript `toLowerCase` also lowers other letters (`Ä` to `ä`), which the privacy exclusion, the icon partial match and the categorisation would then see.
- Sorting.StrLt: compares characters as Unicode code points; the default `.sort()` compares UTF-16 code units, which orders characters above U+FFFF differently from those between U+E000 and U+FFFF.
- Tallies: keeps keys in insertion order. `Object.entries` lists integer-like keys (such as an application named `2048`) first, in numeric order. Its keys are plain strings, whereas the JavaScript objects used as tables inherit `Object.prototype`: an application named `constructor` or `__proto__` is mishandled by `(summary[name] || 0) + duration` (electron/main.ts:124-125) and by the icon lookup (src/lib/app-icons.ts:36-38), and the model treats such names as ordinary keys.
- AICoach.Accumulate: hourly totals are kept in milliseconds rather than seconds. Dividing every slot by 1000 changes neither comparison between slots nor the peak hour.
- Analytics.ProcessDayData: the hourly array is not modelled, as the analytics engine is only used here for its totals.
- Stats: the hourly pattern, the per-app day sets (loyalty) and the CSV, JSON, text, HTML and PDF exports are not modelled.
- localStorage is a map. Only the keys the modelled operations read and write are present: integration flags, theme mode and preset, and the private-mode flag. The JSON layouts of the widget list and privacy rules are not modelled.
- Simulated `setTimeout` delays in the task adapters, sounds, and the instance ids from `Math.random` are not modelled. The instance id is a parameter of `CustomDashboard.AddWidget`.
- AppIcons.AppTableWellFormed: proves only that the keys are non-empty. That the 29 keys are distinct, as keys of an object literal must be, is not proved; comparing every pair of literal strings costs the solver too much.
- Rendering is not modelled: JSX, Tailwind classes (apart from the heat-map level classes and the widget column spans), recharts and confirm dialogs.

## Findings

| source | as written | input that shows it | evidently intended | confidence | as-written member | corrected member |
|---|---|---|---|---|---|---|
| src/components/Gamification.tsx:66-93 | At the newest date, a recent day sets `tempStreak` to 1. The same iteration then compares the date with today again and increments it. The loop also keeps counting toward the past and leaves the *oldest* run in `currentStreak`. | Only today recorded: the current streak shown is 2. Today, yesterday and ten days ago: the current streak shown is 1, although the user is on a 2-day streak. | The current streak is the run of consecutive days ending at the latest recorded day (0 when that day is over a day old). The longest is the longest such run, never below the current one. | not executed | Gamification.TodayOnlyCountsTwo | Gamification.CurrentStreak |

=== FILE: ai_coach.dfy ===
/** The rule-based coach (src/components/AICoach.tsx): from the whole
    history it derives a productivity score, the busiest hour, the average
    day and the most used distracting application, and turns them into an
    ordered list of insights. The hour an entry starts in (`getHours`) is
    an input. */
module AICoach {
  import opened Optional
  import opened Sorting
  import opened Tallies
  import opened Analytics
  import opened Stats

  datatype Insight =
    | NoData
    | HighProductivity(score: int)
    | MediumProductivity(score: int)
    | LowProductivity(score: int)
    | PeakTime(startHour: int, endHour: int, period: string)
    | Overwork
    | TopDistractor(app: string, seconds: int)
    | NightOwl
    | EarlyBird

  /** The `type` each insight is shown with. */
  function Kind(i: Insight): string {
    match i
    case NoData => "tip"
    case HighProductivity(_) => "achievement"
    case MediumProductivity(_) => "tip"
    case LowProductivity(_) => "warning"
    case PeakTime(_, _, _) => "prediction"
    case Overwork => "warning"
    case TopDistractor(_, _) => "tip"
    case NightOwl => "prediction"
    case EarlyBird => "prediction"
  }

  // ---------------------------------------------------------------------
  // Metrics
  // ---------------------------------------------------------------------

  /** The seconds of the entries whose application is productive. */
  function ProductiveSeconds(pairs: Tally): (p: int)
    ensures (forall i :: 0 <= i < |pairs| ==> pairs[i].1 >= 0) ==> 0 <= p <= SumSeconds(pairs)
  {
    if pairs == [] then 0
    else
      var last := pairs[|pairs| - 1];
      ProductiveSeconds(pairs[..|pairs| - 1]) + (if CategorizeApp(last.0) == Productive then last.1 else 0)
  }

  /** `hourlyTotals`: for each hour of the day, the time of the entries
      starting in it. Each entry is its start hour and its length. */
  function HourlyTotals(entries: seq<(int, int)>): (h: seq<int>)
    requires forall i :: 0 <= i < |entries| ==> 0 <= entries[i].0 < 24
    ensures |h| == 24
  {
    if entries == [] then seq(24, _ => 0)
    else
      var init := entries[..|entries| - 1];
      var last := entries[|entries| - 1];
      assert forall i :: 0 <= i < |init| ==> init[i] == entries[i];
      var h := HourlyTotals(init);
      h[last.0 := h[last.0] + last.1]
  }

  lemma CoachSnoc(pairs: Tally, x: (string, int))
    ensures Aggregate(pairs + [x]) == Bump(Aggregate(pairs), x.0, x.1)
    ensures SumSeconds(pairs + [x]) == SumSeconds(pairs) + x.1
    ensures ProductiveSeconds(pairs + [x]) ==
      ProductiveSeconds(pairs) + (if CategorizeApp(x.0) == Productive then x.1 else 0)
  {
    assert (pairs + [x])[..|pairs|] == pairs;
  }

  /** The running totals of `generateInsights` after the pairs `seen`. */
  predicate Running(seen: Tally, total: int, productive: int, usage: Tally) {
    total == SumSeconds(seen) && productive == ProductiveSeconds(seen) && usage == Aggregate(seen)
  }

  /** The body of the `forEach` over one day's summary: one `[app, sec]`
      pair. */
  method AddPair(ghost seen: Tally, total: int, productive: int, usage: Tally, x: (string, int))
    returns (total': int, productive': int, usage': Tally)
    requires Running(seen, total, productive, usage)
    ensures Running(seen + [x], total', productive', usage')
  {
    var (app, seconds) := x;
    CoachSnoc(seen, x);
    total' := total + seconds;
    usage' := Bump(usage, app, seconds);
    productive' := productive;
    if CategorizeApp(app) == Productive {
      productive' := productive + seconds;
    }
  }

  /** The `Object.entries(day.appSummary).forEach` pass of one day. */
  method AddSummary(day: Tally, ghost done: Tally, total0: int, productive0: int, usage0: Tally)
    returns (total: int, productive: int, usage: Tally)
    requires Running(done, total0, productive0, usage0)
    ensures Running(done + day, total, productive, usage)
  {
    total, productive, usage := total0, productive0, usage0;
    var k := 0;
    assert done + day[..0] == done;
    while k < |day|
      invariant 0 <= k <= |day|
      invariant Running(done + day[..k], total, productive, usage)
    {
      ConcatPrefixSnoc(done, day, k);
      total, productive, usage := AddPair(done + day[..k], total, productive, usage, day[k]);
      k := k + 1;
    }
    assert day[..k] == day;
  }

  /** The `day.entries?.forEach` pass: each entry's length is added to the
      slot of the hour it starts in. */
  method AddEntries(hourly: array<int>, entries: seq<(int, int)>)
    requires hourly.Length == 24
    requires forall i :: 0 <= i < |entries| ==> 0 <= entries[i].0 < 24
    modifies hourly
    ensures forall h :: 0 <= h < 24 ==> hourly[h] == old(hourly[h]) + HourSum(entries, h)
  {
    var k := 0;
    while k < |entries|
      invariant 0 <= k <= |entries|
      invariant forall h :: 0 <= h < 24 ==> hourly[h] == old(hourly[h]) + HourSum(entries[..k], h)
    {
      assert entries[..k + 1][..k] == entries[..k];
      hourly[entries[k].0] := hourly[entries[k].0] + entries[k].1;
      k := k + 1;
    }
    assert entries[..k] == entries;
  }

  /** The time of the entries starting in hour `h`. */
  function HourSum(entries: seq<(int, int)>, h: int): int {
    if entries == [] then 0
    else
      var last := entries[|entries| - 1];
      HourSum(entries[..|entries| - 1], h) + (if last.0 == h then last.1 else 0)
  }

  /** The slots of `HourlyTotals` are the per-hour sums. */
  lemma {:induction false} HourlyTotalsSum(entries: seq<(int, int)>)
    requires forall i :: 0 <= i < |entries| ==> 0 <= entries[i].0 < 24
    ensures forall h :: 0 <= h < 24 ==> HourlyTotals(entries)[h] == HourSum(entries, h)
  {
    if entries != [] {
      var init := entries[..|entries| - 1];
      assert forall i :: 0 <= i < |init| ==> init[i] == entries[i];
      HourlyTotalsSum(init);
    }
  }

  /** The metrics loop of `generateInsights` over the whole history. */
  method Accumulate(days: seq<Tally>, dayEntries: seq<seq<(int, int)>>)
    returns (totalSeconds: int, productiveSeconds: int, appUsage: Tally, hourlyTotals: seq<int>)
    requires |dayEntries| == |days|
    requires forall d, i :: 0 <= d < |dayEntries| && 0 <= i < |dayEntries[d]| ==> 0 <= dayEntries[d][i].0 < 24
    ensures totalSeconds == SumSeconds(Pairs(days))
    ensures productiveSeconds == ProductiveSeconds(Pairs(days))
    ensures appUsage == Aggregate(Pairs(days))
    ensures |hourlyTotals| == 24
    ensures forall h :: 0 <= h < 24 ==> hourlyTotals[h] == HourSum(Concat(dayEntries), h)
  {
    totalSeconds, productiveSeconds, appUsage := 0, 0, [];
    var hourly := new int[24](_ => 0);
    var d := 0;
    while d < |days|
      invariant 0 <= d <= |days|
      invariant Running(Pairs(days[..d]), totalSeconds, productiveSeconds, appUsage)
      invariant forall h :: 0 <= h < 24 ==> hourly[h] == HourSum(Concat(dayEntries[..d]), h)
    {
      PairsStep(days, d);
      totalSeconds, productiveSeconds, appUsage :=
        AddSummary(days[d], Pairs(days[..d]), totalSeconds, productiveSeconds, appUsage);
      AddEntries(hourly, dayEntries[d]);
      HourSumStep(dayEntries, d);
      d := d + 1;
    }
    assert days[..d] == days;
    assert dayEntries[..d] == dayEntries;
    hourlyTotals := hourly[..];
  }

  lemma PairsStep(days: seq<Tally>, d: nat)
    requires d < |days|
    ensures Pairs(days[..d + 1]) == Pairs(days[..d]) + days[d]
  {
    assert days[..d + 1][..d] == days[..d];
  }

  /** One more day's entries add their per-hour sums. */
  lemma HourSumStep(dayEntries: seq<seq<(int, int)>>, d: nat)
    requires d < |dayEntries|
    ensures forall h ::
              HourSum(Concat(dayEntries[..d + 1]), h) == HourSum(Concat(dayEntries[..d]), h) + HourSum(dayEntries[d], h)
  {
    assert dayEntries[..d + 1][..d] == dayEntries[..d];
    forall h {
      HourSumAppend(Concat(dayEntries[..d]), dayEntries[d], h);
    }
  }

  /** All entries of the history, day after day. */
  function Concat(dayEntries: seq<seq<(int, int)>>): seq<(int, int)> {
    if dayEntries == [] then []
    else Concat(dayEntries[..|dayEntries| - 1]) + dayEntries[|dayEntries| - 1]
  }

  lemma ConcatHours(dayEntries: seq<seq<(int, int)>>)
    requires forall d, i :: 0 <= d < |dayEntries| && 0 <= i < |dayEntries[d]| ==> 0 <= dayEntries[d][i].0 < 24
    ensures forall i :: 0 <= i < |Concat(dayEntries)| ==> 0 <= Concat(dayEntries)[i].0 < 24
  {
    if dayEntries != [] {
      ConcatHours(dayEntries[..|dayEntries| - 1]);
    }
  }

  lemma {:induction false} HourSumAppend(a: seq<(int, int)>, b: seq<(int, int)>, h: int)
    ensures HourSum(a + b, h) == HourSum(a, h) + HourSum(b, h)
    decreases |b|
  {
    if b != [] {
      var b' := b[..|b| - 1];
      assert (a + b)[..|a + b| - 1] == a + b';
      HourSumAppend(a, b', h);
    } else {
      assert a + b == a;
    }
  }

  /** `hourlyTotals.indexOf(Math.max(...hourlyTotals))`: the first hour
      holding the largest total. */
  function PeakHour(h: seq<int>, from: nat): (k: nat)
    requires from < |h|
    ensures from <= k < |h|
    ensures forall j :: from <= j < |h| ==> h[j] <= h[k]
    ensures forall j :: from <= j < k ==> h[j] < h[k]
    decreases |h| - from
  {
    if from == |h| - 1 then from
    else
      var k := PeakHour(h, from + 1);
      if h[from] >= h[k] then from else k
  }

  function SumRange(h: seq<int>, lo: nat, hi: nat): int
    requires lo <= hi <= |h|
    decreases hi - lo
  {
    if lo == hi then 0 else h[lo] + SumRange(h, lo + 1, hi)
  }

  /** The period named for the peak hour; hours before 6 count as
      morning. */
  function PeakPeriod(hour: int): (p: string)
    ensures p == "morning" <==> hour < 12
    ensures p == "afternoon" <==> 12 <= hour < 18
    ensures p == "evening" <==> hour >= 18
  {
    if hour < 12 then "morning" else if hour < 18 then "afternoon" else "evening"
  }

  /** The position of the first entry whose application is categorised as
      distracting, or `|sorted|`. */
  function DistractingIndex(sorted: Tally): (k: nat)
    ensures k <= |sorted|
    ensures k < |sorted| ==> CategorizeApp(sorted[k].0) == Distracting
    ensures forall j :: 0 <= j < k ==> CategorizeApp(sorted[j].0) != Distracting
  {
    if sorted == [] then 0
    else if CategorizeApp(sorted[0].0) == Distracting then 0
    else 1 + DistractingIndex(sorted[1..])
  }

  /** The first entry, in order of use with the largest first, whose
      application is categorised as distracting. */
  function FirstDistracting(sorted: Tally): (r: Option<(string, int)>)
    ensures r.Some? ==> r.value in sorted && CategorizeApp(r.value.0) == Distracting
    ensures r.None? <==> forall x :: x in sorted ==> CategorizeApp(x.0) != Distracting
    ensures r.Some? ==> exists k :: (0 <= k < |sorted| && sorted[k] == r.value &&
      forall j :: 0 <= j < k ==> CategorizeApp(sorted[j].0) != Distracting)
  {
    var k := DistractingIndex(sorted);
    if k < |sorted| then Some(sorted[k])
    else
      assert forall x :: x in sorted ==> CategorizeApp(x.0) != Distracting by {
        forall x | x in sorted ensures CategorizeApp(x.0) != Distracting {
          var j :| 0 <= j < |sorted| && sorted[j] == x;
        }
      }
      None
  }

  /** The top distractor is the most used distracting application. */
  lemma TopDistractorIsMax(usage: Tally, x: (string, int))
    requires FirstDistracting(SortByValue(usage)).Some?
    requires x in usage && CategorizeApp(x.0) == Distracting
    ensures FirstDistracting(SortByValue(usage)).value.1 >= x.1
  {
    var sorted := SortByValue(usage);
    var k := DistractingIndex(sorted);
    assert x in multiset(usage);
    assert x in sorted;
    NonIncreasingLater(sorted, k, x);
  }

  // ---------------------------------------------------------------------
  // Insights
  // ---------------------------------------------------------------------

  /** The productivity insight for a score. */
  function ProductivityInsight(score: int): (i: Insight)
    ensures i.HighProductivity? <==> score >= 70
    ensures i.MediumProductivity? <==> 50 <= score < 70
    ensures i.LowProductivity? <==> score < 50
  {
    if score >= 70 then HighProductivity(score)
    else if score >= 50 then MediumProductivity(score)
    else LowProductivity(score)
  }

  /** The pattern insight: night owl when the evening is busier than both
      other periods, else early bird when the morning is. */
  function PatternInsight(morning: int, afternoon: int, evening: int): (r: Option<Insight>)
    ensures r == Some(NightOwl) <==> evening > morning && evening > afternoon
    ensures r == Some(EarlyBird) <==> !(evening > morning && evening > afternoon) && morning > afternoon && morning > evening
    ensures r.None? || r == Some(NightOwl) || r == Some(EarlyBird)
  {
    if evening > morning && evening > afternoon then Some(NightOwl)
    else if morning > afternoon && morning > evening then Some(EarlyBird)
    else None
  }

  function OptionList(o: Option<Insight>): seq<Insight> {
    if o.Some? then [o.value] else []
  }

  /** The insights in the order the component pushes them: productivity,
      peak time, then the burnout warning, the top distractor and the
      pattern, each when it applies. */
  function InsightList(score: int, peak: int, overwork: bool, distractor: Option<(string, int)>,
                       pattern: Option<Insight>): (r: seq<Insight>)
    requires pattern.None? || pattern == Some(NightOwl) || pattern == Some(EarlyBird)
    ensures 2 <= |r| <= 5
    ensures r[0] == ProductivityInsight(score)
    ensures r[1] == PeakTime(peak, (peak + 2) % 24, PeakPeriod(peak))
    ensures forall j :: 1 <= j < |r| ==>
      !(r[j].HighProductivity? || r[j].MediumProductivity? || r[j].LowProductivity?)
    ensures NightOwl in r <==> pattern == Some(NightOwl)
    ensures EarlyBird in r <==> pattern == Some(EarlyBird)
    ensures Overwork in r <==> overwork
    ensures (exists j :: 0 <= j < |r| && r[j].TopDistractor?) <==> distractor.Some?
    ensures distractor.Some? ==> TopDistractor(distractor.value.0, distractor.value.1) in r
  {
    var r := [ProductivityInsight(score), PeakTime(peak, (peak + 2) % 24, PeakPeriod(peak))] +
      (if overwork then [Overwork] else []) +
      (if distractor.Some? then [TopDistractor(distractor.value.0, distractor.value.1)] else []) +
      OptionList(pattern);
    if distractor.Some? then
      var k := if overwork then 3 else 2;
      assert r[k] == TopDistractor(distractor.value.0, distractor.value.1);
      r
    else r
  }

  /** The pieces `generateInsights` computes from a non-empty history. */
  function TotalOf(pairs: Tally): int { SumSeconds(pairs) }

  function ScoreOf(pairs: Tally): int { ProductivityScore(ProductiveSeconds(pairs), SumSeconds(pairs)) }

  function DistractorOf(pairs: Tally): Option<(string, int)> { FirstDistracting(SortByValue(Aggregate(pairs))) }

  function PatternOf(hourly: seq<int>): (p: Option<Insight>)
    requires |hourly| == 24
    ensures p.None? || p == Some(NightOwl) || p == Some(EarlyBird)
  {
    PatternInsight(SumRange(hourly, 6, 12), SumRange(hourly, 12, 18), SumRange(hourly, 18, 24))
  }

  /** `generateInsights(data)` for a non-empty history of `dayCount` days,
      given its summary entries and its timed entries. */
  function GenerateInsights(pairs: Tally, entries: seq<(int, int)>, dayCount: nat): (r: seq<Insight>)
    requires dayCount > 0
    requires forall i :: 0 <= i < |entries| ==> 0 <= entries[i].0 < 24
  {
    var hourly := HourlyTotals(entries);
    InsightList(ScoreOf(pairs), PeakHour(hourly, 0), TotalOf(pairs) > 36000 * dayCount,
                DistractorOf(pairs), PatternOf(hourly))
  }

  /** The insights for a history: a single "no data" tip when it is
      empty. Each day brings its summary and its timed entries. */
  function Analyze(days: seq<Tally>, dayEntries: seq<seq<(int, int)>>): (r: seq<Insight>)
    requires |dayEntries| == |days|
    requires forall d, i :: 0 <= d < |dayEntries| && 0 <= i < |dayEntries[d]| ==> 0 <= dayEntries[d][i].0 < 24
    ensures days == [] <==> r == [NoData]
  {
    if days == [] then [NoData]
    else
      ConcatHours(dayEntries);
      GenerateInsights(Pairs(days), Concat(dayEntries), |days|)
  }

  /** `analyzeActivity()` followed by `generateInsights(data)`: the
      metrics loop, then the insights pushed one by one. */
  method AnalyzeActivity(days: seq<Tally>, dayEntries: seq<seq<(int, int)>>) returns (insights: seq<Insight>)
    requires |dayEntries| == |days|
    requires forall d, i :: 0 <= d < |dayEntries| && 0 <= i < |dayEntries[d]| ==> 0 <= dayEntries[d][i].0 < 24
    ensures insights == Analyze(days, dayEntries)
  {
    if |days| == 0 {
      return [NoData];
    }
    var totalSeconds, productiveSeconds, appUsage, hourlyTotals := Accumulate(days, dayEntries);
    ConcatHours(dayEntries);
    HourlyTotalsSum(Concat(dayEntries));
    assert hourlyTotals == HourlyTotals(Concat(dayEntries));
    var productivityScore := ProductivityScore(productiveSeconds, totalSeconds);
    var peakHour := PeakHour(hourlyTotals, 0);
    var morningActivity := SumRange(hourlyTotals, 6, 12);
    var afternoonActivity := SumRange(hourlyTotals, 12, 18);
    var eveningActivity := SumRange(hourlyTotals, 18, 24);

    AverageOver(totalSeconds, |days|);
    var overwork := (totalSeconds as real / |days| as real) / 3600.0 > 10.0;
    var topDistractor := FirstDistracting(SortByValue(appUsage));
    insights := PushInsights(productivityScore, peakHour, overwork, topDistractor,
                             morningActivity, afternoonActivity, eveningActivity);
    Unfold(days, dayEntries);
  }

  /** The insight pushes of `generateInsights`, in order. */
  method PushInsights(productivityScore: int, peakHour: int, overwork: bool, topDistractor: Option<(string, int)>,
                      morningActivity: int, afternoonActivity: int, eveningActivity: int)
    returns (insights: seq<Insight>)
    ensures insights == InsightList(productivityScore, peakHour, overwork, topDistractor,
                                    PatternInsight(morningActivity, afternoonActivity, eveningActivity))
  {
    insights := [];
    if productivityScore >= 70 {
      insights := insights + [HighProductivity(productivityScore)];
    } else if productivityScore >= 50 {
      insights := insights + [MediumProductivity(productivityScore)];
    } else {
      insights := insights + [LowProductivity(productivityScore)];
    }
    var period := if peakHour < 12 then "morning" else if peakHour < 18 then "afternoon" else "evening";
    insights := insights + [PeakTime(peakHour, (peakHour + 2) % 24, period)];
    assert insights == [ProductivityInsight(productivityScore), PeakTime(peakHour, (peakHour + 2) % 24, PeakPeriod(peakHour))];
    ghost var first := insights;
    ghost var burnout: seq<Insight> := if overwork then [Overwork] else [];
    if overwork {
      insights := insights + [Overwork];
    }
    assert insights == first + burnout;
    ghost var distraction: seq<Insight> :=
      if topDistractor.Some? then [TopDistractor(topDistractor.value.0, topDistractor.value.1)] else [];
    if topDistractor.Some? {
      insights := insights + [TopDistractor(topDistractor.value.0, topDistractor.value.1)];
    }
    assert insights == first + burnout + distraction;
    var pattern := PatternInsight(morningActivity, afternoonActivity, eveningActivity);
    if eveningActivity > morningActivity && eveningActivity > afternoonActivity {
      insights := insights + [NightOwl];
    } else if morningActivity > afternoonActivity && morningActivity > eveningActivity {
      insights := insights + [EarlyBird];
    }
    assert insights == first + burnout + distraction + OptionList(pattern);
  }

  /** `Analyze` on a non-empty history, spelled out. */
  lemma Unfold(days: seq<Tally>, dayEntries: seq<seq<(int, int)>>)
    requires |dayEntries| == |days| && days != []
    requires forall d, i :: 0 <= d < |dayEntries| && 0 <= i < |dayEntries[d]| ==> 0 <= dayEntries[d][i].0 < 24
    ensures forall i :: 0 <= i < |Concat(dayEntries)| ==> 0 <= Concat(dayEntries)[i].0 < 24
    ensures var pairs := Pairs(days);
      var hourly := HourlyTotals(Concat(dayEntries));
      Analyze(days, dayEntries) ==
      InsightList(ScoreOf(pairs), PeakHour(hourly, 0), TotalOf(pairs) > 36000 * |days|, DistractorOf(pairs), PatternOf(hourly))
  {
    ConcatHours(dayEntries);
  }

  /** The productivity insight comes first and is the only one of its
      kind; the peak-time insight follows it, at the busiest hour and
      spanning two hours round the clock. */
  lemma InsightOrder(pairs: Tally, entries: seq<(int, int)>, dayCount: nat)
    requires dayCount > 0
    requires forall i :: 0 <= i < |entries| ==> 0 <= entries[i].0 < 24
    ensures var r := GenerateInsights(pairs, entries, dayCount);
      var hourly := HourlyTotals(entries);
      r[0] == ProductivityInsight(ScoreOf(pairs)) && r[1].PeakTime? &&
      0 <= r[1].startHour < 24 && r[1].endHour == (r[1].startHour + 2) % 24 &&
      (forall h :: 0 <= h < 24 ==> hourly[h] <= hourly[r[1].startHour]) &&
      forall j :: 1 <= j < |r| ==> !(r[j].HighProductivity? || r[j].MediumProductivity? || r[j].LowProductivity?)
  {
    var hourly := HourlyTotals(entries);
    assert GenerateInsights(pairs, entries, dayCount) ==
      InsightList(ScoreOf(pairs), PeakHour(hourly, 0), TotalOf(pairs) > 36000 * dayCount,
                  DistractorOf(pairs), PatternOf(hourly));
  }

  /** The burnout warning appears exactly when the average day is over ten
      hours. */
  lemma OverworkIff(pairs: Tally, entries: seq<(int, int)>, dayCount: nat)
    requires dayCount > 0
    requires forall i :: 0 <= i < |entries| ==> 0 <= entries[i].0 < 24
    ensures Overwork in GenerateInsights(pairs, entries, dayCount) <==>
      (SumSeconds(pairs) as real / dayCount as real) / 3600.0 > 10.0
  {
    var hourly := HourlyTotals(entries);
    assert GenerateInsights(pairs, entries, dayCount) ==
      InsightList(ScoreOf(pairs), PeakHour(hourly, 0), TotalOf(pairs) > 36000 * dayCount,
                  DistractorOf(pairs), PatternOf(hourly));
    AverageOver(SumSeconds(pairs), dayCount);
  }

  /** `totalSeconds / days / 3600 > 10` in whole seconds. */
  lemma AverageOver(total: int, dayCount: nat)
    requires dayCount > 0
    ensures (total as real / dayCount as real) / 3600.0 > 10.0 <==> total > 36000 * dayCount
  {
    var d := dayCount as real;
    var perDay := total as real / d;
    assert perDay * d == total as real;
    assert (36000 * dayCount) as real == 36000.0 * d;
    if perDay > 36000.0 {
      ScaleStrict(36000.0, perDay, d);
    } else {
      ScaleWeak(perDay, 36000.0, d);
    }
  }

  lemma ScaleStrict(x: real, y: real, d: real)
    requires x < y && d > 0.0
    ensures x * d < y * d
  {
    assert y * d - x * d == (y - x) * d;
  }

  lemma ScaleWeak(x: real, y: real, d: real)
    requires x <= y && d > 0.0
    ensures x * d <= y * d
  {
    assert y * d - x * d == (y - x) * d;
  }

  /** Never both night owl and early bird. */
  lemma PatternsExclusive(pairs: Tally, entries: seq<(int, int)>, dayCount: nat)
    requires dayCount > 0
    requires forall i :: 0 <= i < |entries| ==> 0 <= entries[i].0 < 24
    ensures var r := GenerateInsights(pairs, entries, dayCount);
      !(NightOwl in r && EarlyBird in r)
  {
    var hourly := HourlyTotals(entries);
    assert GenerateInsights(pairs, entries, dayCount) ==
      InsightList(ScoreOf(pairs), PeakHour(hourly, 0), TotalOf(pairs) > 36000 * dayCount,
                  DistractorOf(pairs), PatternOf(hourly));
  }

  /** Night owl exactly when the evening (18-24) is busier than both the
      morning (6-12) and the afternoon (12-18), whatever the other
      insights. */
  lemma NightOwlIff(score: int, peak: int, overwork: bool, distractor: Option<(string, int)>, hourly: seq<int>)
    requires |hourly| == 24
    ensures var evening := SumRange(hourly, 18, 24);
      NightOwl in InsightList(score, peak, overwork, distractor, PatternOf(hourly)) <==>
      evening > SumRange(hourly, 6, 12) && evening > SumRange(hourly, 12, 18)
  {
  }

  /** There is a distractor insight exactly when some used application is
      distracting. */
  lemma DistractorIff(pairs: Tally, entries: seq<(int, int)>, dayCount: nat)
    requires dayCount > 0
    requires forall i :: 0 <= i < |entries| ==> 0 <= entries[i].0 < 24
    ensures (exists j :: 0 <= j < |GenerateInsights(pairs, entries, dayCount)| &&
               GenerateInsights(pairs, entries, dayCount)[j].TopDistractor?) <==>
      exists x :: x in Aggregate(pairs) && CategorizeApp(x.0) == Distracting
  {
    var hourly := HourlyTotals(entries);
    assert GenerateInsights(pairs, entries, dayCount) ==
      InsightList(ScoreOf(pairs), PeakHour(hourly, 0), TotalOf(pairs) > 36000 * dayCount,
                  DistractorOf(pairs), PatternOf(hourly));
    var usage := Aggregate(pairs);
    var sorted := SortByValue(usage);
    forall x
      ensures x in usage <==> x in sorted
    {
      assert x in usage <==> x in multiset(usage);
      assert x in sorted <==> x in multiset(sorted);
    }
  }
}

=== FILE: analytics.dfy ===
/** The analytics engine (src/lib/analytics-engine.ts): keyword
    categorisation of applications, the rounded productivity percentage, the
    per-day totals and the heat-map cells built from them. */
module Analytics {
  import opened Optional
  import opened Text
  import opened Arith

  datatype Category = Productive | Neutral | Distracting

  const ProductiveApps: seq<string> := ["vscode", "cursor", "terminal", "figma", "notion", "slack"]
  const DistractingApps: seq<string> := ["twitter", "reddit", "youtube", "facebook", "instagram"]

  /** `AnalyticsEngine.categorizeApp`. */
  function CategorizeApp(appName: string): (c: Category)
    ensures c == Productive <==> ContainsAny(Lower(appName), ProductiveApps)
    ensures c == Distracting <==>
      !ContainsAny(Lower(appName), ProductiveApps) && ContainsAny(Lower(appName), DistractingApps)
    ensures c == Neutral <==>
      !ContainsAny(Lower(appName), ProductiveApps) && !ContainsAny(Lower(appName), DistractingApps)
  {
    var normalized := Lower(appName);
    if ContainsAny(normalized, ProductiveApps) then Productive
    else if ContainsAny(normalized, DistractingApps) then Distracting
    else Neutral
  }

  /** The productive list is consulted first: a name holding keywords of
      both lists is productive. */
  lemma ProductiveWins(appName: string)
    requires ContainsAny(Lower(appName), ProductiveApps)
    requires ContainsAny(Lower(appName), DistractingApps)
    ensures CategorizeApp(appName) == Productive
  {
  }

  /** The process name the tracker records for Visual Studio Code is
      "Code", which is shorter than every keyword, so the editor is counted
      as neutral rather than productive. */
  lemma CodeIsNeutral()
    ensures CategorizeApp("Code") == Neutral
  {
    var n := Lower("Code");
    forall i | 0 <= i < |ProductiveApps| ensures !Contains(n, ProductiveApps[i]) {
      if Contains(n, ProductiveApps[i]) {
        ContainsLength(n, ProductiveApps[i]);
      }
    }
    forall i | 0 <= i < |DistractingApps| ensures !Contains(n, DistractingApps[i]) {
      if Contains(n, DistractingApps[i]) {
        ContainsLength(n, DistractingApps[i]);
      }
    }
  }

  /** `calculateProductivityScore(p, t)`: 0 for a zero total, else
      `Math.round(p / t * 100)`, that is the integer `r` with
      `r <= 100 p / t + 1/2 < r + 1`. */
  function ProductivityScore(p: int, t: int): (r: int)
    ensures t == 0 ==> r == 0
    ensures t > 0 ==> 2 * t * r <= 200 * p + t < 2 * t * (r + 1)
    ensures t < 0 ==> 2 * t * r >= 200 * p + t > 2 * t * (r + 1)
  {
    if t == 0 then 0
    else if t > 0 then (200 * p + t) / (2 * t)
    else (-(200 * p + t)) / (-2 * t)
  }

  /** A share of a positive total scores between 0 and 100, the whole total
      scores exactly 100 and nothing scores 0. */
  lemma ScoreRange(p: int, t: int)
    requires 0 <= p <= t && t > 0
    ensures 0 <= ProductivityScore(p, t) <= 100
    ensures p == t ==> ProductivityScore(p, t) == 100
    ensures p == 0 ==> ProductivityScore(p, t) == 0
  {
    var r := ProductivityScore(p, t);
    var d := 2 * t;
    assert d * 0 < d * (r + 1);
    CancelLt(d, 0, r + 1);
    assert d * r < d * 101;
    CancelLt(d, r, 101);
    if p == t {
      assert d * 100 < d * (r + 1);
      CancelLt(d, 100, r + 1);
    }
    if p == 0 {
      assert d * r < d * 1;
      CancelLt(d, r, 1);
    }
  }

  /** One element of the list `processDayData` receives; either field may
      be missing. */
  datatype Item = Item(duration: Option<int>, appName: Option<string>)

  /** `entry.duration || 0`. */
  function DurationOf(e: Item): int {
    e.duration.GetOr(0)
  }

  /** The category of `entry.appName || ''`. */
  function CategoryOf(e: Item): Category {
    CategorizeApp(e.appName.GetOr(""))
  }

  /** Sum of the durations of all items. */
  function SumAll(items: seq<Item>): int {
    if items == [] then 0 else SumAll(items[..|items| - 1]) + DurationOf(items[|items| - 1])
  }

  /** Sum of the durations of the items of one category. */
  function SumIn(items: seq<Item>, c: Category): int {
    if items == [] then 0
    else
      var last := items[|items| - 1];
      SumIn(items[..|items| - 1], c) + (if CategoryOf(last) == c then DurationOf(last) else 0)
  }

  /** Every item falls in exactly one category, so the three category sums
      make up the total. */
  lemma {:induction false} CategoriesPartition(items: seq<Item>)
    ensures SumIn(items, Productive) + SumIn(items, Neutral) + SumIn(items, Distracting) == SumAll(items)
  {
    if items != [] {
      CategoriesPartition(items[..|items| - 1]);
    }
  }

  datatype DayStats = DayStats(
    totalSeconds: int,
    productivityScore: int,
    productiveSeconds: int,
    neutralSeconds: int,
    distractingSeconds: int)

  /** What `processDayData` returns, hourly distribution aside. */
  function DayStatsOf(items: seq<Item>): DayStats {
    var p := SumIn(items, Productive);
    DayStats(SumAll(items), ProductivityScore(p, SumAll(items)), p,
             SumIn(items, Neutral), SumIn(items, Distracting))
  }

  /** `processDayData`: one pass accumulating the total and the three
      category sums. */
  method ProcessDayData(items: seq<Item>) returns (stats: DayStats)
    ensures stats == DayStatsOf(items)
    ensures stats.totalSeconds == stats.productiveSeconds + stats.neutralSeconds + stats.distractingSeconds
  {
    var total, productive, neutral, distracting := 0, 0, 0, 0;
    var i := 0;
    while i < |items|
      invariant 0 <= i <= |items|
      invariant total == SumAll(items[..i])
      invariant productive == SumIn(items[..i], Productive)
      invariant neutral == SumIn(items[..i], Neutral)
      invariant distracting == SumIn(items[..i], Distracting)
      invariant total == productive + neutral + distracting
    {
      var duration := DurationOf(items[i]);
      var category := CategoryOf(items[i]);
      assert items[..i + 1][..i] == items[..i];
      total := total + duration;
      if category == Productive {
        productive := productive + duration;
      } else if category == Distracting {
        distracting := distracting + duration;
      } else {
        neutral := neutral + duration;
      }
      i := i + 1;
    }
    assert items[..i] == items;
    stats := DayStats(total, ProductivityScore(productive, total), productive, neutral, distracting);
  }

  /** An item without a duration adds nothing, and one without a name is
      neutral (unless the empty name were a keyword, which it is not). */
  lemma MissingFields(items: seq<Item>, e: Item)
    requires e.duration.None?
    ensures SumAll(items + [e]) == SumAll(items)
    ensures forall c :: SumIn(items + [e], c) == SumIn(items, c)
  {
    assert (items + [e])[..|items|] == items;
  }

  lemma NamelessIsNeutral(e: Item)
    requires e.appName.None?
    ensures CategoryOf(e) == Neutral
  {
  }

  /** One cell of the heat map. */
  datatype HeatCell = HeatCell(date: string, score: int, count: int)

  /** `generateHeatmapData(history)`, over the entries of the history
      object in order. */
  function GenerateHeatmapData(history: seq<(string, seq<Item>)>): (cells: seq<HeatCell>)
    ensures |cells| == |history|
    ensures forall i :: 0 <= i < |history| ==>
      cells[i].date == history[i].0 &&
      cells[i].count == SumAll(history[i].1) &&
      cells[i].score == ProductivityScore(SumIn(history[i].1, Productive), SumAll(history[i].1))
  {
    if history == [] then []
    else
      var stats := DayStatsOf(history[0].1);
      [HeatCell(history[0].0, stats.productivityScore, stats.totalSeconds)]
        + GenerateHeatmapData(history[1..])
  }
}

=== FILE: app_icons.dfy ===
/** Icon and colour lookup by application name, and the two duration
    formatters used across the dashboards (src/lib/app-icons.ts). */
module AppIcons {
  import opened Optional
  import opened Text

  datatype AppStyle = AppStyle(icon: string, color: string)

  /** `APP_ICONS`, in its declaration order (the order `Object.entries`
      enumerates it in). */
  const AppTable: seq<(string, AppStyle)> := [
    ("Visual Studio Code", AppStyle("💻", "#007ACC")),
    ("Code", AppStyle("💻", "#007ACC")),
    ("Google Chrome", AppStyle("🌐", "#4285F4")),
    ("Chrome", AppStyle("🌐", "#4285F4")),
    ("Safari", AppStyle("🧭", "#006CFF")),
    ("Firefox", AppStyle("🦊", "#FF7139")),
    ("Slack", AppStyle("💬", "#4A154B")),
    ("Discord", AppStyle("🎮", "#5865F2")),
    ("Figma", AppStyle("🎨", "#F24E1E")),
    ("Terminal", AppStyle("⬛", "#333333")),
    ("iTerm2", AppStyle("⬛", "#333333")),
    ("Notion", AppStyle("📝", "#000000")),
    ("Spotify", AppStyle("🎵", "#1DB954")),
    ("Finder", AppStyle("📁", "#4A90D9")),
    ("Mail", AppStyle("📧", "#007AFF")),
    ("Messages", AppStyle("💬", "#34C759")),
    ("Zoom", AppStyle("📹", "#2D8CFF")),
    ("Microsoft Teams", AppStyle("👥", "#6264A7")),
    ("GitHub Desktop", AppStyle("🐙", "#24292E")),
    ("Postman", AppStyle("🚀", "#FF6C37")),
    ("Docker Desktop", AppStyle("🐳", "#2496ED")),
    ("TablePlus", AppStyle("📊", "#F8A51C")),
    ("Arc", AppStyle("🌈", "#FF6B6B")),
    ("Obsidian", AppStyle("💎", "#7C3AED")),
    ("Notes", AppStyle("📒", "#FFCC00")),
    ("Preview", AppStyle("🖼️", "#FF9500")),
    ("System Preferences", AppStyle("⚙️", "#8E8E93")),
    ("Activity Monitor", AppStyle("📈", "#34C759")),
    ("Electron", AppStyle("⚛️", "#47848F"))
  ]

  /** The style given to an application nothing in the table relates to. */
  const DefaultStyle := AppStyle("📱", "#6B7280")

  /** Index of the first entry of `table` whose key is exactly `name`, or
      `|table|`. */
  function ExactIndex(table: seq<(string, AppStyle)>, name: string, from: nat): (k: nat)
    requires from <= |table|
    ensures from <= k <= |table|
    ensures k < |table| ==> table[k].0 == name
    ensures forall j :: from <= j < k ==> table[j].0 != name
    decreases |table| - from
  {
    if from == |table| then from
    else if table[from].0 == name then from
    else ExactIndex(table, name, from + 1)
  }

  /** Whether a key is related to a name: either lower-cased one contains
      the other. */
  predicate Related(name: string, key: string) {
    Contains(Lower(name), Lower(key)) || Contains(Lower(key), Lower(name))
  }

  /** Index of the first entry of `table` related to `name`, or `|table|`. */
  function RelatedIndex(table: seq<(string, AppStyle)>, name: string, from: nat): (k: nat)
    requires from <= |table|
    ensures from <= k <= |table|
    ensures k < |table| ==> Related(name, table[k].0)
    ensures forall j :: from <= j < k ==> !Related(name, table[j].0)
    decreases |table| - from
  {
    if from == |table| then from
    else if Related(name, table[from].0) then from
    else RelatedIndex(table, name, from + 1)
  }

  /** The lookup `getAppIcon` performs, over any table: an exact key match
      first, then the first related key in table order, then the default. */
  function Lookup(table: seq<(string, AppStyle)>, name: string): AppStyle {
    var exact := ExactIndex(table, name, 0);
    if exact < |table| then table[exact].1
    else
      var related := RelatedIndex(table, name, 0);
      if related < |table| then table[related].1 else DefaultStyle
  }

  /** `getAppIcon(appName)`. */
  function GetAppIcon(name: string): AppStyle {
    Lookup(AppTable, name)
  }

  predicate KeysUnique(table: seq<(string, AppStyle)>) {
    forall i, j :: 0 <= i < j < |table| ==> table[i].0 != table[j].0
  }

  predicate KeysNonEmpty(table: seq<(string, AppStyle)>) {
    forall i :: 0 <= i < |table| ==> table[i].0 != ""
  }

  lemma AppTableWellFormed()
    ensures KeysNonEmpty(AppTable)
  {
  }

  /** A name that is a key of a table with unique keys gets that key's
      style. */
  lemma ExactMatch(table: seq<(string, AppStyle)>, k: nat)
    requires KeysUnique(table) && k < |table|
    ensures Lookup(table, table[k].0) == table[k].1
  {
    var e := ExactIndex(table, table[k].0, 0);
    assert e <= k;
  }

  /** A name that is no key gets the style of the first related entry in
      table order, or the default when no entry is related. */
  lemma PartialMatch(table: seq<(string, AppStyle)>, name: string, k: nat)
    requires forall i :: 0 <= i < |table| ==> table[i].0 != name
    requires k <= |table|
    requires k < |table| ==> Related(name, table[k].0)
    requires forall j :: 0 <= j < k ==> !Related(name, table[j].0)
    ensures Lookup(table, name) == if k < |table| then table[k].1 else DefaultStyle
  {
    assert ExactIndex(table, name, 0) == |table|;
    var r := RelatedIndex(table, name, 0);
    assert r <= k;
    assert r >= k;
  }

  /** The empty name is contained in every key, so it gets the first entry's
      style; in the application's table that is Visual Studio Code's. */
  lemma EmptyNameIsFirstEntry(table: seq<(string, AppStyle)>)
    requires KeysNonEmpty(table) && |table| > 0
    ensures Lookup(table, "") == table[0].1
  {
    assert ExactIndex(table, "", 0) == |table|;
    ContainsEmpty(Lower(table[0].0));
    assert Related("", table[0].0);
  }

  lemma EmptyNameIsCode()
    ensures GetAppIcon("") == AppStyle("💻", "#007ACC")
  {
    AppTableWellFormed();
    EmptyNameIsFirstEntry(AppTable);
  }

  /** `formatDuration(seconds)`. */
  function FormatDuration(seconds: int): string {
    if seconds < 60 then IntToString(seconds) + "s"
    else if seconds < 3600 then NatToString(seconds / 60) + "m"
    else NatToString(seconds / 3600) + "h " + NatToString((seconds % 3600) / 60) + "m"
  }

  /** `formatDurationLong(seconds)`. */
  function FormatDurationLong(seconds: int): string {
    if seconds < 60 then IntToString(seconds) + " seconds"
    else if seconds < 3600 then
      var mins := seconds / 60;
      var secs := seconds % 60;
      if secs > 0 then NatToString(mins) + " min " + NatToString(secs) + " sec"
      else NatToString(mins) + " minutes"
    else
      var hours := seconds / 3600;
      var mins := (seconds % 3600) / 60;
      if mins > 0 then NatToString(hours) + "h " + NatToString(mins) + "m"
      else NatToString(hours) + " hours"
  }

  /** Below a minute the seconds are shown as they are. */
  lemma FormatSeconds(seconds: int)
    requires seconds < 60
    ensures FormatDuration(seconds) == IntToString(seconds) + "s"
    ensures FormatDurationLong(seconds) == IntToString(seconds) + " seconds"
  {
  }

  /** From one minute to one hour: `m` whole minutes and `s` leftover
      seconds are shown as "<m>m", and in the long form as
      "<m> min <s> sec", or "<m> minutes" when no seconds are left over. */
  lemma {:induction false} FormatMinutes(seconds: int, m: nat, s: nat)
    requires s < 60 && 1 <= m < 60
    requires seconds == 60 * m + s
    ensures FormatDuration(seconds) == NatToString(m) + "m"
    ensures s > 0 ==> FormatDurationLong(seconds) == NatToString(m) + " min " + NatToString(s) + " sec"
    ensures s == 0 ==> FormatDurationLong(seconds) == NatToString(m) + " minutes"
  {
    assert seconds / 60 == m;
    assert seconds % 60 == s;
  }

  /** From one hour on: `h` whole hours and `m` (< 60) whole minutes left
      over are shown as "<h>h <m>m", and in the long form the same, or
      "<h> hours" when no minute is left over. */
  lemma {:induction false} FormatHours(seconds: int, h: nat, m: nat, s: nat)
    requires h >= 1 && m < 60 && s < 60
    requires seconds == 3600 * h + 60 * m + s
    ensures FormatDuration(seconds) == NatToString(h) + "h " + NatToString(m) + "m"
    ensures m > 0 ==> FormatDurationLong(seconds) == NatToString(h) + "h " + NatToString(m) + "m"
    ensures m == 0 ==> FormatDurationLong(seconds) == NatToString(h) + " hours"
  {
    assert seconds / 3600 == h;
    assert seconds % 3600 == 60 * m + s;
    assert (60 * m + s) / 60 == m;
  }
}

=== FILE: arith.dfy ===
/** Small facts about integer multiplication and remainder that the
    solver does not find unaided. */
module Arith {

  lemma MulNonNegative(x: int, y: int)
    requires x >= 0 && y >= 0
    ensures x * y >= 0
  {
  }

  /** Multiplying by a positive number preserves strict order. */
  lemma CancelLt(d: int, a: int, b: int)
    requires d > 0 && d * a < d * b
    ensures a < b
  {
    if a >= b {
      assert d * a - d * b == d * (a - b);
      MulNonNegative(d, a - b);
    }
  }

  /** `(k * d + r) % d == r` for a remainder `0 <= r < d`. */
  lemma ModOfMultiple(k: int, d: int, r: int)
    requires d > 0 && 0 <= r < d
    ensures (k * d + r) % d == r
  {
    var x := k * d + r;
    var q, m := x / d, x % d;
    assert x == q * d + m;
    assert (k - q) * d == m - r;
    if k - q >= 1 {
      MulNonNegative(k - q - 1, d);
    } else if k - q <= -1 {
      MulNonNegative(q - k - 1, d);
    }
  }
}

=== FILE: calendar.dfy ===
/** The calendar view (src/components/CalendarView.tsx): ledger entries of
    a minute or more become calendar events; the events can be filtered by
    application, summarised, and shown at three zoom levels. Times are
    epoch milliseconds; a duration `(end - start) / 1000` in seconds is
    kept here as the exact number of milliseconds `end - start`. */
module Calendar {
  import opened Optional
  import opened Ledger
  import opened Sorting
  import opened Tallies

  datatype Event = Event(
    id: string,
    appName: string,
    start: int,
    end: int,
    icon: Option<string>)

  /** An entry is shown unless it lasted under 60 seconds. */
  predicate LongEnough(e: Entry) {
    e.endTime - e.startTime >= 60000
  }

  /** The event built for an entry, with its icon, if any, from the icon
      cache. Its colour, `getAppIcon(appName).color`, depends on the name
      alone and is left to `AppIcons.GetAppIcon`. */
  function ToEvent(e: Entry, icons: map<string, string>): (ev: Event)
    ensures ev.id == e.id && ev.appName == e.appName
    ensures ev.start == e.startTime && ev.end == e.endTime
    ensures ev.icon.Some? <==> e.appName in icons
  {
    Event(e.id, e.appName, e.startTime, e.endTime,
      if e.appName in icons then Some(icons[e.appName]) else None)
  }

  /** The events of one day's entries, in entry order. */
  function DayEvents(entries: seq<Entry>, icons: map<string, string>): (evs: seq<Event>)
    ensures |evs| <= |entries|
    ensures forall ev :: ev in evs <==> exists i :: 0 <= i < |entries| && LongEnough(entries[i]) && ev == ToEvent(entries[i], icons)
  {
    if entries == [] then []
    else
      var init := entries[..|entries| - 1];
      var last := entries[|entries| - 1];
      var evs := DayEvents(init, icons) + (if LongEnough(last) then [ToEvent(last, icons)] else []);
      assert forall i :: 0 <= i < |init| ==> init[i] == entries[i];
      evs
  }

  /** The events of all days, in day order. */
  function AllEvents(days: seq<DayRecord>, icons: map<string, string>): (evs: seq<Event>)
    ensures forall ev :: ev in evs ==> ev.end - ev.start >= 60000
    ensures forall ev :: ev in evs <==> exists d :: 0 <= d < |days| && ev in DayEvents(days[d].entries, icons)
  {
    if days == [] then []
    else
      var init := days[..|days| - 1];
      var evs := AllEvents(init, icons) + DayEvents(days[|days| - 1].entries, icons);
      assert forall d :: 0 <= d < |init| ==> init[d] == days[d];
      evs
  }

  /** The application names of a list of events, in order. */
  function Names(evs: seq<Event>): (ns: seq<string>)
    ensures |ns| == |evs|
    ensures forall i :: 0 <= i < |evs| ==> ns[i] == evs[i].appName
  {
    if evs == [] then [] else Names(evs[..|evs| - 1]) + [evs[|evs| - 1].appName]
  }

  lemma NamesSnoc(evs: seq<Event>, ev: Event)
    ensures Names(evs + [ev]) == Names(evs) + [ev.appName]
  {
    assert (evs + [ev])[..|evs|] == evs;
  }

  lemma DayEventsSnoc(entries: seq<Entry>, k: int, icons: map<string, string>)
    requires 0 <= k < |entries|
    ensures DayEvents(entries[..k + 1], icons) ==
      DayEvents(entries[..k], icons) + (if LongEnough(entries[k]) then [ToEvent(entries[k], icons)] else [])
  {
    assert entries[..k + 1][..k] == entries[..k];
  }

  /** The inner loop over one day's entries. */
  method AddDayEvents(entries: seq<Entry>, icons: map<string, string>, events0: seq<Event>, apps0: seq<string>)
    returns (events: seq<Event>, apps: seq<string>)
    requires apps0 == Names(events0)
    ensures events == events0 + DayEvents(entries, icons)
    ensures apps == Names(events)
  {
    events, apps := events0, apps0;
    var k := 0;
    while k < |entries|
      invariant 0 <= k <= |entries|
      invariant events == events0 + DayEvents(entries[..k], icons)
      invariant apps == Names(events)
    {
      var entry := entries[k];
      DayEventsSnoc(entries, k, icons);
      if LongEnough(entry) {
        var ev := ToEvent(entry, icons);
        NamesSnoc(events, ev);
        ConcatSnoc(events0, DayEvents(entries[..k], icons), ev);
        apps := apps + [entry.appName];
        events := events + [ev];
      } else {
        assert DayEvents(entries[..k], icons) + [] == DayEvents(entries[..k], icons);
      }
      k := k + 1;
    }
    assert entries[..k] == entries;
  }

  /** The names the set collects are exactly the events' names. */
  lemma AppsOfEvents(events: seq<Event>)
    ensures forall a :: a in Names(events) <==> exists ev :: ev in events && ev.appName == a
  {
    forall a | a in Names(events) ensures exists ev :: ev in events && ev.appName == a {
      var i :| 0 <= i < |events| && Names(events)[i] == a;
      assert events[i] in events;
    }
  }

  /** The load effect: the events, and the sorted distinct application
      names, which also become the initial selection. */
  method LoadEvents(days: seq<DayRecord>, icons: map<string, string>)
    returns (events: seq<Event>, availableApps: seq<string>, selectedApps: seq<string>)
    ensures events == AllEvents(days, icons)
    ensures StrictlyAscending(availableApps)
    ensures forall a :: a in availableApps <==> exists ev :: ev in events && ev.appName == a
    ensures selectedApps == availableApps
  {
    events := [];
    var appSet: seq<string> := [];
    var d := 0;
    while d < |days|
      invariant 0 <= d <= |days|
      invariant events == AllEvents(days[..d], icons)
      invariant appSet == Names(events)
    {
      assert days[..d + 1][..d] == days[..d];
      events, appSet := AddDayEvents(days[d].entries, icons, events, appSet);
      d := d + 1;
    }
    assert days[..d] == days;
    AppsOfEvents(events);
    availableApps := SortedDistinct(appSet);
    selectedApps := availableApps;
  }

  /** `filteredEvents`: the events of the selected applications, in order. */
  function FilteredEvents(events: seq<Event>, selected: seq<string>): (r: seq<Event>)
    ensures |r| <= |events|
    ensures forall ev :: ev in r <==> ev in events && ev.appName in selected
    ensures |events| == 1 ==> r == if events[0].appName in selected then events else []
  {
    if events == [] then []
    else
      var rest := FilteredEvents(events[1..], selected);
      assert forall ev :: ev in events <==> ev == events[0] || ev in events[1..] by {
        assert events == [events[0]] + events[1..];
      }
      if events[0].appName in selected then [events[0]] + rest else rest
  }

  /** `FilteredEvents` keeps the order and the repetitions of its input: it
      distributes over concatenation. */
  lemma {:induction false} FilteredEventsAppend(a: seq<Event>, b: seq<Event>, selected: seq<string>)
    ensures FilteredEvents(a + b, selected) == FilteredEvents(a, selected) + FilteredEvents(b, selected)
  {
    if a == [] {
      assert a + b == b;
    } else {
      var x, rest := a[0], a[1..];
      assert [x] + rest == a;
      assert [x] + (rest + b) == a + b;
      FilteredEventsAppend(rest, b, selected);
      FilteredEventsCons(x, rest, selected);
      FilteredEventsCons(x, rest + b, selected);
      ConcatAssoc(if x.appName in selected then [x] else [], FilteredEvents(rest, selected), FilteredEvents(b, selected));
    }
  }

  lemma FilteredEventsCons(x: Event, rest: seq<Event>, selected: seq<string>)
    ensures FilteredEvents([x] + rest, selected) == (if x.appName in selected then [x] else []) + FilteredEvents(rest, selected)
  {
    assert ([x] + rest)[1..] == rest;
  }

  /** With every application selected, as after loading, nothing is
      filtered out. */
  lemma {:induction false} AllSelected(events: seq<Event>, selected: seq<string>)
    requires forall ev :: ev in events ==> ev.appName in selected
    ensures FilteredEvents(events, selected) == events
  {
    if events != [] {
      var rest := events[1..];
      assert events[0] in events;
      forall ev | ev in rest ensures ev.appName in selected {
        assert ev in events;
      }
      AllSelected(rest, selected);
      assert [events[0]] + rest == events;
    }
  }

  /** `handleToggleApp(appName)`: a selected name is removed, any other
      appended. */
  function ToggleApp(selected: seq<string>, app: string): (r: seq<string>)
    ensures app in r <==> app !in selected
    ensures forall a :: a != app ==> (a in r <==> a in selected)
  {
    if app in selected then Without(selected, app) else selected + [app]
  }

  function Without(s: seq<string>, x: string): (r: seq<string>)
    ensures forall a :: a in r <==> a in s && a != x
  {
    if s == [] then []
    else
      var rest := Without(s[1..], x);
      assert forall a :: a in s <==> a == s[0] || a in s[1..] by {
        assert s == [s[0]] + s[1..];
      }
      if s[0] != x then [s[0]] + rest else rest
  }

  /** Toggling the same name twice restores which names are selected. */
  lemma ToggleTwice(selected: seq<string>, app: string)
    ensures forall a :: a in ToggleApp(ToggleApp(selected, app), app) <==> a in selected
  {
  }

  /** The zoom buttons: `Math.min(prev + 1, 2)` and `Math.max(prev - 1, 0)`. */
  function ZoomIn(z: int): (r: int)
    ensures r == (if z + 1 < 2 then z + 1 else 2)
    ensures 0 <= z <= 2 ==> 0 <= r <= 2 && r >= z
  {
    if z + 1 < 2 then z + 1 else 2
  }

  function ZoomOut(z: int): (r: int)
    ensures r == (if z - 1 > 0 then z - 1 else 0)
    ensures 0 <= z <= 2 ==> 0 <= r <= 2 && r <= z
  {
    if z - 1 > 0 then z - 1 else 0
  }

  /** From the initial level 1, any sequence of zoom presses stays in
      0..2. */
  lemma {:induction false} ZoomStaysInRange(z: int, presses: seq<bool>)
    requires 0 <= z <= 2
    ensures var r := ApplyZoom(z, presses); 0 <= r <= 2
    decreases |presses|
  {
    if presses != [] {
      ZoomStaysInRange(if presses[0] then ZoomIn(z) else ZoomOut(z), presses[1..]);
    }
  }

  /** A run of presses, `true` for zoom in. */
  function ApplyZoom(z: int, presses: seq<bool>): int
    decreases |presses|
  {
    if presses == [] then z
    else ApplyZoom(if presses[0] then ZoomIn(z) else ZoomOut(z), presses[1..])
  }

  /** Minutes per step and steps per slot at each zoom level: every level
      shows one-hour groups. */
  function ZoomConfig(z: int): (r: (int, int))
    ensures z == 0 ==> r == (60, 1)
    ensures z == 2 ==> r == (15, 4)
    ensures z != 0 && z != 2 ==> r == (30, 2)
    ensures r.0 * r.1 == 60
  {
    if z == 0 then (60, 1) else if z == 2 then (15, 4) else (30, 2)
  }

  /** `(end - start) / 1000`, kept in milliseconds. */
  function Duration(ev: Event): int {
    ev.end - ev.start
  }

  /** Sum of the durations of the events, in milliseconds. */
  function TotalDuration(evs: seq<Event>): int {
    if evs == [] then 0
    else TotalDuration(evs[..|evs| - 1]) + Duration(evs[|evs| - 1])
  }

  /** `appDurations`, built event by event. */
  function AppDurations(evs: seq<Event>): Tally {
    if evs == [] then []
    else
      var last := evs[|evs| - 1];
      Bump(AppDurations(evs[..|evs| - 1]), last.appName, Duration(last))
  }

  /** The per-application durations add up to the overall total, and there
      is an application entry exactly when there is an event. */
  lemma {:induction false} AppDurationsTotal(evs: seq<Event>)
    ensures Total(AppDurations(evs)) == TotalDuration(evs)
    ensures AppDurations(evs) == [] <==> evs == []
  {
    if evs != [] {
      var init, last := evs[..|evs| - 1], evs[|evs| - 1];
      AppDurationsTotal(init);
      TotalBump(AppDurations(init), last.appName, Duration(last));
      BumpLength(AppDurations(init), last.appName, Duration(last));
    }
  }

  /** The metrics loop over the filtered events. */
  method Metrics(evs: seq<Event>) returns (totalMs: int, topAppName: string, topAppMs: Option<int>)
    ensures totalMs == TotalDuration(evs)
    ensures (topAppName, topAppMs) == TopApp(AppDurations(evs))
  {
    totalMs := 0;
    var appDurations: Tally := [];
    var i := 0;
    while i < |evs|
      invariant 0 <= i <= |evs|
      invariant totalMs == TotalDuration(evs[..i])
      invariant appDurations == AppDurations(evs[..i])
    {
      assert evs[..i + 1][..i] == evs[..i];
      var duration := Duration(evs[i]);
      totalMs := totalMs + duration;
      appDurations := Bump(appDurations, evs[i].appName, duration);
      i := i + 1;
    }
    assert evs[..i] == evs;
    var sorted := SortByValue(appDurations);
    if sorted == [] {
      topAppName, topAppMs := "N/A", None;
    } else {
      topAppName, topAppMs := sorted[0].0, Some(sorted[0].1);
    }
  }

  /** The first entry after sorting by duration, largest first; "N/A" and
      no duration when there is none. */
  function TopApp(t: Tally): (r: (string, Option<int>))
    ensures t == [] <==> r.1.None?
    ensures t == [] ==> r.0 == "N/A"
    ensures r.1.Some? ==> (r.0, r.1.value) in t && forall x :: x in t ==> r.1.value >= x.1
  {
    var sorted := SortByValue(t);
    if sorted == [] then ("N/A", None)
    else
      assert sorted[0] in multiset(t);
      forall x | x in t ensures sorted[0].1 >= x.1 {
        SortByValueFirstIsMax(t, x);
      }
      (sorted[0].0, Some(sorted[0].1))
  }

  /** There is a top application exactly when some event is shown, and
      then it holds at least every other application's share. */
  lemma TopAppIffEvents(evs: seq<Event>)
    ensures TopApp(AppDurations(evs)).1.None? <==> evs == []
    ensures evs == [] ==> TopApp(AppDurations(evs)).0 == "N/A"
  {
    AppDurationsTotal(evs);
  }
}

=== FILE: clock.dfy ===
/** The `mm:ss` rendering both timers use for their countdown. */
module Clock {
  import opened Text

  /** JavaScript's `a % b` for a positive `b`: the remainder takes the sign
      of `a`. */
  function JsRem(a: int, b: int): (r: int)
    requires b > 0
    ensures a >= 0 ==> r == a % b && 0 <= r < b
    ensures a < 0 ==> r == -((-a) % b) && -b < r <= 0
  {
    if a >= 0 then a % b else -((-a) % b)
  }

  /** `formatTime(seconds)`: whole minutes (`Math.floor`), a colon and the
      leftover seconds (`%`), each padded to two digits. */
  function FormatTime(seconds: int): string {
    var mins := seconds / 60;
    var secs := JsRem(seconds, 60);
    PadTwo(IntToString(mins)) + ":" + PadTwo(IntToString(secs))
  }

  /** Numbers below 100 have at most two digits. */
  lemma ShortNumber(n: nat)
    requires n < 100
    ensures |NatToString(n)| <= 2
  {
    if n >= 10 {
      assert NatToString(n) == NatToString(n / 10) + [DigitChar(n % 10)];
    }
  }

  /** A leading zero does not change the value read back. */
  lemma {:induction false} LeadingZero(s: string)
    requires IsDigits(s)
    ensures ParseDigits("0" + s) == ParseDigits(s)
    decreases |s|
  {
    if s != [] {
      var t := "0" + s;
      assert t[..|t| - 1] == "0" + s[..|s| - 1];
      LeadingZero(s[..|s| - 1]);
    }
  }

  /** Padding a number to two digits keeps its value and its digits. */
  lemma PadTwoValue(n: nat)
    ensures |PadTwo(NatToString(n))| >= 2
    ensures n < 100 ==> |PadTwo(NatToString(n))| == 2
    ensures IsDigits(PadTwo(NatToString(n)))
    ensures ParseDigits(PadTwo(NatToString(n))) == n
  {
    NatToStringRoundTrip(n);
    if n < 100 {
      ShortNumber(n);
    }
    if |NatToString(n)| == 1 {
      LeadingZero(NatToString(n));
    }
  }

  /** Where the two fields sit in "<m>:<s>". */
  lemma Fields(m: string, s: string)
    requires |s| == 2
    ensures var r := m + ":" + s;
      |r| == |m| + 3 && r[..|r| - 3] == m && r[|r| - 2..] == s && r[|r| - 3] == ':'
  {
  }

  /** For a non-negative count the rendering is "<mm>:<ss>" with `ss`
      exactly two digits below 60, and reading both fields back gives the
      count again: nothing is lost. */
  lemma FormatTimeRoundTrip(seconds: nat)
    ensures var r := FormatTime(seconds);
      |r| >= 5 && r[|r| - 3] == ':' && IsDigits(r[..|r| - 3]) && IsDigits(r[|r| - 2..]) &&
      ParseDigits(r[..|r| - 3]) * 60 + ParseDigits(r[|r| - 2..]) == seconds &&
      ParseDigits(r[|r| - 2..]) < 60
  {
    var mins := seconds / 60;
    var secs := seconds % 60;
    assert mins * 60 + secs == seconds;
    PadTwoValue(secs);
    PadTwoValue(mins);
    var m := PadTwo(NatToString(mins));
    var s := PadTwo(NatToString(secs));
    var r := FormatTime(seconds);
    assert r == m + ":" + s;
    Fields(m, s);
    assert r[..|r| - 3] == m && r[|r| - 2..] == s;
  }
}

=== FILE: custom_dashboard.dfy ===
/** The user-arranged dashboard (src/components/CustomDashboard.tsx): an
    ordered list of widget instances that can be added, removed and moved
    one place up or down, each rendered with a column span from its
    registered size. */
module CustomDashboard {
  import opened Optional
  import opened Tallies

  datatype Widget = Widget(instanceId: string, widgetId: string)

  datatype Direction = Up | Down

  /** `addWidget(widgetId)`; the random instance id is a parameter. */
  function AddWidget(widgets: seq<Widget>, widgetId: string, instanceId: string): (r: seq<Widget>)
    ensures |r| == |widgets| + 1
    ensures r[..|widgets|] == widgets
    ensures r[|widgets|] == Widget(instanceId, widgetId)
  {
    widgets + [Widget(instanceId, widgetId)]
  }

  /** `removeWidget(instanceId)`: keeps the other instances in order. */
  function RemoveWidget(widgets: seq<Widget>, instanceId: string): (r: seq<Widget>)
    ensures |r| <= |widgets|
    ensures forall w :: w in r <==> w in widgets && w.instanceId != instanceId
    ensures |widgets| == 1 ==> r == if widgets[0].instanceId != instanceId then widgets else []
  {
    if widgets == [] then []
    else
      var rest := RemoveWidget(widgets[1..], instanceId);
      assert forall w :: w in widgets <==> w == widgets[0] || w in widgets[1..] by {
        assert widgets == [widgets[0]] + widgets[1..];
      }
      if widgets[0].instanceId != instanceId then [widgets[0]] + rest else rest
  }

  /** `RemoveWidget` keeps the order and the repetitions of its input: it
      distributes over concatenation. */
  lemma {:induction false} RemoveWidgetAppend(a: seq<Widget>, b: seq<Widget>, instanceId: string)
    ensures RemoveWidget(a + b, instanceId) == RemoveWidget(a, instanceId) + RemoveWidget(b, instanceId)
  {
    if a == [] {
      assert a + b == b;
    } else {
      var x, rest := a[0], a[1..];
      assert [x] + rest == a;
      assert [x] + (rest + b) == a + b;
      RemoveWidgetAppend(rest, b, instanceId);
      RemoveWidgetCons(x, rest, instanceId);
      RemoveWidgetCons(x, rest + b, instanceId);
      ConcatAssoc(if x.instanceId != instanceId then [x] else [], RemoveWidget(rest, instanceId), RemoveWidget(b, instanceId));
    }
  }

  lemma RemoveWidgetCons(x: Widget, rest: seq<Widget>, instanceId: string)
    ensures RemoveWidget([x] + rest, instanceId) == (if x.instanceId != instanceId then [x] else []) + RemoveWidget(rest, instanceId)
  {
    assert ([x] + rest)[1..] == rest;
  }

  /** Removing an instance id nobody has changes nothing. */
  lemma {:induction false} RemoveAbsent(widgets: seq<Widget>, instanceId: string)
    requires forall i :: 0 <= i < |widgets| ==> widgets[i].instanceId != instanceId
    ensures RemoveWidget(widgets, instanceId) == widgets
  {
    if widgets != [] {
      RemoveAbsent(widgets[1..], instanceId);
      assert widgets == [widgets[0]] + widgets[1..];
    }
  }

  /** Removing a freshly added instance undoes the addition. */
  lemma {:induction false} AddThenRemove(widgets: seq<Widget>, widgetId: string, instanceId: string)
    requires forall i :: 0 <= i < |widgets| ==> widgets[i].instanceId != instanceId
    ensures RemoveWidget(AddWidget(widgets, widgetId, instanceId), instanceId) == widgets
  {
    if widgets == [] {
      assert AddWidget(widgets, widgetId, instanceId) == [Widget(instanceId, widgetId)];
    } else {
      var added := AddWidget(widgets, widgetId, instanceId);
      assert added[1..] == AddWidget(widgets[1..], widgetId, instanceId);
      AddThenRemove(widgets[1..], widgetId, instanceId);
      assert widgets == [widgets[0]] + widgets[1..];
    }
  }

  /** The list `moveWidget(index, direction)` produces. */
  function Moved(widgets: seq<Widget>, index: int, direction: Direction): (r: seq<Widget>)
    ensures |r| == |widgets|
    ensures multiset(r) == multiset(widgets)
  {
    if direction == Up && 0 < index < |widgets| then
      Swap(widgets, index, index - 1)
    else if direction == Down && 0 <= index < |widgets| - 1 then
      Swap(widgets, index, index + 1)
    else widgets
  }

  function Swap(s: seq<Widget>, i: int, j: int): (r: seq<Widget>)
    requires 0 <= i < |s| && 0 <= j < |s|
    ensures |r| == |s| && r[i] == s[j] && r[j] == s[i]
    ensures forall k :: 0 <= k < |s| && k != i && k != j ==> r[k] == s[k]
    ensures multiset(r) == multiset(s)
  {
    s[i := s[j]][j := s[i]]
  }

  /** `moveWidget(index, direction)`: copy the list and swap in place. */
  method MoveWidget(widgets: seq<Widget>, index: int, direction: Direction) returns (r: seq<Widget>)
    ensures r == Moved(widgets, index, direction)
  {
    var a := new Widget[|widgets|](i requires 0 <= i < |widgets| => widgets[i]);
    if direction == Up && index > 0 && index < a.Length {
      a[index], a[index - 1] := a[index - 1], a[index];
    } else if direction == Down && 0 <= index < a.Length - 1 {
      a[index], a[index + 1] := a[index + 1], a[index];
    }
    r := a[..];
  }

  /** Up at `i` and then down at `i - 1` puts everything back. */
  lemma UpThenDown(widgets: seq<Widget>, i: int)
    requires 0 < i < |widgets|
    ensures Moved(Moved(widgets, i, Up), i - 1, Down) == widgets
  {
  }

  /** Moving the first widget up or the last one down changes nothing. */
  lemma MoveAtEdges(widgets: seq<Widget>)
    ensures Moved(widgets, 0, Up) == widgets
    ensures widgets != [] ==> Moved(widgets, |widgets| - 1, Down) == widgets
  {
  }

  /** `defaultSize` of the registered widgets, by id. */
  function DefaultSize(widgetId: string): Option<string> {
    match widgetId
    case "pomodoro" => Some("medium")
    case "heatmap" => Some("full")
    case "tasks" => Some("large")
    case "stats" => Some("full")
    case _ => None
  }

  /** The large-screen column span of a widget size, out of 12. */
  function ColSpan(size: string): (span: int)
    ensures span in {4, 6, 8, 12}
    ensures span == 12 <==> size == "full"
    ensures span == 8 <==> size == "large"
    ensures span == 6 <==> size == "medium"
    ensures span == 4 <==> size !in {"full", "large", "medium"}
  {
    if size == "full" then 12
    else if size == "large" then 8
    else if size == "medium" then 6
    else 4
  }

  /** The spans of the widgets that are rendered; an instance whose id is
      not registered renders nothing. */
  function RenderedSpans(widgets: seq<Widget>): (spans: seq<int>)
    ensures |spans| <= |widgets|
    ensures forall i :: 0 <= i < |spans| ==> spans[i] in {4, 6, 8, 12}
  {
    if widgets == [] then []
    else
      var size := DefaultSize(widgets[0].widgetId);
      (if size.Some? then [ColSpan(size.value)] else []) + RenderedSpans(widgets[1..])
  }
}

=== FILE: dashboard.dfy ===
/** Today's overview (src/components/Dashboard.tsx): the ten most used
    applications of today's summary, the day's total, each application's
    share of it, and the icon cache the live window updates refresh. */
module Dashboard {
  import opened Sorting
  import opened Tallies

  /** `Object.entries(todaySummary).sort((a, b) => b - a).slice(0, 10)`. */
  function TopApps(summary: Tally): (r: Tally)
    ensures |r| == if |summary| < 10 then |summary| else 10
    ensures NonIncreasing(r)
    ensures multiset(r) <= multiset(summary)
  {
    var sorted := SortByValue(summary);
    var r := Take(sorted, 10);
    assert sorted == r + sorted[|r|..];
    assert multiset(sorted) == multiset(r) + multiset(sorted[|r|..]);
    r
  }

  /** An entry left out of the top ten has no more time than any entry
      shown. */
  lemma TopAppsAreLargest(summary: Tally, x: (string, int))
    requires x in multiset(summary) - multiset(TopApps(summary))
    ensures forall i :: 0 <= i < |TopApps(summary)| ==> TopApps(summary)[i].1 >= x.1
  {
    var sorted := SortByValue(summary);
    var r := TopApps(summary);
    var rest := sorted[|r|..];
    assert sorted == r + rest;
    assert multiset(sorted) == multiset(r) + multiset(rest);
    assert x in multiset(rest);
    NonIncreasingSplit(sorted, |r|, x);
  }

  lemma {:induction false} TotalNonNegative(t: Tally)
    requires forall i :: 0 <= i < |t| ==> t[i].1 >= 0
    ensures Total(t) >= 0
    decreases |t|
  {
    if t != [] {
      TotalNonNegative(t[..|t| - 1]);
    }
  }

  /** With no negative durations, the top ten together take at most the
      day's total (`totalTime`, the sum of today's summary), and all of it
      when there are at most ten applications. */
  lemma TopAppsWithinTotal(summary: Tally)
    requires forall i :: 0 <= i < |summary| ==> summary[i].1 >= 0
    ensures Total(TopApps(summary)) <= Total(summary)
    ensures |summary| <= 10 ==> Total(TopApps(summary)) == Total(summary)
  {
    var sorted := SortByValue(summary);
    assert TopApps(summary) == sorted[..|TopApps(summary)|];
    TotalPermutation(sorted, summary);
    PermutationNonNegative(sorted, summary);
    PrefixWithinTotal(sorted, |TopApps(summary)|);
  }

  /** Without negative durations, a prefix takes at most the total. */
  lemma PrefixWithinTotal(t: Tally, n: nat)
    requires n <= |t|
    requires forall i :: 0 <= i < |t| ==> t[i].1 >= 0
    ensures Total(t[..n]) <= Total(t)
    ensures n == |t| ==> Total(t[..n]) == Total(t)
  {
    var rest := t[n..];
    assert t == t[..n] + rest;
    TotalAppend(t[..n], rest);
    forall i | 0 <= i < |rest|
      ensures rest[i].1 >= 0
    {
      assert rest[i] == t[n + i];
    }
    TotalNonNegative(rest);
  }

  /** A reordering of a list without negative durations has none either. */
  lemma PermutationNonNegative(a: Tally, b: Tally)
    requires multiset(a) == multiset(b)
    requires forall i :: 0 <= i < |b| ==> b[i].1 >= 0
    ensures forall i :: 0 <= i < |a| ==> a[i].1 >= 0
  {
    forall i | 0 <= i < |a|
      ensures a[i].1 >= 0
    {
      assert a[i] in multiset(b);
    }
  }

  /** `totalTime > 0 ? Math.round((seconds / totalTime) * 100) : 0`, the
      share rounded to the nearest whole percent with halves rounded up. */
  function Percent(seconds: int, totalTime: int): (p: int)
    ensures totalTime <= 0 ==> p == 0
    ensures totalTime > 0 ==> 2 * totalTime * p - totalTime <= 200 * seconds < 2 * totalTime * p + totalTime
  {
    if totalTime > 0 then (200 * seconds + totalTime) / (2 * totalTime) else 0
  }

  /** A share of the total lies between 0 and 100 percent. */
  lemma PercentRange(seconds: int, totalTime: int)
    requires 0 <= seconds <= totalTime
    ensures 0 <= Percent(seconds, totalTime) <= 100
  {
    if totalTime > 0 {
      var p := Percent(seconds, totalTime);
      assert 2 * totalTime * (p - 100) <= totalTime;
      Scale(2 * totalTime, p - 100);
    }
  }

  /** A positive factor keeps a positive product at least its size. */
  lemma Scale(t: int, x: int)
    requires t > 0
    ensures x >= 1 ==> t * x >= t
  {
  }

  /** The live-update handler: an event carrying an icon (a non-empty
      string) stores it for its application; one without leaves the cache
      as it was. */
  function UpdateIcons(cache: map<string, string>, appName: string, icon: string): (r: map<string, string>)
    ensures icon == "" ==> r == cache
    ensures icon != "" ==> appName in r && r[appName] == icon
    ensures forall k :: k != appName ==> (k in r <==> k in cache)
    ensures forall k :: k != appName && k in r ==> r[k] == cache[k]
  {
    if icon != "" then cache[appName := icon] else cache
  }
}

=== FILE: focus_mode.dfy ===
/** The focus countdown (src/components/FocusMode.tsx): a preset number of
    minutes counted down one second at a time while active. */
module FocusMode {
  import opened Optional

  /** The preset buttons, in minutes. */
  const Presets: seq<int> := [15, 25, 45, 60]

  class FocusTimer {
    var timeLeft: int
    var isActive: bool
    var preset: int

    ghost predicate Valid()
      reads this
    {
      timeLeft >= 0 && preset >= 0
    }

    constructor()
      ensures Valid()
      ensures timeLeft == 25 * 60 && !isActive && preset == 25
    {
      timeLeft := 25 * 60;
      isActive := false;
      preset := 25;
    }

    /** `toggleTimer()`. */
    method ToggleTimer()
      modifies this`isActive
      ensures isActive == !old(isActive)
    {
      isActive := !isActive;
    }

    /** `resetTimer(mins = preset)`: stop, remember the preset and load its
        full time. The buttons pass one of the presets; the reset button
        passes nothing and so reuses the current one. */
    method ResetTimer(mins: Option<int>)
      requires Valid()
      requires mins.None? || mins.value >= 0
      modifies this
      ensures Valid()
      ensures !isActive
      ensures preset == mins.GetOr(old(preset))
      ensures timeLeft == 60 * preset
    {
      var m := mins.GetOr(preset);
      isActive := false;
      preset := m;
      timeLeft := m * 60;
    }

    /** One second of the countdown, followed by the effect that runs after
        it: while active with time left the count drops by one, and once it
        is at 0 the timer deactivates. An inactive timer is left alone. */
    method Tick()
      requires Valid()
      modifies this`timeLeft, this`isActive
      ensures Valid()
      ensures old(isActive) && old(timeLeft) > 0 ==>
        timeLeft == old(timeLeft) - 1 && (isActive <==> timeLeft > 0)
      ensures old(isActive) && old(timeLeft) == 0 ==> timeLeft == 0 && !isActive
      ensures !old(isActive) ==> timeLeft == old(timeLeft) && !isActive
    {
      if isActive && timeLeft > 0 {
        timeLeft := timeLeft - 1;
      }
      if !(isActive && timeLeft > 0) && timeLeft == 0 {
        isActive := false;
      }
    }
  }
}

=== FILE: gamification.dfy ===
/** Streaks, points, badges and goals (src/components/Gamification.tsx).
    Dates are epoch milliseconds of the recorded days (midnight UTC, as
    `new Date('YYYY-MM-DD')` reads them), sorted newest first, and `now` is
    the clock reading the component takes. */
module Gamification {
  import opened Tallies
  import opened Optional
  import opened Sorting

  const DayMs := 86400000

  /** `Math.floor((a - b) / (1000 * 60 * 60 * 24))`; Dafny's `/` floors
      for a positive divisor. */
  function DayDiff(a: int, b: int): (d: int)
    ensures DayMs * d <= a - b < DayMs * (d + 1)
  {
    (a - b) / DayMs
  }

  // ---------------------------------------------------------------------
  // The streak loop as the component writes it
  // ---------------------------------------------------------------------

  /** `tempStreak` and `longestStreak` after the first `n` iterations. At
      the first date, a recent one sets `tempStreak` to 1 and then the
      comparison with `now` (as the previous date) counts it a second
      time. */
  function LoopState(s: seq<int>, now: int, n: nat): (st: (int, int))
    requires n <= |s|
    ensures st.0 >= 0 && st.1 >= 0
  {
    if n == 0 then (0, 0)
    else
      var prev := LoopState(s, now, n - 1);
      var i := n - 1;
      var temp := if i == 0 && DayDiff(now, s[0]) <= 1 then 1 else prev.0;
      var diff := if i == 0 then DayDiff(now, s[0]) else DayDiff(s[i - 1], s[i]);
      if diff <= 1 then (temp + 1, prev.1)
      else (1, if prev.1 >= temp then prev.1 else temp)
  }

  /** `(currentStreak, longestStreak)` as the loop leaves them. */
  function StreakAsWritten(s: seq<int>, now: int): (r: (int, int))
    ensures r.1 >= r.0 >= 0
  {
    var st := LoopState(s, now, |s|);
    (st.0, if st.1 >= st.0 then st.1 else st.0)
  }

  /** The loop of `loadGamificationData`, over dates sorted newest first. */
  method StreakLoop(sortedDates: seq<int>, now: int) returns (currentStreak: int, longestStreak: int)
    ensures (currentStreak, longestStreak) == StreakAsWritten(sortedDates, now)
    ensures longestStreak >= currentStreak
  {
    longestStreak := 0;
    var tempStreak := 0;
    var i := 0;
    while i < |sortedDates|
      invariant 0 <= i <= |sortedDates|
      invariant (tempStreak, longestStreak) == LoopState(sortedDates, now, i)
    {
      var d1 := sortedDates[i];
      var d2 := if i > 0 then sortedDates[i - 1] else now;
      var diffDays := DayDiff(d2, d1);
      if i == 0 {
        var daysSinceLastActive := DayDiff(now, d1);
        if daysSinceLastActive <= 1 {
          tempStreak := 1;
        }
      }
      if diffDays <= 1 {
        tempStreak := tempStreak + 1;
      } else {
        if tempStreak > longestStreak {
          longestStreak := tempStreak;
        }
        tempStreak := 1;
      }
      i := i + 1;
    }
    if tempStreak > longestStreak {
      longestStreak := tempStreak;
    }
    currentStreak := tempStreak;
  }

  /** The streak part of `loadGamificationData`: the recorded dates are
      sorted newest first, the loop runs over them, and the newest date is
      kept as the last active day (`sortedDates[0] || ''`). With nothing
      recorded the component returns early, leaving both streaks at 0.
      Sorting the `YYYY-MM-DD` strings orders them as their times. */
  method LoadStreak(dates: seq<int>, now: int) returns (currentStreak: int, longestStreak: int, lastActive: Option<int>)
    ensures (currentStreak, longestStreak) == StreakAsWritten(SortIntsDescending(dates), now)
    ensures longestStreak >= currentStreak
    ensures dates == [] ==> currentStreak == 0 && longestStreak == 0 && lastActive == None
    ensures dates != [] ==> lastActive.Some? && lastActive.value in dates
    ensures lastActive.Some? ==> forall x :: x in dates ==> x <= lastActive.value
  {
    var sortedDates := SortIntsDescending(dates);
    currentStreak, longestStreak := StreakLoop(sortedDates, now);
    if |sortedDates| == 0 {
      lastActive := None;
    } else {
      DescendingHeadIsMax(sortedDates);
      lastActive := Some(sortedDates[0]);
    }
  }

  /** The head of a list sorted newest first is its newest element. */
  lemma {:induction false} DescendingHeadIsMax(s: seq<int>)
    requires Descending(s) && s != []
    ensures forall x :: x in s ==> x <= s[0]
  {
    if |s| > 1 {
      DescendingHeadIsMax(s[1..]);
      assert forall x :: x in s ==> x == s[0] || x in s[1..] by {
        assert s == [s[0]] + s[1..];
      }
    }
  }

  /** A single day recorded today is reported as a streak of two. */
  lemma TodayOnlyCountsTwo(today: int, now: int)
    requires 0 <= now - today < DayMs
    ensures StreakAsWritten([today], now) == (2, 2)
  {
    assert DayDiff(now, today) == 0;
    assert LoopState([today], now, 1) == (2, 0);
  }

  /** Today, yesterday and a day ten days back: the user is on a two-day
      streak, yet the reported current streak is the oldest run, 1, and the
      longest is 3. */
  lemma CurrentIsOldestRun(today: int, now: int)
    requires 0 <= now - today < DayMs
    ensures StreakAsWritten([today, today - DayMs, today - 10 * DayMs], now) == (1, 3)
  {
    var s := [today, today - DayMs, today - 10 * DayMs];
    assert DayDiff(now, s[0]) == 0;
    assert DayDiff(s[0], s[1]) == 1;
    assert DayDiff(s[1], s[2]) == 9;
    assert LoopState(s, now, 1) == (2, 0);
    assert LoopState(s, now, 2) == (3, 0);
  }

  // ---------------------------------------------------------------------
  // The streaks as intended
  // ---------------------------------------------------------------------

  /** The number of dates from the front that follow each other at most a
      day apart. */
  function LeadingRun(s: seq<int>): (n: nat)
    ensures s != [] ==> 1 <= n
    ensures n <= |s|
    ensures forall j :: 0 <= j < n - 1 ==> DayDiff(s[j], s[j + 1]) <= 1
    ensures n < |s| && n > 0 ==> DayDiff(s[n - 1], s[n]) > 1
  {
    if s == [] then 0
    else if |s| > 1 && DayDiff(s[0], s[1]) <= 1 then 1 + LeadingRun(s[1..])
    else 1
  }

  /** The current streak: the run of days up to the latest recorded one,
      or 0 when that day is more than a day old. */
  function CurrentStreak(s: seq<int>, now: int): (n: nat)
    ensures s == [] || DayDiff(now, s[0]) > 1 ==> n == 0
    ensures s != [] && DayDiff(now, s[0]) <= 1 ==> n == LeadingRun(s) && n >= 1
  {
    if s == [] || DayDiff(now, s[0]) > 1 then 0 else LeadingRun(s)
  }

  /** The longest run of consecutive days anywhere in the history. */
  function LongestStreak(s: seq<int>): (n: nat)
    ensures n <= |s|
    ensures n >= LeadingRun(s)
    ensures s != [] ==> n >= 1
  {
    if s == [] then 0
    else
      var rest := LongestStreak(s[1..]);
      if LeadingRun(s) >= rest then LeadingRun(s) else rest
  }

  /** Every run within the history is at most the longest streak. */
  lemma {:induction false} LongestCoversRuns(s: seq<int>, k: nat)
    requires k <= |s|
    ensures LeadingRun(s[k..]) <= LongestStreak(s)
    decreases k
  {
    if k > 0 {
      LongestCoversRuns(s[1..], k - 1);
      assert s[1..][k - 1..] == s[k..];
    }
  }

  /** The current streak never exceeds the longest one. */
  lemma LongestCoversCurrent(s: seq<int>, now: int)
    ensures CurrentStreak(s, now) <= LongestStreak(s)
  {
  }

  /** The intended values on the two histories above. */
  lemma IntendedExamples(today: int, now: int)
    requires 0 <= now - today < DayMs
    ensures CurrentStreak([today], now) == 1 && LongestStreak([today]) == 1
    ensures var s := [today, today - DayMs, today - 10 * DayMs];
      CurrentStreak(s, now) == 2 && LongestStreak(s) == 2
  {
    var s := [today, today - DayMs, today - 10 * DayMs];
    assert DayDiff(now, today) == 0;
    assert DayDiff(s[0], s[1]) == 1;
    assert DayDiff(s[1], s[2]) == 9;
    assert s[1..][1..] == [s[2]];
    assert LeadingRun(s[1..]) == 1;
    assert LeadingRun(s) == 2;
  }

  // ---------------------------------------------------------------------
  // Points, badges, goals
  // ---------------------------------------------------------------------

  /** The seconds of every application on every day. */
  function TotalSeconds(days: seq<Tally>): int {
    if days == [] then 0 else TotalSeconds(days[..|days| - 1]) + Total(days[|days| - 1])
  }

  /** `Math.floor(totalSeconds / 3600 * 10)`: ten points per hour, one per
      six minutes, counted exactly. */
  function Points(totalSeconds: int): (p: int)
    ensures 360 * p <= totalSeconds < 360 * (p + 1)
    ensures totalSeconds >= 0 ==> p >= 0
  {
    totalSeconds / 360
  }

  /** `checkBadgeUnlocked(id, data)`. */
  function BadgeUnlocked(id: string, totalHours: real, currentStreak: int, longestStreak: int): bool {
    match id
    case "first_hour" => totalHours >= 1.0
    case "streak_7" => currentStreak >= 7 || longestStreak >= 7
    case "streak_30" => currentStreak >= 30 || longestStreak >= 30
    case "productive_day" => totalHours >= 6.0
    case "early_bird" => true
    case "night_owl" => false
    case "marathon" => totalHours >= 10.0
    case "consistent" => currentStreak >= 5
    case _ => false
  }

  const BadgeIds: seq<string> := [
    "first_hour", "streak_7", "streak_30", "productive_day",
    "early_bird", "night_owl", "marathon", "consistent"]

  /** The badges form a ladder: the harder badge of each kind implies the
      easier ones; early_bird is always unlocked and night_owl never. */
  lemma BadgeLadder(totalHours: real, currentStreak: int, longestStreak: int)
    ensures BadgeUnlocked("streak_30", totalHours, currentStreak, longestStreak) ==>
      BadgeUnlocked("streak_7", totalHours, currentStreak, longestStreak)
    ensures BadgeUnlocked("marathon", totalHours, currentStreak, longestStreak) ==>
      BadgeUnlocked("productive_day", totalHours, currentStreak, longestStreak)
    ensures BadgeUnlocked("productive_day", totalHours, currentStreak, longestStreak) ==>
      BadgeUnlocked("first_hour", totalHours, currentStreak, longestStreak)
    ensures BadgeUnlocked("early_bird", totalHours, currentStreak, longestStreak)
    ensures !BadgeUnlocked("night_owl", totalHours, currentStreak, longestStreak)
  {
  }

  /** An id outside the list never unlocks. */
  lemma UnknownBadgeLocked(id: string, totalHours: real, currentStreak: int, longestStreak: int)
    requires id !in BadgeIds
    ensures !BadgeUnlocked(id, totalHours, currentStreak, longestStreak)
  {
  }

  /** The unlocked flags of all badges, in list order. */
  function Badges(totalHours: real, currentStreak: int, longestStreak: int): (flags: seq<bool>)
    ensures |flags| == |BadgeIds|
    ensures forall i :: 0 <= i < |BadgeIds| ==> flags[i] == BadgeUnlocked(BadgeIds[i], totalHours, currentStreak, longestStreak)
  {
    seq(|BadgeIds|, i requires 0 <= i < |BadgeIds| => BadgeUnlocked(BadgeIds[i], totalHours, currentStreak, longestStreak))
  }

  /** `calculateGoalProgress(goal, data)`; `dayCount || 1` guards the
      division. */
  function GoalProgress(goalId: string, target: real, totalHours: real, dayCount: nat, currentStreak: int): (r: real)
    ensures goalId == "1" ==> r <= target
    ensures goalId == "1" && dayCount > 0 && totalHours / dayCount as real <= target ==> r == totalHours / dayCount as real
    ensures goalId == "1" && totalHours / (if dayCount == 0 then 1 else dayCount) as real > target ==> r == target
    ensures goalId == "2" ==> r <= 100.0 && (totalHours <= 8.0 ==> r == totalHours / 8.0 * 100.0)
    ensures goalId == "2" && totalHours > 8.0 ==> r == 100.0
    ensures goalId == "3" ==> r == currentStreak as real
    ensures goalId !in {"1", "2", "3"} ==> r == 0.0
  {
    match goalId
    case "1" =>
      var days := if dayCount == 0 then 1 else dayCount;
      var perDay := totalHours / days as real;
      if perDay <= target then perDay else target
    case "2" =>
      var pct := totalHours / 8.0 * 100.0;
      if pct <= 100.0 then pct else 100.0
    case "3" => currentStreak as real
    case _ => 0.0
  }
}

=== FILE: heatmap.dfy ===
/** The year heat map (src/components/ActivityHeatmap.tsx): the days from
    a Sunday about a year ago up to today, cut into weeks of seven and
    coloured by the seconds recorded on each day, with a month label over
    every week whose month differs from the last label's. The calendar
    dates themselves are an input here (`dates`), as is the month a date
    string falls in (`monthOf`). */
module Heatmap {
  import opened Analytics
  import opened Tallies

  /** The position of the last cell for `date`, or -1 when there is
      none. */
  function LastIndexOf(data: seq<HeatCell>, date: string): (k: int)
    ensures -1 <= k < |data|
    ensures k >= 0 ==> data[k].date == date
    ensures forall j :: k < j < |data| ==> data[j].date != date
  {
    if data == [] then -1
    else if data[|data| - 1].date == date then |data| - 1
    else LastIndexOf(data[..|data| - 1], date)
  }

  /** `dataMap.get(date) || { date, score: 0, count: 0 }`. Building the map
      from the list lets a later cell for the same date replace an earlier
      one, so the last cell for the date is the one shown. */
  function DayFor(data: seq<HeatCell>, date: string): (c: HeatCell)
    ensures c.date == date
  {
    var k := LastIndexOf(data, date);
    if k >= 0 then data[k] else HeatCell(date, 0, 0)
  }

  /** The cell shown for every date, in order. */
  function DayCells(dates: seq<string>, data: seq<HeatCell>): (cells: seq<HeatCell>)
    ensures |cells| == |dates|
    ensures forall i :: 0 <= i < |dates| ==> cells[i] == DayFor(data, dates[i])
  {
    if dates == [] then [] else DayCells(dates[..|dates| - 1], data) + [DayFor(data, dates[|dates| - 1])]
  }

  /** A date with no data is shown as a day with score 0 and count 0. */
  lemma MissingDay(dates: seq<string>, data: seq<HeatCell>, i: int)
    requires 0 <= i < |dates|
    requires forall j :: 0 <= j < |data| ==> data[j].date != dates[i]
    ensures DayCells(dates, data)[i] == HeatCell(dates[i], 0, 0)
  {
  }

  function Flatten(weeks: seq<seq<HeatCell>>): seq<HeatCell> {
    if weeks == [] then [] else Flatten(weeks[..|weeks| - 1]) + weeks[|weeks| - 1]
  }

  lemma FlattenSnoc(weeks: seq<seq<HeatCell>>, w: seq<HeatCell>)
    ensures Flatten(weeks + [w]) == Flatten(weeks) + w
  {
    assert (weeks + [w])[..|weeks|] == weeks;
  }

  lemma DayCellsSnoc(dates: seq<string>, data: seq<HeatCell>, i: nat)
    requires i < |dates|
    ensures DayCells(dates[..i + 1], data) == DayCells(dates[..i], data) + [DayFor(data, dates[i])]
  {
    assert dates[..i + 1][..i] == dates[..i];
  }

  /** Every week but the last has seven days, and the last has one to
      seven. */
  predicate WeekShaped(weeks: seq<seq<HeatCell>>) {
    && (forall i :: 0 <= i < |weeks| - 1 ==> |weeks[i]| == 7)
    && (weeks != [] ==> 0 < |weeks[|weeks| - 1]| <= 7)
  }

  /** The `while (currentDate <= today)` loop and the final push. */
  method ChunkWeeks(dates: seq<string>, data: seq<HeatCell>) returns (weeks: seq<seq<HeatCell>>)
    ensures Flatten(weeks) == DayCells(dates, data)
    ensures WeekShaped(weeks)
    ensures |weeks| == (|dates| + 6) / 7
  {
    weeks := [];
    var currentWeek: seq<HeatCell> := [];
    var i := 0;
    while i < |dates|
      invariant 0 <= i <= |dates|
      invariant Flatten(weeks) + currentWeek == DayCells(dates[..i], data)
      invariant forall w :: 0 <= w < |weeks| ==> |weeks[w]| == 7
      invariant |currentWeek| < 7
      invariant 7 * |weeks| + |currentWeek| == i
    {
      var dayData := DayFor(data, dates[i]);
      DayCellsSnoc(dates, data, i);
      ConcatSnoc(Flatten(weeks), currentWeek, dayData);
      currentWeek := currentWeek + [dayData];
      if |currentWeek| == 7 {
        FlattenSnoc(weeks, currentWeek);
        weeks := weeks + [currentWeek];
        currentWeek := [];
      }
      i := i + 1;
    }
    assert dates[..i] == dates;
    if |currentWeek| > 0 {
      FlattenSnoc(weeks, currentWeek);
      weeks := weeks + [currentWeek];
    }
  }

  /** `getIntensity(count)` as a level from 0 (muted) to 4 (darkest). */
  function Intensity(count: int): (level: int)
    ensures 0 <= level <= 4
    ensures level == 0 <==> count == 0
    ensures level == 1 <==> count != 0 && count < 1800
    ensures level == 2 <==> 1800 <= count < 7200
    ensures level == 3 <==> 7200 <= count < 14400
    ensures level == 4 <==> 14400 <= count
  {
    if count == 0 then 0
    else if count < 1800 then 1
    else if count < 7200 then 2
    else if count < 14400 then 3
    else 4
  }

  /** The class names of the five levels. */
  const IntensityClasses: seq<string> := [
    "bg-muted/30",
    "bg-green-200 dark:bg-green-900",
    "bg-green-400 dark:bg-green-700",
    "bg-green-500 dark:bg-green-600",
    "bg-green-600 dark:bg-green-500"]

  function GetIntensity(count: int): string {
    IntensityClasses[Intensity(count)]
  }

  /** More recorded time never gives a lighter cell. */
  lemma IntensityMonotone(a: int, b: int)
    requires 0 <= a <= b
    ensures Intensity(a) <= Intensity(b)
  {
  }

  /** A month label: the month number and the week it stands over. */
  datatype Label = Label(month: int, week: int)

  function LastMonth(labels: seq<Label>): int {
    if labels == [] then -1 else labels[|labels| - 1].month
  }

  /** The labels after the first `n` weeks: a week gets one when its first
      day's month differs from the last label's (`lastMonth`, -1 at
      first). */
  function LabelsUpTo(weeks: seq<seq<HeatCell>>, monthOf: string -> int, n: nat): seq<Label>
    requires n <= |weeks|
  {
    if n == 0 then []
    else
      var labels := LabelsUpTo(weeks, monthOf, n - 1);
      var week := weeks[n - 1];
      if week != [] && monthOf(week[0].date) != LastMonth(labels)
      then labels + [Label(monthOf(week[0].date), n - 1)]
      else labels
  }

  /** The `getMonthLabels` loop. */
  method MonthLabels(weeks: seq<seq<HeatCell>>, monthOf: string -> int) returns (labels: seq<Label>)
    ensures labels == LabelsUpTo(weeks, monthOf, |weeks|)
  {
    labels := [];
    var lastMonth := -1;
    var w := 0;
    while w < |weeks|
      invariant 0 <= w <= |weeks|
      invariant labels == LabelsUpTo(weeks, monthOf, w)
      invariant lastMonth == LastMonth(labels)
    {
      var week := weeks[w];
      if week != [] {
        var month := monthOf(week[0].date);
        if month != lastMonth {
          labels := labels + [Label(month, w)];
          lastMonth := month;
        }
      }
      w := w + 1;
    }
  }

  /** Each label stands over a non-empty week among the first `n`, whose
      first day is in the labelled month. */
  predicate LabelsPlaced(weeks: seq<seq<HeatCell>>, monthOf: string -> int, n: nat, labels: seq<Label>)
    requires n <= |weeks|
  {
    forall i :: 0 <= i < |labels| ==>
      0 <= labels[i].week < n && weeks[labels[i].week] != []
      && labels[i].month == monthOf(weeks[labels[i].week][0].date)
  }

  /** Consecutive labels name different months and stand over strictly
      later weeks. */
  predicate LabelsChange(labels: seq<Label>) {
    forall i :: 0 <= i < |labels| - 1 ==>
      labels[i].month != labels[i + 1].month && labels[i].week < labels[i + 1].week
  }

  lemma {:induction false} LabelsShape(weeks: seq<seq<HeatCell>>, monthOf: string -> int, n: nat)
    requires n <= |weeks|
    ensures LabelsPlaced(weeks, monthOf, n, LabelsUpTo(weeks, monthOf, n))
    ensures LabelsChange(LabelsUpTo(weeks, monthOf, n))
  {
    if n > 0 {
      LabelsShape(weeks, monthOf, n - 1);
      var prev := LabelsUpTo(weeks, monthOf, n - 1);
      var week := weeks[n - 1];
      if week != [] && monthOf(week[0].date) != LastMonth(prev) {
        var labels := prev + [Label(monthOf(week[0].date), n - 1)];
        assert LabelsUpTo(weeks, monthOf, n) == labels;
        assert forall i :: 0 <= i < |prev| ==> labels[i] == prev[i];
        if prev != [] {
          assert prev[|prev| - 1].week < n - 1;
        }
      }
    }
  }

  /** The first non-empty week always gets a label when months are
      numbered from 0. */
  lemma FirstWeekLabelled(weeks: seq<seq<HeatCell>>, monthOf: string -> int)
    requires weeks != [] && weeks[0] != [] && monthOf(weeks[0][0].date) >= 0
    ensures LabelsUpTo(weeks, monthOf, 1) == [Label(monthOf(weeks[0][0].date), 0)]
  {
  }

  function TotalCount(data: seq<HeatCell>): int {
    if data == [] then 0 else TotalCount(data[..|data| - 1]) + data[|data| - 1].count
  }

  /** `Math.round(totalActivity / 3600)`, halves rounded up. */
  function TotalHours(data: seq<HeatCell>): (h: int)
    ensures 3600 * h - 1800 <= TotalCount(data) < 3600 * h + 1800
  {
    (TotalCount(data) + 1800) / 3600
  }

  /** `data.filter(d => d.count > 0).length`. */
  function ActiveDays(data: seq<HeatCell>): (n: nat)
    ensures n <= |data|
    ensures n == 0 <==> forall i :: 0 <= i < |data| ==> data[i].count <= 0
    ensures n == |data| <==> forall i :: 0 <= i < |data| ==> data[i].count > 0
  {
    if data == [] then 0
    else
      var init := data[..|data| - 1];
      assert forall i :: 0 <= i < |init| ==> init[i] == data[i];
      ActiveDays(init) + (if data[|data| - 1].count > 0 then 1 else 0)
  }
}

=== FILE: ledger.dfy ===
/** The daily ledger kept by the Electron main process: one record per
    date, each with the closed sessions of that day and a per-application
    total. This module is the value-level specification; the tracker class
    in module Tracker updates its `ledger` field exactly as these functions
    say. */
module Ledger {

  /** A closed session (`ActivityEntry`). Times are epoch milliseconds,
      `duration` is in whole seconds. */
  datatype Entry = Entry(
    id: string,
    appName: string,
    title: string,
    startTime: int,
    endTime: int,
    duration: int)

  /** One day of the ledger (`DailyData`): its date string, its entries in
      the order they were closed, and `appSummary`, appName -> seconds. */
  datatype DayRecord = DayRecord(date: string, entries: seq<Entry>, appSummary: map<string, int>)

  /** `Math.round(ms / 1000)`: JavaScript rounds halves upwards, which is
      `floor(ms / 1000 + 1/2)`, and Dafny's `/` floors for a positive divisor. */
  function RoundToSeconds(ms: int): (s: int)
    ensures 1000 * s - 500 <= ms < 1000 * s + 500
  {
    (ms + 500) / 1000
  }

  /** Seconds recorded for `app` in a list of entries. */
  function SumFor(entries: seq<Entry>, app: string): int {
    if entries == [] then 0
    else
      var last := entries[|entries| - 1];
      SumFor(entries[..|entries| - 1], app) + (if last.appName == app then last.duration else 0)
  }

  predicate DurationsPositive(entries: seq<Entry>) {
    forall i :: 0 <= i < |entries| ==> entries[i].duration > 0
  }

  /** The invariant of a day record: every entry lasted at least a second,
      every entry's app has a summary key, and every key holds exactly the
      seconds of that app's entries (hence a positive number). */
  predicate SummaryConsistent(r: DayRecord) {
    && DurationsPositive(r.entries)
    && (forall i :: 0 <= i < |r.entries| ==> r.entries[i].appName in r.appSummary)
    && (forall a :: a in r.appSummary ==> r.appSummary[a] == SumFor(r.entries, a) && r.appSummary[a] > 0)
  }

  predicate DatesUnique(l: seq<DayRecord>) {
    forall i, j :: 0 <= i < j < |l| ==> l[i].date != l[j].date
  }

  /** The invariant of the whole ledger. */
  predicate LedgerValid(l: seq<DayRecord>) {
    DatesUnique(l) && forall i :: 0 <= i < |l| ==> SummaryConsistent(l[i])
  }

  predicate HasDate(l: seq<DayRecord>, date: string) {
    exists i :: 0 <= i < |l| && l[i].date == date
  }

  /** `allData.find(d => d.date === date)` as an index: the first record
      with that date, or `|l|` when there is none. */
  function IndexOfDate(l: seq<DayRecord>, date: string): (k: nat)
    ensures k <= |l|
    ensures k < |l| ==> l[k].date == date
    ensures forall j :: 0 <= j < k ==> l[j].date != date
    ensures k == |l| <==> !HasDate(l, date)
  {
    if l == [] then 0
    else if l[0].date == date then 0
    else 1 + IndexOfDate(l[1..], date)
  }

  /** The first record with a date is found by its position. */
  lemma IndexOfDateAt(l: seq<DayRecord>, date: string, k: nat)
    requires k < |l| && l[k].date == date
    requires forall j :: 0 <= j < k ==> l[j].date != date
    ensures IndexOfDate(l, date) == k
  {
  }

  /** The summary for `date` (`get-today-summary`): that record's
      `appSummary`, or the empty map when the ledger has no such date. */
  function SummaryFor(l: seq<DayRecord>, date: string): (m: map<string, int>)
    ensures !HasDate(l, date) ==> m == map[]
    ensures forall i :: 0 <= i < |l| && l[i].date == date && DatesUnique(l) ==> m == l[i].appSummary
  {
    var k := IndexOfDate(l, date);
    if k < |l| then l[k].appSummary else map[]
  }

  /** Pushes an entry on a record and adds its seconds to its app's total
      (`(appSummary[app] || 0) + duration`). */
  function AddEntry(r: DayRecord, e: Entry): DayRecord {
    var before := if e.appName in r.appSummary then r.appSummary[e.appName] else 0;
    DayRecord(r.date, r.entries + [e], r.appSummary[e.appName := before + e.duration])
  }

  /** Appends a closed session to the record for `date`, creating that
      record at the end of the ledger when the date is new. */
  function Append(l: seq<DayRecord>, date: string, e: Entry): seq<DayRecord> {
    var k := IndexOfDate(l, date);
    if k < |l| then l[k := AddEntry(l[k], e)]
    else l + [AddEntry(DayRecord(date, [], map[]), e)]
  }

  /** `entries.findIndex(e => e.id === id)`, with `|entries|` for -1. */
  function IndexOfEntry(entries: seq<Entry>, id: string): (k: nat)
    ensures k <= |entries|
    ensures k < |entries| ==> entries[k].id == id
    ensures forall j :: 0 <= j < k ==> entries[j].id != id
  {
    if entries == [] then 0
    else if entries[0].id == id then 0
    else 1 + IndexOfEntry(entries[1..], id)
  }

  /** The first record, in ledger order, holding an entry with that id; `|l|`
      when no record does. */
  function DayOfEntry(l: seq<DayRecord>, id: string): (d: nat)
    ensures d <= |l|
    ensures d < |l| ==> IndexOfEntry(l[d].entries, id) < |l[d].entries|
    ensures forall j :: 0 <= j < d ==> IndexOfEntry(l[j].entries, id) == |l[j].entries|
  {
    if l == [] then 0
    else if IndexOfEntry(l[0].entries, id) < |l[0].entries| then 0
    else 1 + DayOfEntry(l[1..], id)
  }

  /** The search stops at the first record holding the id. */
  lemma DayOfEntryAt(l: seq<DayRecord>, id: string, k: nat)
    requires k < |l| && IndexOfEntry(l[k].entries, id) < |l[k].entries|
    requires forall j :: 0 <= j < k ==> IndexOfEntry(l[j].entries, id) == |l[j].entries|
    ensures DayOfEntry(l, id) == k
  {
  }

  /** Takes entry `i` out of a record: subtracts its seconds from its app's
      total, drops the key once the total is not positive, and splices the
      entry out. */
  function RemoveEntry(r: DayRecord, i: nat): DayRecord
    requires i < |r.entries|
    requires r.entries[i].appName in r.appSummary
  {
    var e := r.entries[i];
    var left := r.appSummary[e.appName] - e.duration;
    var summary := if left <= 0 then r.appSummary - {e.appName} else r.appSummary[e.appName := left];
    DayRecord(r.date, r.entries[..i] + r.entries[i + 1..], summary)
  }

  /** `delete-entry`: the new ledger and whether an entry was removed. Only
      the first match in ledger order is removed. */
  function Delete(l: seq<DayRecord>, id: string): (res: (seq<DayRecord>, bool))
    requires LedgerValid(l)
  {
    var d := DayOfEntry(l, id);
    if d == |l| then (l, false)
    else
      var i := IndexOfEntry(l[d].entries, id);
      assert SummaryConsistent(l[d]);
      (l[d := RemoveEntry(l[d], i)], true)
  }

  // ---------------------------------------------------------------------
  // Facts about SumFor

  lemma {:induction false} SumForConcat(x: seq<Entry>, y: seq<Entry>, app: string)
    ensures SumFor(x + y, app) == SumFor(x, app) + SumFor(y, app)
    decreases |y|
  {
    if y == [] {
      assert x + y == x;
    } else {
      var y' := y[..|y| - 1];
      assert (x + y)[..|x + y| - 1] == x + y';
      assert (x + y)[|x + y| - 1] == y[|y| - 1];
      SumForConcat(x, y', app);
    }
  }

  lemma SumForSingle(e: Entry, app: string)
    ensures SumFor([e], app) == if e.appName == app then e.duration else 0
  {
    assert [e][..0] == [];
  }

  /** With positive durations, an app has a positive total exactly when one
      of the entries belongs to it, and never a negative one. */
  lemma {:induction false} SumForPositive(entries: seq<Entry>, app: string)
    requires DurationsPositive(entries)
    ensures SumFor(entries, app) >= 0
    ensures SumFor(entries, app) > 0 <==> exists i :: 0 <= i < |entries| && entries[i].appName == app
    decreases |entries|
  {
    if entries != [] {
      var init := entries[..|entries| - 1];
      SumForPositive(init, app);
      if exists i :: 0 <= i < |init| && init[i].appName == app {
        var i :| 0 <= i < |init| && init[i].appName == app;
        assert entries[i].appName == app;
      }
      if exists i :: 0 <= i < |entries| && entries[i].appName == app {
        var i :| 0 <= i < |entries| && entries[i].appName == app;
        if i < |init| {
          assert init[i].appName == app;
        }
      }
    }
  }

  // ---------------------------------------------------------------------
  // Appending a session

  /** Appending keeps every record consistent and the dates unique. */
  lemma AppendValid(l: seq<DayRecord>, date: string, e: Entry)
    requires LedgerValid(l)
    requires e.duration > 0
    ensures LedgerValid(Append(l, date, e))
  {
    var k := IndexOfDate(l, date);
    if k < |l| {
      AddEntryConsistent(l[k], e);
    } else {
      AddEntryConsistent(DayRecord(date, [], map[]), e);
    }
  }

  lemma AddEntryConsistent(r: DayRecord, e: Entry)
    requires SummaryConsistent(r)
    requires e.duration > 0
    ensures SummaryConsistent(AddEntry(r, e))
  {
    var r' := AddEntry(r, e);
    forall a | a in r'.appSummary
      ensures r'.appSummary[a] == SumFor(r'.entries, a) && r'.appSummary[a] > 0
    {
      SumForConcat(r.entries, [e], a);
      SumForSingle(e, a);
      SumForPositive(r.entries, a);
      if a == e.appName && a !in r.appSummary {
        assert forall i :: 0 <= i < |r.entries| ==> r.entries[i].appName != a;
      }
    }
  }

  /** What a switch does to the ledger: the record for `date` gains exactly
      the entry `e` at its end and `e.duration` on its app's total; every
      other app's total and every other record stay as they were; a record
      is created, at the end, only when the date was absent. */
  lemma AppendEffect(l: seq<DayRecord>, date: string, e: Entry)
    requires LedgerValid(l)
    ensures var l' := Append(l, date, e);
      |l'| == (if HasDate(l, date) then |l| else |l| + 1)
    ensures var l' := Append(l, date, e);
      forall j :: 0 <= j < |l| && l[j].date != date ==> l'[j] == l[j]
    ensures var l' := Append(l, date, e);
      var k := IndexOfDate(l, date);
      && k < |l'|
      && IndexOfDate(l', date) == k
      && l'[k].date == date
      && l'[k].entries == (if k < |l| then l[k].entries else []) + [e]
      && e.appName in l'[k].appSummary
      && l'[k].appSummary[e.appName]
         == (if k < |l| && e.appName in l[k].appSummary then l[k].appSummary[e.appName] else 0) + e.duration
      && (forall a :: a != e.appName ==>
            (a in l'[k].appSummary <==> k < |l| && a in l[k].appSummary)
            && (a in l'[k].appSummary ==> l'[k].appSummary[a] == l[k].appSummary[a]))
  {
    var k := IndexOfDate(l, date);
    var l' := Append(l, date, e);
    if k < |l| {
      assert l'[k].date == date;
      IndexOfDateAt(l', date, k);
    } else {
      assert [] + [e] == [e];
      assert l'[|l|].date == date;
      IndexOfDateAt(l', date, |l|);
    }
  }

  // ---------------------------------------------------------------------
  // Deleting an entry

  lemma RemoveEntryConsistent(r: DayRecord, i: nat)
    requires SummaryConsistent(r)
    requires i < |r.entries|
    ensures r.entries[i].appName in r.appSummary
    ensures SummaryConsistent(RemoveEntry(r, i))
  {
    var e := r.entries[i];
    var rest := r.entries[..i] + r.entries[i + 1..];
    assert r.entries == r.entries[..i] + [e] + r.entries[i + 1..];
    assert DurationsPositive(rest) by {
      forall j | 0 <= j < |rest| ensures rest[j].duration > 0 {
        if j < i { assert rest[j] == r.entries[j]; } else { assert rest[j] == r.entries[j + 1]; }
      }
    }
    var r' := RemoveEntry(r, i);
    forall a ensures SumFor(rest, a) == SumFor(r.entries, a) - (if e.appName == a then e.duration else 0) {
      SumForConcat(r.entries[..i] + [e], r.entries[i + 1..], a);
      SumForConcat(r.entries[..i], [e], a);
      SumForConcat(r.entries[..i], r.entries[i + 1..], a);
      SumForSingle(e, a);
    }
    forall j | 0 <= j < |rest| ensures rest[j].appName in r'.appSummary {
      var a := rest[j].appName;
      if j < i { assert rest[j] == r.entries[j]; } else { assert rest[j] == r.entries[j + 1]; }
      SumForPositive(rest, a);
    }
    forall a | a in r'.appSummary
      ensures r'.appSummary[a] == SumFor(rest, a) && r'.appSummary[a] > 0
    {
    }
  }

  /** `delete-entry` keeps the ledger invariant. */
  lemma DeleteValid(l: seq<DayRecord>, id: string)
    requires LedgerValid(l)
    ensures LedgerValid(Delete(l, id).0)
  {
    var d := DayOfEntry(l, id);
    if d < |l| {
      RemoveEntryConsistent(l[d], IndexOfEntry(l[d].entries, id));
    }
  }

  /** `delete-entry` with a known id removes the first match in ledger order
      and only it: that record loses exactly that entry and that entry's
      seconds from its app, the other apps' totals and the other records are
      untouched, and the result is `true`. An unknown id gives `false` and
      the ledger unchanged. */
  lemma DeleteEffect(l: seq<DayRecord>, id: string)
    requires LedgerValid(l)
    ensures Delete(l, id).1 <==>
      exists d, i :: 0 <= d < |l| && 0 <= i < |l[d].entries| && l[d].entries[i].id == id
    ensures !Delete(l, id).1 ==> Delete(l, id).0 == l
    ensures Delete(l, id).1 ==> DayOfEntry(l, id) < |l|
    ensures Delete(l, id).1 ==>
      var l' := Delete(l, id).0;
      var d := DayOfEntry(l, id);
      var i := IndexOfEntry(l[d].entries, id);
      var e := l[d].entries[i];
      && |l'| == |l|
      && (forall j :: 0 <= j < |l| && j != d ==> l'[j] == l[j])
      && l'[d].date == l[d].date
      && l'[d].entries == l[d].entries[..i] + l[d].entries[i + 1..]
      && (e.appName in l'[d].appSummary <==> l[d].appSummary[e.appName] > e.duration)
      && (e.appName in l'[d].appSummary ==>
            l'[d].appSummary[e.appName] == l[d].appSummary[e.appName] - e.duration)
      && (forall a :: a != e.appName ==>
            (a in l'[d].appSummary <==> a in l[d].appSummary)
            && (a in l[d].appSummary ==> l'[d].appSummary[a] == l[d].appSummary[a]))
  {
    HoldsEntryIff(l, id);
    if DayOfEntry(l, id) < |l| {
      DeleteFound(l, id);
    }
  }

  /** The found case of `DeleteEffect`. */
  lemma DeleteFound(l: seq<DayRecord>, id: string)
    requires LedgerValid(l)
    requires DayOfEntry(l, id) < |l|
    ensures Delete(l, id).1
    ensures var l' := Delete(l, id).0;
      var d := DayOfEntry(l, id);
      var i := IndexOfEntry(l[d].entries, id);
      var e := l[d].entries[i];
      && |l'| == |l|
      && (forall j :: 0 <= j < |l| && j != d ==> l'[j] == l[j])
      && l'[d].date == l[d].date
      && l'[d].entries == l[d].entries[..i] + l[d].entries[i + 1..]
      && (e.appName in l'[d].appSummary <==> l[d].appSummary[e.appName] > e.duration)
      && (e.appName in l'[d].appSummary ==>
            l'[d].appSummary[e.appName] == l[d].appSummary[e.appName] - e.duration)
      && (forall a :: a != e.appName ==>
            (a in l'[d].appSummary <==> a in l[d].appSummary)
            && (a in l[d].appSummary ==> l'[d].appSummary[a] == l[d].appSummary[a]))
  {
    var d := DayOfEntry(l, id);
    var i := IndexOfEntry(l[d].entries, id);
    assert SummaryConsistent(l[d]);
    RemoveEntryEffect(l[d], i);
  }

  /** Some record holds an entry with the id exactly when the search finds
      one. */
  lemma HoldsEntryIff(l: seq<DayRecord>, id: string)
    ensures DayOfEntry(l, id) < |l| <==>
      exists d, i :: 0 <= d < |l| && 0 <= i < |l[d].entries| && l[d].entries[i].id == id
  {
    var d := DayOfEntry(l, id);
    if d < |l| {
      assert l[d].entries[IndexOfEntry(l[d].entries, id)].id == id;
    } else {
      forall dd, i | 0 <= dd < |l| && 0 <= i < |l[dd].entries|
        ensures l[dd].entries[i].id != id
      {
        assert IndexOfEntry(l[dd].entries, id) == |l[dd].entries|;
      }
    }
  }

  /** What taking entry `i` out does to its record. */
  lemma RemoveEntryEffect(r: DayRecord, i: nat)
    requires i < |r.entries|
    requires r.entries[i].appName in r.appSummary
    ensures var r' := RemoveEntry(r, i);
      var e := r.entries[i];
      && r'.date == r.date
      && r'.entries == r.entries[..i] + r.entries[i + 1..]
      && (e.appName in r'.appSummary <==> r.appSummary[e.appName] > e.duration)
      && (e.appName in r'.appSummary ==> r'.appSummary[e.appName] == r.appSummary[e.appName] - e.duration)
      && (forall a :: a != e.appName ==>
            (a in r'.appSummary <==> a in r.appSummary)
            && (a in r.appSummary ==> r'.appSummary[a] == r.appSummary[a]))
  {
  }
}

=== FILE: option.dfy ===
/** The optional value used throughout the model for JavaScript's
    `undefined`/`null` results. */
module Optional {

  datatype Option<+T> = None | Some(value: T) {

    /** The value, or `default` when there is none (`x ?? default`). */
    function GetOr(default: T): T {
      match this
      case Some(v) => v
      case None => default
    }
  }
}

=== FILE: pomodoro.dfy ===
/** The Pomodoro timer (src/components/PomodoroTimer.tsx): work periods
    alternating with short breaks, and a long break after every
    `sessionsBeforeLongBreak` completed work periods. */
module Pomodoro {
  import opened Optional
  import opened Arith

  datatype Mode = Work | ShortBreak | LongBreak

  datatype Settings = Settings(
    workMinutes: int,
    shortBreakMinutes: int,
    longBreakMinutes: int,
    sessionsBeforeLongBreak: int)

  const DefaultSettings := Settings(25, 5, 15, 4)

  /** `getModeTime(m)`: the configured minutes of the mode, in seconds. */
  function ModeTime(s: Settings, m: Mode): (seconds: int)
    ensures m == Work ==> seconds == 60 * s.workMinutes
    ensures m == ShortBreak ==> seconds == 60 * s.shortBreakMinutes
    ensures m == LongBreak ==> seconds == 60 * s.longBreakMinutes
  {
    match m
    case Work => s.workMinutes * 60
    case ShortBreak => s.shortBreakMinutes * 60
    case LongBreak => s.longBreakMinutes * 60
  }

  /** `completed % sessionsBeforeLongBreak === 0`; in JavaScript a zero
      divisor gives `NaN`, which is not 0. */
  predicate LongBreakDue(completed: int, every: int) {
    every != 0 && completed % every == 0
  }

  /** The mode `handleTimerComplete` switches to, and the completed count
      it leaves. */
  function AfterCompletion(mode: Mode, completed: int, every: int): (r: (Mode, int))
    ensures mode == Work ==> r.1 == completed + 1
    ensures mode != Work ==> r == (Work, completed)
    ensures mode == Work ==> (r.0 == LongBreak <==> LongBreakDue(completed + 1, every))
    ensures mode == Work ==> r.0 != Work
  {
    if mode == Work then
      var n := completed + 1;
      (if LongBreakDue(n, every) then LongBreak else ShortBreak, n)
    else (Work, completed)
  }

  /** Within each block of `every` consecutive work periods, exactly the
      last one is followed by the long break. */
  lemma LongBreakEveryNth(k: nat, j: int, every: int)
    requires every > 0 && 0 <= j < every
    ensures AfterCompletion(Work, k * every + j, every).0 == LongBreak <==> j == every - 1
  {
    if j == every - 1 {
      assert k * every + j + 1 == (k + 1) * every;
      ModOfMultiple(k + 1, every, 0);
    } else {
      ModOfMultiple(k, every, j + 1);
    }
  }

  /** The value the interval's `setTimeLeft` updater returns: one second
      less, or 0 on the last second (when completion is triggered). */
  function TickUpdate(prev: int): (r: int)
    ensures r >= 0
    ensures prev <= 1 <==> r == 0
    ensures prev > 1 ==> r == prev - 1
  {
    if prev <= 1 then 0 else prev - 1
  }

  /** A number typed into a settings field: `parseInt(text) || fallback`;
      text that does not parse is `None`. */
  function SettingInput(parsed: Option<int>, fallback: int): (r: int)
    ensures parsed.None? || parsed.value == 0 ==> r == fallback
    ensures parsed.Some? && parsed.value != 0 ==> r == parsed.value
  {
    if parsed.Some? && parsed.value != 0 then parsed.value else fallback
  }

  datatype Field = WorkField | ShortBreakField | LongBreakField | SessionsField

  /** The settings after one field is edited; each field falls back to its
      default. */
  function EditSettings(s: Settings, field: Field, parsed: Option<int>): (r: Settings)
    ensures field == WorkField ==> r == s.(workMinutes := SettingInput(parsed, 25))
    ensures field == ShortBreakField ==> r == s.(shortBreakMinutes := SettingInput(parsed, 5))
    ensures field == LongBreakField ==> r == s.(longBreakMinutes := SettingInput(parsed, 15))
    ensures field == SessionsField ==> r == s.(sessionsBeforeLongBreak := SettingInput(parsed, 4))
  {
    match field
    case WorkField => s.(workMinutes := SettingInput(parsed, DefaultSettings.workMinutes))
    case ShortBreakField => s.(shortBreakMinutes := SettingInput(parsed, DefaultSettings.shortBreakMinutes))
    case LongBreakField => s.(longBreakMinutes := SettingInput(parsed, DefaultSettings.longBreakMinutes))
    case SessionsField => s.(sessionsBeforeLongBreak := SettingInput(parsed, DefaultSettings.sessionsBeforeLongBreak))
  }

  /** No setting is ever 0: the defaults are not, and an input of 0 falls
      back to the default. */
  predicate NoZeroSetting(s: Settings) {
    s.workMinutes != 0 && s.shortBreakMinutes != 0 && s.longBreakMinutes != 0
    && s.sessionsBeforeLongBreak != 0
  }

  lemma EditKeepsNoZero(s: Settings, field: Field, parsed: Option<int>)
    requires NoZeroSetting(s)
    ensures NoZeroSetting(EditSettings(s, field, parsed))
  {
  }

  class PomodoroTimer {
    var settings: Settings
    var mode: Mode
    var timeLeft: int
    var isRunning: bool
    var completedSessions: int
    var soundEnabled: bool

    ghost predicate Valid()
      reads this
    {
      NoZeroSetting(settings) && completedSessions >= 0
    }

    constructor()
      ensures Valid()
      ensures settings == DefaultSettings && mode == Work && timeLeft == 25 * 60
      ensures !isRunning && completedSessions == 0 && soundEnabled
    {
      settings := DefaultSettings;
      mode := Work;
      timeLeft := DefaultSettings.workMinutes * 60;
      isRunning := false;
      completedSessions := 0;
      soundEnabled := true;
    }

    /** `switchMode(m)`. */
    method SwitchMode(m: Mode)
      modifies this
      ensures mode == m && timeLeft == ModeTime(settings, m) && !isRunning
      ensures settings == old(settings) && completedSessions == old(completedSessions)
      ensures soundEnabled == old(soundEnabled)
    {
      mode := m;
      timeLeft := ModeTime(settings, m);
      isRunning := false;
    }

    /** `handleTimerComplete()`: after work, count the session and take a
        long or a short break; after a break, go back to work. The timer
        stops at the full time of the next mode. */
    method HandleTimerComplete()
      requires Valid()
      modifies this
      ensures Valid()
      ensures (mode, completedSessions) ==
        AfterCompletion(old(mode), old(completedSessions), settings.sessionsBeforeLongBreak)
      ensures timeLeft == ModeTime(settings, mode) && !isRunning
      ensures settings == old(settings) && soundEnabled == old(soundEnabled)
    {
      if mode == Work {
        var newCompleted := completedSessions + 1;
        completedSessions := newCompleted;
        if newCompleted % settings.sessionsBeforeLongBreak == 0 {
          SwitchMode(LongBreak);
        } else {
          SwitchMode(ShortBreak);
        }
      } else {
        SwitchMode(Work);
      }
    }

    /** One second of the interval. It runs only while the timer is
        running with time left; the last second completes the period, and
        the completion's own `setTimeLeft` is applied after the updater's
        0. */
    method Tick()
      requires Valid()
      modifies this
      ensures Valid()
      ensures !(old(isRunning) && old(timeLeft) > 0) ==>
        mode == old(mode) && timeLeft == old(timeLeft) && isRunning == old(isRunning)
        && completedSessions == old(completedSessions)
      ensures old(isRunning) && old(timeLeft) > 1 ==>
        timeLeft == TickUpdate(old(timeLeft)) && mode == old(mode) && isRunning
        && completedSessions == old(completedSessions)
      ensures old(isRunning) && old(timeLeft) == 1 ==>
        (mode, completedSessions) == AfterCompletion(old(mode), old(completedSessions), settings.sessionsBeforeLongBreak)
        && timeLeft == ModeTime(settings, mode) && !isRunning
      ensures settings == old(settings) && soundEnabled == old(soundEnabled)
    {
      if isRunning && timeLeft > 0 {
        var prev := timeLeft;
        timeLeft := TickUpdate(prev);
        if prev <= 1 {
          HandleTimerComplete();
        }
      }
    }

    /** The play/pause button. */
    method ToggleRunning()
      modifies this`isRunning
      ensures isRunning == !old(isRunning)
    {
      isRunning := !isRunning;
    }

    /** The reset button: stop and restore the full time of the current
        mode. */
    method Reset()
      modifies this`isRunning, this`timeLeft
      ensures !isRunning && timeLeft == ModeTime(settings, mode)
    {
      isRunning := false;
      timeLeft := ModeTime(settings, mode);
    }

    /** The sound toggle. */
    method ToggleSound()
      modifies this`soundEnabled
      ensures soundEnabled == !old(soundEnabled)
    {
      soundEnabled := !soundEnabled;
    }

    /** A settings input: only the settings change; the running countdown
        keeps its time until the next switch or reset. */
    method EditSetting(field: Field, parsed: Option<int>)
      requires Valid()
      modifies this`settings
      ensures Valid()
      ensures settings == EditSettings(old(settings), field, parsed)
    {
      EditKeepsNoZero(settings, field, parsed);
      settings := EditSettings(settings, field, parsed);
    }
  }
}

=== FILE: privacy.dfy ===
/** Privacy rules (src/components/PrivacySettings.tsx): a list of
    applications excluded from tracking, a global private-mode switch, and
    the suggestions offered while typing a new rule. */
module Privacy {
  import opened Text
  import opened Sorting
  import opened Tallies

  datatype Rule = Rule(id: string, appName: string, pattern: string, enabled: bool)

  /** `addPrivateApp(appName)` with `Date.now()` as `now`: the new rules
      and the new contents of the input box. A blank name changes
      nothing. */
  function AddPrivateApp(rules: seq<Rule>, input: string, appName: string, now: nat): (r: (seq<Rule>, string))
    ensures Trim(appName) == [] ==> r == (rules, input)
    ensures Trim(appName) != [] ==>
      r.0 == rules + [Rule(NatToString(now), Trim(appName), Lower(Trim(appName)), true)] && r.1 == ""
  {
    var name := Trim(appName);
    if name == [] then (rules, input)
    else (rules + [Rule(NatToString(now), name, Lower(name), true)], "")
  }

  /** A name made only of white space is refused; any other name adds one
      rule at the end, keeping the earlier ones (even one for the same
      application), enabled, with its pattern lower-cased. */
  lemma AddEffect(rules: seq<Rule>, input: string, appName: string, now: nat)
    ensures AllSpace(appName) ==> AddPrivateApp(rules, input, appName, now) == (rules, input)
    ensures !AllSpace(appName) ==>
      var added := AddPrivateApp(rules, input, appName, now).0;
      |added| == |rules| + 1 && added[..|rules|] == rules && added[|rules|].enabled
      && added[|rules|].appName == Trim(appName) && added[|rules|].pattern == Lower(added[|rules|].appName)
      && added[|rules|].appName != []
  {
    TrimEmptyIff(appName);
  }

  /** `removePrivateApp(id)`: keeps the rules with another id, in order. */
  function RemovePrivateApp(rules: seq<Rule>, id: string): (r: seq<Rule>)
    ensures |r| <= |rules|
    ensures forall x :: x in r <==> x in rules && x.id != id
    ensures |rules| == 1 ==> r == if rules[0].id != id then rules else []
  {
    if rules == [] then []
    else
      var rest := RemovePrivateApp(rules[1..], id);
      assert forall x :: x in rules <==> x == rules[0] || x in rules[1..] by {
        assert rules == [rules[0]] + rules[1..];
      }
      if rules[0].id != id then [rules[0]] + rest else rest
  }

  /** `RemovePrivateApp` keeps the order and the repetitions of its input: it
      distributes over concatenation. */
  lemma {:induction false} RemovePrivateAppAppend(a: seq<Rule>, b: seq<Rule>, id: string)
    ensures RemovePrivateApp(a + b, id) == RemovePrivateApp(a, id) + RemovePrivateApp(b, id)
  {
    if a == [] {
      assert a + b == b;
    } else {
      var x, rest := a[0], a[1..];
      assert [x] + rest == a;
      assert [x] + (rest + b) == a + b;
      RemovePrivateAppAppend(rest, b, id);
      RemovePrivateAppCons(x, rest, id);
      RemovePrivateAppCons(x, rest + b, id);
      ConcatAssoc(if x.id != id then [x] else [], RemovePrivateApp(rest, id), RemovePrivateApp(b, id));
    }
  }

  lemma RemovePrivateAppCons(x: Rule, rest: seq<Rule>, id: string)
    ensures RemovePrivateApp([x] + rest, id) == (if x.id != id then [x] else []) + RemovePrivateApp(rest, id)
  {
    assert ([x] + rest)[1..] == rest;
  }

  /** `toggleRule(id)`: flips `enabled` on every rule with that id. */
  function ToggleRule(rules: seq<Rule>, id: string): (r: seq<Rule>)
    ensures |r| == |rules|
    ensures forall i :: 0 <= i < |rules| ==>
      r[i] == if rules[i].id == id then rules[i].(enabled := !rules[i].enabled) else rules[i]
  {
    if rules == [] then []
    else
      var head := if rules[0].id == id then rules[0].(enabled := !rules[0].enabled) else rules[0];
      [head] + ToggleRule(rules[1..], id)
  }

  /** Toggling the same id twice restores the list. */
  lemma ToggleTwice(rules: seq<Rule>, id: string)
    ensures ToggleRule(ToggleRule(rules, id), id) == rules
  {
    var once := ToggleRule(rules, id);
    var twice := ToggleRule(once, id);
    assert forall i :: 0 <= i < |rules| ==> twice[i] == rules[i];
  }

  /** `togglePrivateMode()`: the new flag and the text stored for it. */
  function TogglePrivateMode(active: bool): (r: (bool, string))
    ensures r.0 == !active
    ensures r.1 == (if r.0 then "true" else "false")
  {
    var newValue := !active;
    (newValue, if newValue then "true" else "false")
  }

  /** The flag is read back as `stored === 'true'`, which recovers it. */
  lemma PrivateModeReload(active: bool)
    ensures (TogglePrivateMode(active).1 == "true") == TogglePrivateMode(active).0
  {
  }

  /** Whether some rule names the application, ignoring case. */
  predicate Excluded(rules: seq<Rule>, app: string) {
    exists i :: 0 <= i < |rules| && Lower(rules[i].appName) == Lower(app)
  }

  /** `filteredApps`: the suggestions containing the typed text, ignoring
      case, that no rule names yet, in their original order. */
  function FilteredApps(available: seq<string>, query: string, rules: seq<Rule>): (r: seq<string>)
    ensures |r| <= |available|
    ensures forall a :: a in r <==>
      a in available && Contains(Lower(a), Lower(query)) && !Excluded(rules, a)
    ensures |available| == 1 ==> r == if Contains(Lower(available[0]), Lower(query)) && !Excluded(rules, available[0]) then available else []
  {
    if available == [] then []
    else
      var a := available[0];
      var rest := FilteredApps(available[1..], query, rules);
      assert forall x :: x in available <==> x == a || x in available[1..] by {
        assert available == [a] + available[1..];
      }
      if Contains(Lower(a), Lower(query)) && !Excluded(rules, a) then [a] + rest else rest
  }

  /** `FilteredApps` keeps the order and the repetitions of its input: it
      distributes over concatenation. */
  lemma {:induction false} FilteredAppsAppend(a: seq<string>, b: seq<string>, query: string, rules: seq<Rule>)
    ensures FilteredApps(a + b, query, rules) == FilteredApps(a, query, rules) + FilteredApps(b, query, rules)
  {
    if a == [] {
      assert a + b == b;
    } else {
      var x, rest := a[0], a[1..];
      assert [x] + rest == a;
      assert [x] + (rest + b) == a + b;
      FilteredAppsAppend(rest, b, query, rules);
      FilteredAppsCons(x, rest, query, rules);
      FilteredAppsCons(x, rest + b, query, rules);
      ConcatAssoc(if Contains(Lower(x), Lower(query)) && !Excluded(rules, x) then [x] else [],
                  FilteredApps(rest, query, rules), FilteredApps(b, query, rules));
    }
  }

  lemma FilteredAppsCons(x: string, rest: seq<string>, query: string, rules: seq<Rule>)
    ensures FilteredApps([x] + rest, query, rules) ==
      (if Contains(Lower(x), Lower(query)) && !Excluded(rules, x) then [x] else []) + FilteredApps(rest, query, rules)
  {
    assert ([x] + rest)[1..] == rest;
  }

  /** The empty query hides only the excluded applications. */
  lemma EmptyQuery(available: seq<string>, rules: seq<Rule>)
    ensures forall a :: a in FilteredApps(available, "", rules) <==> a in available && !Excluded(rules, a)
  {
    forall a | a in available ensures Contains(Lower(a), Lower("")) {
      ContainsEmpty(Lower(a));
    }
  }

  /** Every key of every day's summary, in day order. */
  function AllKeys(summaries: seq<Tally>): (ks: seq<string>)
    ensures forall k :: k in ks <==> exists d :: 0 <= d < |summaries| && k in Keys(summaries[d])
  {
    if summaries == [] then []
    else
      var init := summaries[..|summaries| - 1];
      var ks := AllKeys(init) + Keys(summaries[|summaries| - 1]);
      assert forall d :: 0 <= d < |init| ==> summaries[d] == init[d];
      ks
  }

  /** The suggestions: every application name found in any day's summary,
      once each, in sorted order. */
  function AvailableApps(summaries: seq<Tally>): (apps: seq<string>)
    ensures StrictlyAscending(apps)
    ensures forall a :: a in apps <==> exists d :: 0 <= d < |summaries| && a in Keys(summaries[d])
  {
    SortedDistinct(AllKeys(summaries))
  }

  /** No application is suggested twice. */
  lemma AvailableAppsDistinct(summaries: seq<Tally>, i: int, j: int)
    requires 0 <= i < j < |AvailableApps(summaries)|
    ensures AvailableApps(summaries)[i] != AvailableApps(summaries)[j]
  {
    StrictlyAscendingPairs(AvailableApps(summaries), i, j);
  }
}

=== FILE: sorting.dfy ===
/** The three sorts the dashboards rely on: `Array.prototype.sort` on day
    stamps, the default (code-unit) sort of a de-duplicated name set, and
    the comparator `(a, b) => b[1] - a[1]` on `[name, seconds]` pairs.
    Each is an insertion sort proved to produce an ordered permutation of
    its input. */
module Sorting {
  import opened Tallies

  // ---------------------------------------------------------------------
  // Integers, ascending
  // ---------------------------------------------------------------------

  predicate Ascending(s: seq<int>) {
    forall i :: 0 <= i < |s| - 1 ==> s[i] <= s[i + 1]
  }

  /** Adjacent order gives order between any two positions. */
  lemma {:induction false} AscendingPairs(s: seq<int>, i: int, j: int)
    requires Ascending(s) && 0 <= i <= j < |s|
    ensures s[i] <= s[j]
    decreases j - i
  {
    if i < j {
      AscendingPairs(s, i + 1, j);
    }
  }

  function InsertInt(x: int, s: seq<int>): (r: seq<int>)
    requires Ascending(s)
    ensures Ascending(r)
    ensures multiset(r) == multiset(s) + multiset{x}
    ensures |r| == |s| + 1
    ensures r[0] == x || (s != [] && r[0] == s[0])
  {
    if s == [] || x <= s[0] then [x] + s
    else
      var rest := InsertInt(x, s[1..]);
      assert s == [s[0]] + s[1..];
      [s[0]] + rest
  }

  /** `s.sort()` on numbers (or on ISO dates, whose text order is their
      time order). */
  function SortInts(s: seq<int>): (r: seq<int>)
    ensures Ascending(r)
    ensures multiset(r) == multiset(s)
    ensures |r| == |s|
  {
    if s == [] then []
    else
      assert s == s[..|s| - 1] + [s[|s| - 1]];
      InsertInt(s[|s| - 1], SortInts(s[..|s| - 1]))
  }

  /** The result of sorting is the largest element last. */
  lemma SortedLastIsMax(s: seq<int>, x: int)
    requires x in s
    ensures SortInts(s)[|s| - 1] >= x
  {
    var r := SortInts(s);
    assert x in multiset(r);
    var i :| 0 <= i < |r| && r[i] == x;
    AscendingPairs(r, i, |r| - 1);
  }

  function Reverse(s: seq<int>): (r: seq<int>)
    ensures |r| == |s|
    ensures forall i :: 0 <= i < |s| ==> r[i] == s[|s| - 1 - i]
  {
    if s == [] then [] else Reverse(s[1..]) + [s[0]]
  }

  /** Reversing keeps the same elements, each as often. */
  lemma {:induction false} ReverseMultiset(s: seq<int>)
    ensures multiset(Reverse(s)) == multiset(s)
  {
    if s != [] {
      ReverseMultiset(s[1..]);
      assert s == [s[0]] + s[1..];
    }
  }

  /** Two lists holding the same elements, each as often, have the same
      members. */
  lemma SameMembers(a: seq<int>, b: seq<int>)
    requires multiset(a) == multiset(b)
    ensures forall x :: x in a <==> x in b
  {
    forall x ensures x in a <==> x in b {
      assert x in a <==> x in multiset(a);
      assert x in b <==> x in multiset(b);
    }
  }

  predicate Descending(s: seq<int>) {
    forall i :: 0 <= i < |s| - 1 ==> s[i] >= s[i + 1]
  }

  /** `s.sort().reverse()`: newest first. */
  function SortIntsDescending(s: seq<int>): (r: seq<int>)
    ensures Descending(r)
    ensures |r| == |s|
    ensures forall x :: x in r <==> x in s
    ensures multiset(r) == multiset(s)
  {
    var a := SortInts(s);
    ReverseMultiset(a);
    SameMembers(Reverse(a), s);
    Reverse(a)
  }

  // ---------------------------------------------------------------------
  // Strings, code-unit order, distinct
  // ---------------------------------------------------------------------

  /** The order of JavaScript's default sort on strings: character by
      character, a proper prefix first. */
  predicate StrLt(a: string, b: string) {
    if a == [] then b != []
    else if b == [] then false
    else a[0] < b[0] || (a[0] == b[0] && StrLt(a[1..], b[1..]))
  }

  lemma {:induction false} StrLtIrreflexive(a: string)
    ensures !StrLt(a, a)
  {
    if a != [] {
      StrLtIrreflexive(a[1..]);
    }
  }

  lemma {:induction false} StrLtTransitive(a: string, b: string, c: string)
    requires StrLt(a, b) && StrLt(b, c)
    ensures StrLt(a, c)
  {
    if a != [] && b != [] && c != [] && a[0] == b[0] && b[0] == c[0] {
      StrLtTransitive(a[1..], b[1..], c[1..]);
    }
  }

  lemma {:induction false} StrLtTotal(a: string, b: string)
    requires a != b
    ensures StrLt(a, b) || StrLt(b, a)
  {
    if a != [] && b != [] && a[0] == b[0] {
      assert a == [a[0]] + a[1..] && b == [b[0]] + b[1..];
      StrLtTotal(a[1..], b[1..]);
    }
  }

  predicate StrictlyAscending(s: seq<string>) {
    forall i :: 0 <= i < |s| - 1 ==> StrLt(s[i], s[i + 1])
  }

  /** Strict adjacent order gives strict order between any two positions;
      in particular a strictly ascending list has no duplicates. */
  lemma {:induction false} StrictlyAscendingPairs(s: seq<string>, i: int, j: int)
    requires StrictlyAscending(s) && 0 <= i < j < |s|
    ensures StrLt(s[i], s[j]) && s[i] != s[j]
    decreases j - i
  {
    if i + 1 < j {
      StrictlyAscendingPairs(s, i + 1, j);
      StrLtTransitive(s[i], s[i + 1], s[j]);
    }
    StrLtIrreflexive(s[i]);
  }

  function InsertUnique(x: string, s: seq<string>): (r: seq<string>)
    requires StrictlyAscending(s)
    ensures StrictlyAscending(r)
    ensures forall y :: y in r <==> y == x || y in s
    ensures r != []
    ensures r[0] == x || (s != [] && r[0] == s[0])
  {
    if s == [] then [x]
    else if x == s[0] then s
    else if StrLt(x, s[0]) then [x] + s
    else
      StrLtTotal(x, s[0]);
      var rest := InsertUnique(x, s[1..]);
      assert s == [s[0]] + s[1..];
      [s[0]] + rest
  }

  /** `Array.from(new Set(names)).sort()`: the distinct names, in order. */
  function SortedDistinct(s: seq<string>): (r: seq<string>)
    ensures StrictlyAscending(r)
    ensures forall y :: y in r <==> y in s
  {
    if s == [] then []
    else
      var r := InsertUnique(s[|s| - 1], SortedDistinct(s[..|s| - 1]));
      assert forall y :: y in s <==> y in s[..|s| - 1] || y == s[|s| - 1] by {
        assert s == s[..|s| - 1] + [s[|s| - 1]];
      }
      r
  }

  // ---------------------------------------------------------------------
  // [name, seconds] pairs, by seconds, largest first
  // ---------------------------------------------------------------------

  predicate NonIncreasing(t: seq<(string, int)>) {
    forall i :: 0 <= i < |t| - 1 ==> t[i].1 >= t[i + 1].1
  }

  lemma {:induction false} NonIncreasingPairs(t: seq<(string, int)>, i: int, j: int)
    requires NonIncreasing(t) && 0 <= i <= j < |t|
    ensures t[i].1 >= t[j].1
    decreases j - i
  {
    if i < j {
      NonIncreasingPairs(t, i + 1, j);
    }
  }

  /** An element that does not occur before position `k` has no more
      than the value at `k`. */
  lemma NonIncreasingLater(t: seq<(string, int)>, k: int, x: (string, int))
    requires NonIncreasing(t) && 0 <= k < |t| && x in t
    requires forall j :: 0 <= j < k ==> t[j] != x
    ensures t[k].1 >= x.1
  {
    var i :| 0 <= i < |t| && t[i] == x;
    NonIncreasingPairs(t, k, i);
  }

  /** Every element of a non-increasing list's prefix has at least the
      value of any element after it. */
  lemma NonIncreasingSplit(t: seq<(string, int)>, n: int, x: (string, int))
    requires NonIncreasing(t) && 0 <= n <= |t| && x in t[n..]
    ensures forall i :: 0 <= i < n ==> t[i].1 >= x.1
  {
    var j :| 0 <= j < |t| - n && t[n..][j] == x;
    forall i | 0 <= i < n ensures t[i].1 >= x.1 {
      NonIncreasingPairs(t, i, n + j);
    }
  }

  /** Places `x` after every element whose value is at least its own, so
      that equal values keep their order of arrival. */
  function InsertByValue(x: (string, int), t: seq<(string, int)>): (r: seq<(string, int)>)
    requires NonIncreasing(t)
    ensures NonIncreasing(r)
    ensures multiset(r) == multiset(t) + multiset{x}
    ensures |r| == |t| + 1
    ensures r[0] == x || (t != [] && r[0] == t[0])
  {
    if t == [] || x.1 > t[0].1 then [x] + t
    else
      var rest := InsertByValue(x, t[1..]);
      assert t == [t[0]] + t[1..];
      [t[0]] + rest
  }

  /** `entries.sort(([, a], [, b]) => b - a)`, a stable sort. */
  function SortByValue(t: seq<(string, int)>): (r: seq<(string, int)>)
    ensures NonIncreasing(r)
    ensures multiset(r) == multiset(t)
    ensures |r| == |t|
  {
    if t == [] then []
    else
      assert t == t[..|t| - 1] + [t[|t| - 1]];
      InsertByValue(t[|t| - 1], SortByValue(t[..|t| - 1]))
  }

  /** The entries holding value `v`, in their order. */
  function WithValue(t: seq<(string, int)>, v: int): (r: seq<(string, int)>)
    ensures forall i :: 0 <= i < |r| ==> r[i].1 == v
  {
    if t == [] then []
    else (if t[0].1 == v then [t[0]] else []) + WithValue(t[1..], v)
  }

  lemma WithValueCons(x: (string, int), rest: seq<(string, int)>, v: int)
    ensures WithValue([x] + rest, v) == (if x.1 == v then [x] else []) + WithValue(rest, v)
  {
    assert ([x] + rest)[1..] == rest;
  }

  lemma {:induction false} WithValueAppend(a: seq<(string, int)>, b: seq<(string, int)>, v: int)
    ensures WithValue(a + b, v) == WithValue(a, v) + WithValue(b, v)
  {
    if a == [] {
      assert a + b == b;
    } else {
      var x, rest := a[0], a[1..];
      assert [x] + rest == a;
      assert [x] + (rest + b) == a + b;
      WithValueAppend(rest, b, v);
      WithValueCons(x, rest, v);
      WithValueCons(x, rest + b, v);
      ConcatAssoc(if x.1 == v then [x] else [], WithValue(rest, v), WithValue(b, v));
    }
  }

  /** A list whose values all fall below `v` holds none equal to it. */
  lemma {:induction false} NoneWithValue(t: seq<(string, int)>, v: int)
    requires forall i :: 0 <= i < |t| ==> t[i].1 < v
    ensures WithValue(t, v) == []
  {
    if t != [] {
      NoneWithValue(t[1..], v);
    }
  }

  /** One step of `InsertByValue` past an entry of at least `x`'s value. */
  lemma InsertByValueStep(x: (string, int), t: seq<(string, int)>)
    requires NonIncreasing(t) && t != [] && x.1 <= t[0].1
    ensures InsertByValue(x, t) == [t[0]] + InsertByValue(x, t[1..])
  {
  }

  /** Inserting `x` places it after every entry of equal value. */
  lemma {:induction false} InsertByValueStable(x: (string, int), t: seq<(string, int)>, v: int)
    requires NonIncreasing(t)
    ensures WithValue(InsertByValue(x, t), v) == WithValue(t, v) + (if x.1 == v then [x] else [])
  {
    if t == [] || x.1 > t[0].1 {
      InsertInFront(x, t, v);
    } else {
      InsertByValueStep(x, t);
      InsertByValueStable(x, t[1..], v);
      WithValueKeepsHead(t[0], t[1..], InsertByValue(x, t[1..]), if x.1 == v then [x] else [], v);
      assert [t[0]] + t[1..] == t;
    }
  }

  /** `x` inserted in front holds a larger value than every entry of `t`,
      so none of them shares its value. */
  lemma InsertInFront(x: (string, int), t: seq<(string, int)>, v: int)
    requires NonIncreasing(t) && (t == [] || x.1 > t[0].1)
    ensures WithValue(InsertByValue(x, t), v) == WithValue(t, v) + (if x.1 == v then [x] else [])
  {
    assert InsertByValue(x, t) == [x] + t;
    WithValueCons(x, t, v);
    if x.1 == v {
      forall i | 0 <= i < |t| ensures t[i].1 < v {
        NonIncreasingPairs(t, 0, i);
      }
      NoneWithValue(t, v);
    }
  }

  /** An entry put in front of two lists keeps their relation under
      `WithValue`. */
  lemma WithValueKeepsHead(h: (string, int), t: seq<(string, int)>, u: seq<(string, int)>,
                           tail: seq<(string, int)>, v: int)
    requires WithValue(u, v) == WithValue(t, v) + tail
    ensures WithValue([h] + u, v) == WithValue([h] + t, v) + tail
  {
    WithValueCons(h, u, v);
    WithValueCons(h, t, v);
    ConcatAssoc(if h.1 == v then [h] else [], WithValue(t, v), tail);
  }

  /** One step of `SortByValue`: the last entry is inserted into the sorted
      rest. */
  lemma SortByValueStep(t: seq<(string, int)>)
    requires t != []
    ensures SortByValue(t) == InsertByValue(t[|t| - 1], SortByValue(t[..|t| - 1]))
  {
  }

  /** The sort is stable: for every value, the entries holding it keep
      their order of arrival. */
  lemma {:induction false} SortByValueStable(t: seq<(string, int)>, v: int)
    ensures WithValue(SortByValue(t), v) == WithValue(t, v)
  {
    if t != [] {
      var init, last := t[..|t| - 1], t[|t| - 1];
      assert init + [last] == t;
      SortByValueStep(t);
      SortByValueStable(init, v);
      InsertByValueStable(last, SortByValue(init), v);
      WithValueAppend(init, [last], v);
      WithValueCons(last, [], v);
      assert [last] + [] == [last];
    }
  }

  /** The first element of a sorted non-empty list holds the largest value. */
  lemma SortByValueFirstIsMax(t: seq<(string, int)>, x: (string, int))
    requires x in t
    ensures SortByValue(t)[0].1 >= x.1
  {
    var r := SortByValue(t);
    assert x in multiset(r);
    var i :| 0 <= i < |r| && r[i] == x;
    NonIncreasingPairs(r, 0, i);
  }
}

=== FILE: stats.dfy ===
/** The statistics page (src/components/Stats.tsx): keyword categories, the
    current and the previous period of the chosen range, per-application
    and per-category totals of a period, the change of the total, the day
    streaks and the applications ranked by time. */
module Stats {
  import opened Text
  import opened Sorting
  import opened Tallies

  // ---------------------------------------------------------------------
  // Categories
  // ---------------------------------------------------------------------

  /** Category keys with their keywords, in the order they are tried. */
  type CategoryTable = seq<(string, seq<string>)>

  const Categories: CategoryTable := [
    ("work", ["notion", "linear", "excel", "word", "slack", "zoom", "teams", "document"]),
    ("code", ["code", "vscode", "terminal", "iterm", "github", "sublime", "intellij", "docker", "cursor"]),
    ("social", ["discord", "telegram", "whatsapp", "messenger", "twitter", "x", "instagram"]),
    ("entertainment", ["youtube", "netflix", "spotify", "vlc", "steam", "game"]),
    ("browsing", ["chrome", "safari", "firefox", "arc", "browser", "edge"]),
    ("other", [])]

  /** The first position from `from` on whose keywords occur in `lower`,
      or `|table|`. */
  function CategoryIndex(table: CategoryTable, lower: string, from: nat): (k: nat)
    requires from <= |table|
    ensures from <= k <= |table|
    ensures k < |table| ==> ContainsAny(lower, table[k].1)
    ensures forall j :: from <= j < k ==> !ContainsAny(lower, table[j].1)
    decreases |table| - from
  {
    if from == |table| then from
    else if ContainsAny(lower, table[from].1) then from
    else CategoryIndex(table, lower, from + 1)
  }

  /** `getCategory(appName)`: the first category one of whose keywords
      occurs in the lower-cased name, else "other". */
  function GetCategory(table: CategoryTable, appName: string): (key: string)
    ensures var k := CategoryIndex(table, Lower(appName), 0);
      (k < |table| ==> key == table[k].0) && (k == |table| ==> key == "other")
  {
    var k := CategoryIndex(table, Lower(appName), 0);
    if k < |table| then table[k].0 else "other"
  }

  /** First match wins: the category at `j` is chosen exactly when one of
      its keywords occurs and no earlier category's does. */
  lemma FirstMatchWins(table: CategoryTable, appName: string, j: nat)
    requires j < |table|
    requires ContainsAny(Lower(appName), table[j].1)
    requires forall i :: 0 <= i < j ==> !ContainsAny(Lower(appName), table[i].1)
    ensures GetCategory(table, appName) == table[j].0
  {
    var k := CategoryIndex(table, Lower(appName), 0);
    assert k == j;
  }

  /** Each keyword of work has a letter 'firefox' lacks. */
  lemma FirefoxNotWork()
    ensures !ContainsAny("firefox", Categories[0].1)
  {
    NoneContained("firefox", Categories[0].1, [0, 0, 2, 0, 0, 0, 0, 0]);
  }

  /** Each keyword of code has a letter 'firefox' lacks. */
  lemma FirefoxNotCode()
    ensures !ContainsAny("firefox", Categories[1].1)
  {
    NoneContained("firefox", Categories[1].1, [0, 0, 0, 1, 0, 0, 1, 0, 0]);
  }

  /** The social keyword 'x' ends 'firefox'. */
  lemma FirefoxHasX()
    ensures ContainsAny("firefox", Categories[2].1)
  {
    var n := "firefox";
    assert StartsWith(n[6..], Categories[2].1[5]);
    assert Contains(n, Categories[2].1[5]);
  }

  /** 'firefox' holds the social keyword 'x', and social is tried before
      browsing, so Firefox is counted as social. */
  lemma FirefoxIsSocial()
    ensures GetCategory(Categories, "firefox") == "social"
  {
    var n := "firefox";
    assert Lower(n) == n;
    forall i | 0 <= i < 2
      ensures !ContainsAny(Lower(n), Categories[i].1)
    {
      if i == 0 { FirefoxNotWork(); } else { FirefoxNotCode(); }
    }
    FirefoxHasX();
    FirstMatchWins(Categories, n, 2);
  }

  // ---------------------------------------------------------------------
  // Periods
  // ---------------------------------------------------------------------

  datatype TimeRange = Days7 | Days30 | AllDays

  function DayCount(range: TimeRange, len: nat): nat {
    match range
    case Days7 => 7
    case Days30 => 30
    case AllDays => len
  }

  /** How `slice` reads an index: negative counts from the end, and both
      ends are clamped to the list. */
  function SliceIndex(i: int, len: nat): (r: nat)
    ensures r <= len
    ensures i < 0 ==> r == if len + i < 0 then 0 else len + i
    ensures i >= 0 ==> r == if i > len then len else i
  {
    if i < 0 then (if len + i < 0 then 0 else len + i)
    else if i > len then len else i
  }

  /** `s.slice(start, end)`. */
  function Slice<T>(s: seq<T>, start: int, end: int): seq<T> {
    var a := SliceIndex(start, |s|);
    var b := SliceIndex(end, |s|);
    if a < b then s[a..b] else []
  }

  /** `data.slice(-dayCount)` and `data.slice(-dayCount * 2, -dayCount)`. */
  function Periods<T>(data: seq<T>, range: TimeRange): (r: (seq<T>, seq<T>))
  {
    var n: int := DayCount(range, |data|);
    (Slice(data, -n, |data|), Slice(data, -2 * n, -n))
  }

  /** The current period is the last `dayCount` days (all of them when
      there are fewer), the previous period the up to `dayCount` days just
      before it, and "all" leaves no previous period. */
  lemma PeriodsShape<T>(data: seq<T>, range: TimeRange)
    ensures var n := DayCount(range, |data|);
      var m := if n < |data| then n else |data|;
      var p := if 2 * n < |data| then |data| - 2 * n else 0;
      Periods(data, range).0 == data[|data| - m..] &&
      Periods(data, range).1 == data[p..|data| - m] &&
      Periods(data, range).1 + Periods(data, range).0 == data[p..]
    ensures range == AllDays ==> Periods(data, range) == (data, [])
  {
    var n := DayCount(range, |data|);
    var m := if n < |data| then n else |data|;
    var p := if 2 * n < |data| then |data| - 2 * n else 0;
    assert data[p..|data| - m] + data[|data| - m..] == data[p..];
    if range == AllDays {
      assert data[0..] == data;
    }
  }

  // ---------------------------------------------------------------------
  // Aggregation of a period
  // ---------------------------------------------------------------------

  /** The `[app, seconds]` entries of every day of a period, in order. */
  function Pairs(period: seq<Tally>): Tally {
    if period == [] then [] else Pairs(period[..|period| - 1]) + period[|period| - 1]
  }

  /** `aggregated`, one bump per entry. */
  function Aggregate(pairs: Tally): Tally {
    if pairs == [] then []
    else
      var last := pairs[|pairs| - 1];
      Bump(Aggregate(pairs[..|pairs| - 1]), last.0, last.1)
  }

  /** `categories`, one bump of the entry's category per entry. */
  function CategoryTotals(pairs: Tally, table: CategoryTable): Tally {
    if pairs == [] then []
    else
      var last := pairs[|pairs| - 1];
      Bump(CategoryTotals(pairs[..|pairs| - 1], table), GetCategory(table, last.0), last.1)
  }

  /** `totalSeconds`. */
  function SumSeconds(pairs: Tally): int {
    if pairs == [] then 0 else SumSeconds(pairs[..|pairs| - 1]) + pairs[|pairs| - 1].1
  }

  /** The seconds of the entries named `app`. */
  function SumForKey(pairs: Tally, app: string): int {
    if pairs == [] then 0
    else
      var last := pairs[|pairs| - 1];
      SumForKey(pairs[..|pairs| - 1], app) + (if last.0 == app then last.1 else 0)
  }

  /** One more entry: one more bump of each tally. */
  lemma Snoc(table: CategoryTable, pairs: Tally, x: (string, int))
    ensures Aggregate(pairs + [x]) == Bump(Aggregate(pairs), x.0, x.1)
    ensures CategoryTotals(pairs + [x], table) == Bump(CategoryTotals(pairs, table), GetCategory(table, x.0), x.1)
    ensures SumSeconds(pairs + [x]) == SumSeconds(pairs) + x.1
  {
    assert (pairs + [x])[..|pairs|] == pairs;
  }

  /** The three running totals of `processPeriod` after the pairs `seen`. */
  predicate Running(table: CategoryTable, seen: Tally, agg: Tally, cats: Tally, total: int) {
    agg == Aggregate(seen) && cats == CategoryTotals(seen, table) && total == SumSeconds(seen)
  }

  lemma RunningSnoc(table: CategoryTable, seen: Tally, agg: Tally, cats: Tally, total: int, x: (string, int))
    requires Running(table, seen, agg, cats, total)
    ensures Running(table, seen + [x], Bump(agg, x.0, x.1), Bump(cats, GetCategory(table, x.0), x.1), total + x.1)
  {
    Snoc(table, seen, x);
  }

  /** The body of the inner loop: one `[app, sec]` pair. */
  method AddPair(table: CategoryTable, ghost seen: Tally, agg: Tally, cats: Tally, total: int, x: (string, int))
    returns (agg': Tally, cats': Tally, total': int)
    requires Running(table, seen, agg, cats, total)
    ensures Running(table, seen + [x], agg', cats', total')
  {
    var (app, sec) := x;
    RunningSnoc(table, seen, agg, cats, total, x);
    agg' := Bump(agg, app, sec);
    total' := total + sec;
    cats' := Bump(cats, GetCategory(table, app), sec);
  }

  /** The inner loop over one day's summary. */
  method AddDay(table: CategoryTable, day: Tally, done: Tally, agg0: Tally, cats0: Tally, total0: int)
    returns (agg: Tally, cats: Tally, total: int)
    requires agg0 == Aggregate(done) && cats0 == CategoryTotals(done, table) && total0 == SumSeconds(done)
    ensures agg == Aggregate(done + day)
    ensures cats == CategoryTotals(done + day, table)
    ensures total == SumSeconds(done + day)
  {
    agg, cats, total := agg0, cats0, total0;
    var k := 0;
    assert done + day[..0] == done;
    while k < |day|
      invariant 0 <= k <= |day|
      invariant Running(table, done + day[..k], agg, cats, total)
    {
      ConcatPrefixSnoc(done, day, k);
      agg, cats, total := AddPair(table, done + day[..k], agg, cats, total, day[k]);
      k := k + 1;
    }
    assert day[..k] == day;
  }

  /** `processPeriod(period)`, without the hourly pattern and the per-app
      day sets. */
  method ProcessPeriod(period: seq<Tally>) returns (aggregated: Tally, categories: Tally, totalSeconds: int)
    ensures aggregated == Aggregate(Pairs(period))
    ensures categories == CategoryTotals(Pairs(period), Categories)
    ensures totalSeconds == SumSeconds(Pairs(period))
  {
    aggregated, categories, totalSeconds := [], [], 0;
    var d := 0;
    while d < |period|
      invariant 0 <= d <= |period|
      invariant aggregated == Aggregate(Pairs(period[..d]))
      invariant categories == CategoryTotals(Pairs(period[..d]), Categories)
      invariant totalSeconds == SumSeconds(Pairs(period[..d]))
    {
      assert period[..d + 1][..d] == period[..d];
      aggregated, categories, totalSeconds :=
        AddDay(Categories, period[d], Pairs(period[..d]), aggregated, categories, totalSeconds);
      d := d + 1;
    }
    assert period[..d] == period;
  }

  /** The total is the sum of the per-application totals. */
  lemma {:induction false} AggregateTotal(pairs: Tally)
    ensures Total(Aggregate(pairs)) == SumSeconds(pairs)
  {
    if pairs != [] {
      var init := pairs[..|pairs| - 1];
      var last := pairs[|pairs| - 1];
      AggregateTotal(init);
      TotalBump(Aggregate(init), last.0, last.1);
    }
  }

  /** The total is also the sum of the per-category totals. */
  lemma {:induction false} CategoryTotal(pairs: Tally, table: CategoryTable)
    ensures Total(CategoryTotals(pairs, table)) == SumSeconds(pairs)
  {
    if pairs != [] {
      var init := pairs[..|pairs| - 1];
      var last := pairs[|pairs| - 1];
      CategoryTotal(init, table);
      TotalBump(CategoryTotals(init, table), GetCategory(table, last.0), last.1);
    }
  }

  /** Each application's aggregate is the sum of its entries. */
  lemma {:induction false} AggregateGet(pairs: Tally, app: string)
    ensures Get(Aggregate(pairs), app) == SumForKey(pairs, app)
  {
    if pairs != [] {
      var init := pairs[..|pairs| - 1];
      var last := pairs[|pairs| - 1];
      AggregateGet(init, app);
      BumpGet(Aggregate(init), last.0, last.1);
    }
  }

  lemma {:induction false} SumForKeyAppend(a: Tally, b: Tally, app: string)
    ensures SumForKey(a + b, app) == SumForKey(a, app) + SumForKey(b, app)
    decreases |b|
  {
    if b == [] {
      assert a + b == a;
    } else {
      assert (a + b)[..|a + b| - 1] == a + b[..|b| - 1];
      SumForKeyAppend(a, b[..|b| - 1], app);
    }
  }

  /** In a day's summary every key occurs once, so the sum for a key is
      its value (`obj[k] || 0`). */
  lemma {:induction false} SumForDistinctKey(t: Tally, app: string)
    requires KeysDistinct(t)
    ensures SumForKey(t, app) == Get(t, app)
  {
    if t != [] {
      var init := t[..|t| - 1];
      var last := t[|t| - 1];
      SumForDistinctKey(init, app);
      var i := IndexOfKey(init, app);
      if i < |init| {
        IndexOfKeyAt(t, app, i);
        assert last.0 != app by {
          assert t[i].0 == app;
        }
      } else if last.0 == app {
        IndexOfKeyAt(t, app, |init|);
      } else {
        IndexOfKeyAt(t, app, |t|);
      }
    }
  }

  /** `appSummary[app] || 0`, summed over the days of a period. */
  function PerDaySum(period: seq<Tally>, app: string): int {
    if period == [] then 0
    else PerDaySum(period[..|period| - 1], app) + Get(period[|period| - 1], app)
  }

  /** `aggregated[app]` is the sum over the period of each day's
      `appSummary[app]`. */
  lemma {:induction false} AggregatedPerApp(period: seq<Tally>, app: string)
    requires forall d :: 0 <= d < |period| ==> KeysDistinct(period[d])
    ensures Get(Aggregate(Pairs(period)), app) == PerDaySum(period, app)
  {
    AggregateGet(Pairs(period), app);
    PairsSum(period, app);
  }

  lemma {:induction false} PairsSum(period: seq<Tally>, app: string)
    requires forall d :: 0 <= d < |period| ==> KeysDistinct(period[d])
    ensures SumForKey(Pairs(period), app) == PerDaySum(period, app)
  {
    if period != [] {
      var init := period[..|period| - 1];
      PairsSum(init, app);
      SumForKeyAppend(Pairs(init), period[|period| - 1], app);
      SumForDistinctKey(period[|period| - 1], app);
    }
  }

  /** `totalChange`, as a percentage of the previous total; 0 when the
      previous period recorded nothing. */
  function TotalChange(current: int, previous: int): (r: real)
    ensures previous <= 0 ==> r == 0.0
    ensures previous > 0 ==> (r > 0.0 <==> current > previous) && (r == 0.0 <==> current == previous)
    ensures previous > 0 ==> r * previous as real == (current - previous) as real * 100.0
  {
    if previous > 0 then ((current - previous) as real / previous as real) * 100.0 else 0.0
  }

  // ---------------------------------------------------------------------
  // Streaks
  // ---------------------------------------------------------------------

  /** Consecutive recorded dates at most a day and a half apart. */
  const MaxGap := 129600000

  /** The length of the streak ending at position `i` of the sorted
      times: a gap over a day and a half starts a new streak. */
  function RunEnding(s: seq<int>, i: nat): (r: int)
    requires i < |s|
    ensures 1 <= r <= i + 1
  {
    if i > 0 && s[i] - s[i - 1] <= MaxGap then RunEnding(s, i - 1) + 1 else 1
  }

  /** The facts the streak loop establishes about sorted times `s`. */
  predicate StreaksOf(s: seq<int>, currentStreak: int, maxStreak: int) {
    && (s == [] ==> currentStreak == 0 && maxStreak == 0)
    && (s != [] ==>
        currentStreak == RunEnding(s, |s| - 1) && currentStreak >= 1 && maxStreak >= currentStreak &&
        (forall i :: 0 <= i < |s| ==> RunEnding(s, i) <= maxStreak) &&
        (exists i :: 0 <= i < |s| && RunEnding(s, i) == maxStreak))
  }

  /** The streak loop: `currentStreak` is the streak ending at the latest
      date and `maxStreak` the longest. */
  method StreakLoop(sortedDates: seq<int>) returns (currentStreak: int, maxStreak: int)
    ensures StreaksOf(sortedDates, currentStreak, maxStreak)
  {
    currentStreak, maxStreak := 0, 0;
    var tempStreak := 0;
    ghost var best := 0;
    var i := 0;
    while i < |sortedDates|
      invariant 0 <= i <= |sortedDates|
      invariant i > 0 ==> tempStreak == RunEnding(sortedDates, i - 1)
      invariant forall j :: 0 <= j < i ==> RunEnding(sortedDates, j) <= maxStreak
      invariant i == 0 ==> maxStreak == 0
      invariant i > 0 ==> 0 <= best < i && RunEnding(sortedDates, best) == maxStreak
      invariant i < |sortedDates| || i == 0 ==> currentStreak == 0
      invariant i == |sortedDates| && i > 0 ==> currentStreak == tempStreak
    {
      if i > 0 && sortedDates[i] - sortedDates[i - 1] <= MaxGap {
        tempStreak := tempStreak + 1;
      } else {
        tempStreak := 1;
      }
      if tempStreak > maxStreak {
        maxStreak := tempStreak;
        best := i;
      }
      if i == |sortedDates| - 1 {
        currentStreak := tempStreak;
      }
      i := i + 1;
    }
    if i > 0 {
      assert 0 <= best < |sortedDates| && RunEnding(sortedDates, best) == maxStreak;
    }
  }

  /** The dates are sorted first (as epoch milliseconds, ISO date strings
      sort in time order). */
  method Streaks(times: seq<int>) returns (currentStreak: int, maxStreak: int)
    ensures StreaksOf(SortInts(times), currentStreak, maxStreak)
  {
    var sortedDates := SortInts(times);
    currentStreak, maxStreak := StreakLoop(sortedDates);
  }

  // ---------------------------------------------------------------------
  // Ranking
  // ---------------------------------------------------------------------

  datatype AppRow = AppRow(name: string, seconds: int, category: string)

  /** `sortedApps`: the period's applications, most time first, each with
      its category. */
  function SortedApps(aggregated: Tally, table: CategoryTable): (rows: seq<AppRow>)
    ensures |rows| == |aggregated|
    ensures forall i :: 0 <= i < |rows| - 1 ==> rows[i].seconds >= rows[i + 1].seconds
    ensures forall i :: 0 <= i < |rows| ==>
      (rows[i].name, rows[i].seconds) in aggregated && rows[i].category == GetCategory(table, rows[i].name)
    ensures forall x :: x in aggregated ==> exists i :: 0 <= i < |rows| && (rows[i].name, rows[i].seconds) == x
  {
    var sorted := SortByValue(aggregated);
    var rows := RowsOf(sorted, table);
    forall i | 0 <= i < |rows|
      ensures (rows[i].name, rows[i].seconds) in aggregated
    {
      assert sorted[i] in multiset(sorted);
    }
    forall x | x in aggregated
      ensures exists i :: 0 <= i < |rows| && (rows[i].name, rows[i].seconds) == x
    {
      assert x in multiset(sorted);
      var i :| 0 <= i < |sorted| && sorted[i] == x;
      assert (rows[i].name, rows[i].seconds) == x;
    }
    rows
  }

  /** One row per entry, in the same order, with its category. */
  function RowsOf(sorted: Tally, table: CategoryTable): (rows: seq<AppRow>)
    ensures |rows| == |sorted|
    ensures forall i :: 0 <= i < |rows| ==>
      (rows[i].name, rows[i].seconds) == sorted[i] && rows[i].category == GetCategory(table, rows[i].name)
  {
    seq(|sorted|, i requires 0 <= i < |sorted| => AppRow(sorted[i].0, sorted[i].1, GetCategory(table, sorted[i].0)))
  }
}

=== FILE: tallies.dfy ===
/** A plain JavaScript object used as a per-name counter, such as
    `aggregated[app] = (aggregated[app] || 0) + sec`. It is kept as the
    list of its `[name, value]` entries in insertion order, which is the
    order `Object.entries` hands to a later sort. */
module Tallies {

  type Tally = seq<(string, int)>

  function Keys(t: Tally): (ks: seq<string>)
    ensures |ks| == |t|
    ensures forall i :: 0 <= i < |t| ==> ks[i] == t[i].0
  {
    if t == [] then [] else Keys(t[..|t| - 1]) + [t[|t| - 1].0]
  }

  predicate KeysDistinct(t: Tally) {
    forall i, j :: 0 <= i < j < |t| ==> t[i].0 != t[j].0
  }

  /** Position of the entry for `k`, or `|t|` when there is none. */
  function IndexOfKey(t: Tally, k: string): (i: nat)
    ensures i <= |t|
    ensures i < |t| ==> t[i].0 == k
    ensures forall j :: 0 <= j < i ==> t[j].0 != k
  {
    if t == [] then 0
    else if t[0].0 == k then 0
    else 1 + IndexOfKey(t[1..], k)
  }

  /** `obj[k] || 0`. */
  function Get(t: Tally, k: string): int {
    var i := IndexOfKey(t, k);
    if i < |t| then t[i].1 else 0
  }

  /** `obj[k] = (obj[k] || 0) + v`: an existing entry is updated where it
      stands, a new one is appended. */
  function Bump(t: Tally, k: string, v: int): Tally {
    var i := IndexOfKey(t, k);
    if i < |t| then t[i := (k, t[i].1 + v)] else t + [(k, v)]
  }

  /** A bump adds `v` to the count of `k` and leaves every other count
      alone. */
  lemma BumpGet(t: Tally, k: string, v: int)
    ensures Get(Bump(t, k, v), k) == Get(t, k) + v
    ensures forall k' :: k' != k ==> Get(Bump(t, k, v), k') == Get(t, k')
  {
    var i := IndexOfKey(t, k);
    var r := Bump(t, k, v);
    if i < |t| {
      IndexOfKeyAt(r, k, i);
    } else {
      IndexOfKeyAt(r, k, |t|);
    }
    forall k' | k' != k ensures Get(r, k') == Get(t, k') {
      var j := IndexOfKey(t, k');
      IndexOfKeyAt(r, k', if j < |t| then j else |r|);
    }
  }

  /** A bump keeps the entries where they are and appends `k` when it is
      new. */
  lemma BumpLength(t: Tally, k: string, v: int)
    ensures |Bump(t, k, v)| == if IndexOfKey(t, k) < |t| then |t| else |t| + 1
  {
  }

  /** `IndexOfKey` is pinned down by the first occurrence. */
  lemma IndexOfKeyAt(t: Tally, k: string, i: nat)
    requires i <= |t|
    requires i < |t| ==> t[i].0 == k
    requires forall j :: 0 <= j < i ==> t[j].0 != k
    ensures IndexOfKey(t, k) == i
  {
  }

  /** `Object.values(obj).reduce((s, x) => s + x, 0)`. */
  function Total(t: Tally): int {
    if t == [] then 0 else Total(t[..|t| - 1]) + t[|t| - 1].1
  }

  lemma {:induction false} TotalAppend(a: Tally, b: Tally)
    ensures Total(a + b) == Total(a) + Total(b)
    decreases |b|
  {
    if b != [] {
      assert (a + b)[..|a + b| - 1] == a + b[..|b| - 1];
      TotalAppend(a, b[..|b| - 1]);
    } else {
      assert a + b == a;
    }
  }

  /** Replacing one entry changes the total by the difference of values. */
  lemma {:induction false} TotalUpdate(t: Tally, i: nat, x: (string, int))
    requires i < |t|
    ensures Total(t[i := x]) == Total(t) - t[i].1 + x.1
    decreases |t|
  {
    if i < |t| - 1 {
      assert t[i := x][..|t| - 1] == t[..|t| - 1][i := x];
      TotalUpdate(t[..|t| - 1], i, x);
    } else {
      assert t[i := x][..|t| - 1] == t[..|t| - 1];
    }
  }

  /** Every bump adds its amount to the total. */
  lemma TotalBump(t: Tally, k: string, v: int)
    ensures Total(Bump(t, k, v)) == Total(t) + v
  {
    var i := IndexOfKey(t, k);
    if i < |t| {
      TotalUpdate(t, i, (k, t[i].1 + v));
    } else {
      TotalAppend(t, [(k, v)]);
    }
  }

  /** Reordering the entries does not change the total, so sorting does not
      either. */
  lemma {:induction false} TotalPermutation(a: Tally, b: Tally)
    requires multiset(a) == multiset(b)
    ensures Total(a) == Total(b)
    decreases |a|
  {
    if a != [] {
      var x := a[|a| - 1];
      assert x in multiset(b);
      var i :| 0 <= i < |b| && b[i] == x;
      var b' := b[..i] + b[i + 1..];
      assert b == b[..i] + [x] + b[i + 1..];
      assert a == a[..|a| - 1] + [x];
      assert multiset(a) == multiset(a[..|a| - 1]) + multiset{x};
      assert multiset(b) == multiset(b[..i]) + multiset{x} + multiset(b[i + 1..]);
      assert multiset(b') == multiset(b[..i]) + multiset(b[i + 1..]);
      assert multiset(a[..|a| - 1]) == multiset(a) - multiset{x};
      assert multiset(b') == multiset(b) - multiset{x};
      TotalPermutation(a[..|a| - 1], b');
      TotalAppend(b[..i] + [x], b[i + 1..]);
      TotalAppend(b[..i], [x]);
      TotalAppend(b[..i], b[i + 1..]);
    } else {
      assert |b| == |multiset(b)|;
    }
  }

  /** The first `n` entries (`slice(0, n)`). */
  function Take(t: Tally, n: nat): (r: Tally)
    ensures |r| == if |t| < n then |t| else n
    ensures r == t[..|r|]
  {
    if |t| < n then t else t[..n]
  }

  /** A prefix one longer is the prefix and the next element. */
  lemma PrefixSnoc<T>(s: seq<T>, k: nat)
    requires k < |s|
    ensures s[..k + 1] == s[..k] + [s[k]]
  {
  }

  /** Extending the prefix of the second part extends the concatenation. */
  lemma ConcatPrefixSnoc<T>(a: seq<T>, b: seq<T>, k: nat)
    requires k < |b|
    ensures a + b[..k + 1] == (a + b[..k]) + [b[k]]
  {
    PrefixSnoc(b, k);
  }

  /** Appending one element after a concatenation extends its second part. */
  lemma ConcatSnoc<T>(a: seq<T>, b: seq<T>, x: T)
    ensures (a + b) + [x] == a + (b + [x])
  {
  }

  lemma ConcatAssoc<T>(a: seq<T>, b: seq<T>, c: seq<T>)
    ensures a + (b + c) == (a + b) + c
  {
  }
}

=== FILE: task_integrations.dfy ===
/** The simulated task-tracker integrations (src/lib/task-integrations.ts):
    four adapters whose connection flag is mirrored in browser storage
    under `integration_<id>`, each serving a fixed list of mock tasks while
    connected. */
module TaskIntegrations {
  import opened Optional

  datatype Provider = Jira | Trello | Asana | Github
  datatype Status = Todo | InProgress | Done
  datatype Priority = Low | Medium | High

  function ProviderId(p: Provider): (s: string)
    ensures s != "all"
  {
    match p
    case Jira => "jira"
    case Trello => "trello"
    case Asana => "asana"
    case Github => "github"
  }

  lemma ProviderIdInjective(p: Provider, q: Provider)
    requires ProviderId(p) == ProviderId(q)
    ensures p == q
  {
  }

  datatype Task = Task(
    id: string,
    title: string,
    status: Status,
    provider: Provider,
    url: Option<string>,
    priority: Option<Priority>,
    assignee: Option<string>)

  /** `MOCK_TASKS[id] || []`; every provider has an entry. */
  function MockTasks(p: Provider): seq<Task> {
    match p
    case Jira => [
      Task("JIRA-101", "Implement Auth Flow", InProgress, Jira, Some("#"), Some(High), Some("Enis")),
      Task("JIRA-102", "Update dependency tree", Todo, Jira, Some("#"), Some(Medium), Some("Enis"))]
    case Trello => [
      Task("TR-55", "Design Landing Page", Done, Trello, Some("#"), Some(Medium), None),
      Task("TR-56", "User Interviews", Todo, Trello, Some("#"), Some(Low), None)]
    case Github => [
      Task("GH-890", "Fix overflow in sidebar", InProgress, Github, Some("#"), Some(High), None),
      Task("GH-891", "Refactor value calculation", Todo, Github, Some("#"), Some(Medium), None)]
    case Asana => [
      Task("AS-12", "Q1 Marketing Plan", Todo, Asana, Some("#"), Some(High), None)]
  }

  /** Every mock task names the provider whose list holds it. */
  lemma MockTasksBelong(p: Provider)
    ensures forall t :: t in MockTasks(p) ==> t.provider == p
  {
  }

  /** The storage key holding an adapter's connection flag. */
  function StorageKey(p: Provider): string {
    "integration_" + ProviderId(p)
  }

  /** Adapters never share a storage key. */
  lemma StorageKeysDistinct(p: Provider, q: Provider)
    requires p != q
    ensures StorageKey(p) != StorageKey(q)
  {
    assert StorageKey(p)[12..] == ProviderId(p);
    assert StorageKey(q)[12..] == ProviderId(q);
  }

  /** The browser's `localStorage`, as a map from keys to values. */
  class Storage {
    var items: map<string, string>

    constructor(initial: map<string, string>)
      ensures items == initial
    {
      items := initial;
    }

    method SetItem(key: string, value: string)
      modifies this
      ensures items == old(items)[key := value]
    {
      items := items[key := value];
    }

    method RemoveItem(key: string)
      modifies this
      ensures items == old(items) - {key}
    {
      items := items - {key};
    }
  }

  /** Whether the stored flag reads `'true'`. */
  function FlagSet(items: map<string, string>, p: Provider): bool {
    StorageKey(p) in items && items[StorageKey(p)] == "true"
  }

  /** `SimulationTaskAdapter`. */
  class Adapter {
    const id: Provider
    const name: string
    var icon: string
    var isConnected: bool
    const store: Storage

    /** A new adapter is connected exactly when its stored flag is
        `'true'`. */
    constructor(id: Provider, name: string, store: Storage)
      ensures this.id == id && this.name == name && this.store == store
      ensures icon == ""
      ensures isConnected == FlagSet(store.items, id)
    {
      this.id := id;
      this.name := name;
      this.store := store;
      icon := "";
      isConnected := StorageKey(id) in store.items && store.items[StorageKey(id)] == "true";
    }

    /** `connect(token)`: any non-empty token succeeds, sets the flag and
        stores it; the empty token fails and changes nothing. */
    method Connect(token: string) returns (ok: bool)
      modifies this, store
      ensures ok <==> token != ""
      ensures ok ==> isConnected && store.items == old(store.items)[StorageKey(id) := "true"]
      ensures ok ==> FlagSet(store.items, id)
      ensures !ok ==> isConnected == old(isConnected) && store.items == old(store.items)
      ensures icon == old(icon)
    {
      if token != "" {
        isConnected := true;
        store.SetItem(StorageKey(id), "true");
        return true;
      }
      return false;
    }

    /** `disconnect()`: the flag is cleared and its key removed, whatever
        the state before; disconnecting a disconnected adapter whose key is
        absent changes nothing. */
    method Disconnect()
      modifies this, store
      ensures !isConnected && store.items == old(store.items) - {StorageKey(id)}
      ensures !FlagSet(store.items, id)
      ensures old(!isConnected && StorageKey(id) !in store.items) ==>
                isConnected == old(isConnected) && store.items == old(store.items)
      ensures icon == old(icon)
    {
      isConnected := false;
      store.RemoveItem(StorageKey(id));
    }

    /** `getTasks()`: nothing while disconnected, the provider's mock tasks
        while connected. */
    method GetTasks() returns (tasks: seq<Task>)
      ensures !isConnected ==> tasks == []
      ensures isConnected ==> tasks == MockTasks(id)
      ensures forall t :: t in tasks ==> t.provider == id
    {
      if !isConnected {
        return [];
      }
      MockTasksBelong(id);
      return MockTasks(id);
    }
  }

  /** The order of the exported `integrations` list. */
  const IntegrationOrder: seq<Provider> := [Jira, Trello, Github, Asana]

  /** The four adapters have distinct ids. */
  lemma IntegrationIdsDistinct()
    ensures forall i, j :: 0 <= i < j < |IntegrationOrder| ==> IntegrationOrder[i] != IntegrationOrder[j]
    ensures forall p: Provider :: p in IntegrationOrder
  {
    forall p: Provider ensures p in IntegrationOrder {
      match p
      case Jira => assert IntegrationOrder[0] == p;
      case Trello => assert IntegrationOrder[1] == p;
      case Github => assert IntegrationOrder[2] == p;
      case Asana => assert IntegrationOrder[3] == p;
    }
  }

  /** `integrations`: one adapter per provider, sharing one storage. */
  method MakeIntegrations(store: Storage) returns (adapters: seq<Adapter>)
    ensures |adapters| == |IntegrationOrder|
    ensures forall i :: 0 <= i < |adapters| ==>
      fresh(adapters[i]) && adapters[i].id == IntegrationOrder[i] && adapters[i].store == store
      && adapters[i].isConnected == FlagSet(store.items, IntegrationOrder[i])
  {
    var jira := new Adapter(Jira, "Jira", store);
    var trello := new Adapter(Trello, "Trello", store);
    var github := new Adapter(Github, "GitHub", store);
    var asana := new Adapter(Asana, "Asana", store);
    adapters := [jira, trello, github, asana];
  }
}

=== FILE: task_manager.dfy ===
/** The task board (src/components/TaskManager.tsx): tasks gathered from the
    connected adapters, filtered by provider and grouped by status. */
module TaskManager {
  import opened Optional
  import opened TaskIntegrations
  import opened Tallies

  /** Tasks the board shows after loading: those of each connected adapter,
      in adapter order. */
  function CollectedTasks(adapters: seq<Adapter>): seq<Task>
    reads adapters
  {
    if adapters == [] then []
    else
      var last := adapters[|adapters| - 1];
      CollectedTasks(adapters[..|adapters| - 1]) + (if last.isConnected then MockTasks(last.id) else [])
  }

  /** Ids of the connected adapters, in adapter order. */
  function ActiveIds(adapters: seq<Adapter>): seq<Provider>
    reads adapters
  {
    if adapters == [] then []
    else
      var last := adapters[|adapters| - 1];
      ActiveIds(adapters[..|adapters| - 1]) + (if last.isConnected then [last.id] else [])
  }

  /** `loadTasks`: one pass over the adapters, collecting the tasks and ids
      of the connected ones. */
  method LoadTasks(adapters: seq<Adapter>) returns (tasks: seq<Task>, active: seq<Provider>)
    ensures tasks == CollectedTasks(adapters)
    ensures active == ActiveIds(adapters)
  {
    tasks, active := [], [];
    var i := 0;
    while i < |adapters|
      invariant 0 <= i <= |adapters|
      invariant tasks == CollectedTasks(adapters[..i])
      invariant active == ActiveIds(adapters[..i])
    {
      var adapter := adapters[i];
      assert adapters[..i + 1][..i] == adapters[..i];
      if adapter.isConnected {
        active := active + [adapter.id];
        var providerTasks := adapter.GetTasks();
        tasks := tasks + providerTasks;
      }
      i := i + 1;
    }
    assert adapters[..i] == adapters;
  }

  /** Every loaded task comes from a connected adapter, and no adapter is
      active exactly when none is connected. */
  lemma {:induction false} LoadedFromConnected(adapters: seq<Adapter>)
    ensures forall t :: t in CollectedTasks(adapters) ==> t.provider in ActiveIds(adapters)
    ensures ActiveIds(adapters) == [] <==> forall i :: 0 <= i < |adapters| ==> !adapters[i].isConnected
  {
    if adapters != [] {
      var init := adapters[..|adapters| - 1];
      var last := adapters[|adapters| - 1];
      LoadedFromConnected(init);
      MockTasksBelong(last.id);
      assert forall i :: 0 <= i < |init| ==> init[i] == adapters[i];
    }
  }

  /** Whether a task passes the provider filter (`'all'` passes
      everything). */
  predicate PassesFilter(t: Task, filterProvider: string) {
    filterProvider == "all" || ProviderId(t.provider) == filterProvider
  }

  /** `filteredTasks`. */
  function FilterTasks(tasks: seq<Task>, filterProvider: string): (r: seq<Task>)
    ensures |r| <= |tasks|
    ensures forall t :: t in r <==> t in tasks && PassesFilter(t, filterProvider)
    ensures |tasks| == 1 ==> r == if PassesFilter(tasks[0], filterProvider) then tasks else []
  {
    if tasks == [] then []
    else
      var rest := FilterTasks(tasks[1..], filterProvider);
      assert forall t :: t in tasks <==> t == tasks[0] || t in tasks[1..] by {
        assert tasks == [tasks[0]] + tasks[1..];
      }
      if PassesFilter(tasks[0], filterProvider) then [tasks[0]] + rest else rest
  }

  /** `FilterTasks` keeps the order and the repetitions of its input: it
      distributes over concatenation. */
  lemma {:induction false} FilterTasksAppend(a: seq<Task>, b: seq<Task>, filterProvider: string)
    ensures FilterTasks(a + b, filterProvider) == FilterTasks(a, filterProvider) + FilterTasks(b, filterProvider)
  {
    if a == [] {
      assert a + b == b;
    } else {
      var t, rest := a[0], a[1..];
      assert [t] + rest == a;
      assert [t] + (rest + b) == a + b;
      FilterTasksAppend(rest, b, filterProvider);
      FilterTasksCons(t, rest, filterProvider);
      FilterTasksCons(t, rest + b, filterProvider);
      var h := if PassesFilter(t, filterProvider) then [t] else [];
      var x, y := FilterTasks(rest, filterProvider), FilterTasks(b, filterProvider);
      ConcatAssoc(h, x, y);
    }
  }

  lemma FilterTasksCons(t: Task, rest: seq<Task>, filterProvider: string)
    ensures FilterTasks([t] + rest, filterProvider) ==
      (if PassesFilter(t, filterProvider) then [t] else []) + FilterTasks(rest, filterProvider)
  {
    assert ([t] + rest)[1..] == rest;
  }

  /** The `'all'` filter keeps every task in order. */
  lemma {:induction false} FilterAllKeepsEverything(tasks: seq<Task>)
    ensures FilterTasks(tasks, "all") == tasks
  {
    if tasks != [] {
      FilterAllKeepsEverything(tasks[1..]);
      assert tasks == [tasks[0]] + tasks[1..];
    }
  }

  /** One column of `groupedTasks`. */
  function WithStatus(tasks: seq<Task>, s: Status): (r: seq<Task>)
    ensures forall t :: t in r <==> t in tasks && t.status == s
    ensures |tasks| == 1 ==> r == if tasks[0].status == s then tasks else []
  {
    if tasks == [] then []
    else
      var rest := WithStatus(tasks[1..], s);
      assert forall t :: t in tasks <==> t == tasks[0] || t in tasks[1..] by {
        assert tasks == [tasks[0]] + tasks[1..];
      }
      if tasks[0].status == s then [tasks[0]] + rest else rest
  }

  /** `WithStatus` keeps the order and the repetitions of its input: it
      distributes over concatenation. */
  lemma {:induction false} WithStatusAppend(a: seq<Task>, b: seq<Task>, s: Status)
    ensures WithStatus(a + b, s) == WithStatus(a, s) + WithStatus(b, s)
  {
    if a == [] {
      assert a + b == b;
    } else {
      var t, rest := a[0], a[1..];
      assert [t] + rest == a;
      assert [t] + (rest + b) == a + b;
      WithStatusAppend(rest, b, s);
      WithStatusCons(t, rest, s);
      WithStatusCons(t, rest + b, s);
      var h := if t.status == s then [t] else [];
      var x, y := WithStatus(rest, s), WithStatus(b, s);
      ConcatAssoc(h, x, y);
    }
  }

  lemma WithStatusCons(t: Task, rest: seq<Task>, s: Status)
    ensures WithStatus([t] + rest, s) == (if t.status == s then [t] else []) + WithStatus(rest, s)
  {
    assert ([t] + rest)[1..] == rest;
  }

  /** The three columns together hold every filtered task exactly once. */
  lemma {:induction false} ColumnsPartition(tasks: seq<Task>)
    ensures |WithStatus(tasks, Todo)| + |WithStatus(tasks, InProgress)| + |WithStatus(tasks, Done)| == |tasks|
  {
    if tasks != [] {
      ColumnsPartition(tasks[1..]);
    }
  }

  const KnownProviders: seq<string> := ["jira", "trello", "github", "asana", "todoist"]
  const DefaultProviderIcon := "🔌"

  /** `getProviderIcon`. */
  function ProviderIcon(provider: string): (icon: string)
    ensures icon == DefaultProviderIcon <==> provider !in KnownProviders
  {
    match provider
    case "jira" => "🔷"
    case "trello" => "📋"
    case "github" => "🐙"
    case "asana" => "⚪"
    case "todoist" => "✅"
    case _ => DefaultProviderIcon
  }

  const DefaultPriorityColor := "bg-muted text-muted-foreground border-transparent"

  /** `getPriorityColor`; a missing priority gets the default colour. */
  function PriorityColor(priority: Option<string>): (color: string)
    ensures color == DefaultPriorityColor <==>
      priority.None? || priority.value !in ["high", "medium", "low"]
  {
    match priority
    case Some("high") => "bg-red-500/10 text-red-600 border-red-500/20"
    case Some("medium") => "bg-orange-500/10 text-orange-600 border-orange-500/20"
    case Some("low") => "bg-green-500/10 text-green-600 border-green-500/20"
    case _ => DefaultPriorityColor
  }

  /** The "no integrations" screen. */
  predicate ShowsEmptyState(activeProviders: seq<Provider>, isLoading: bool) {
    |activeProviders| == 0 && !isLoading
  }

  /** Once loading has finished, the empty screen shows exactly when no
      adapter is connected. */
  lemma EmptyStateAfterLoad(adapters: seq<Adapter>)
    ensures ShowsEmptyState(ActiveIds(adapters), false) <==>
      forall i :: 0 <= i < |adapters| ==> !adapters[i].isConnected
  {
    LoadedFromConnected(adapters);
  }
}

=== FILE: text.dfy ===
/** String helpers shared by the whole model: the JavaScript string
    operations the application relies on (toLowerCase, includes, trim,
    number-to-string and padStart), stated on `seq<char>`. */
module Text {

  /** Lower-cases one character; only the ASCII letters A-Z are mapped. */
  function LowerChar(c: char): (r: char)
    ensures 'A' <= c <= 'Z' ==> r as int == c as int + 32
    ensures !('A' <= c <= 'Z') ==> r == c
    ensures !('A' <= r <= 'Z')
  {
    if 'A' <= c <= 'Z' then (c as int + 32) as char else c
  }

  /** `s.toLowerCase()`, restricted to ASCII case mapping. */
  function Lower(s: string): (r: string)
    ensures |r| == |s|
    ensures forall i :: 0 <= i < |s| ==> r[i] == LowerChar(s[i])
  {
    if s == [] then [] else [LowerChar(s[0])] + Lower(s[1..])
  }

  lemma {:induction false} LowerIdempotent(s: string)
    ensures Lower(Lower(s)) == Lower(s)
  {
    if s != [] {
      LowerIdempotent(s[1..]);
      assert Lower(s)[1..] == Lower(s[1..]);
    }
  }

  /** Lower-casing works character by character, so it distributes over
      concatenation. */
  lemma LowerAppend(a: string, b: string)
    ensures Lower(a + b) == Lower(a) + Lower(b)
  {
    assert forall i :: 0 <= i < |a + b| ==> Lower(a + b)[i] == (Lower(a) + Lower(b))[i];
  }

  predicate StartsWith(s: string, prefix: string) {
    |prefix| <= |s| && s[..|prefix|] == prefix
  }

  /** `s.includes(sub)`: some window of `s` equals `sub`. */
  predicate Contains(s: string, sub: string) {
    exists i :: 0 <= i <= |s| - |sub| && StartsWith(s[i..], sub)
  }

  lemma ContainsEmpty(s: string)
    ensures Contains(s, "")
  {
    assert StartsWith(s[0..], "");
  }

  lemma ContainsSelf(s: string)
    ensures Contains(s, s)
  {
    assert StartsWith(s[0..], s);
  }

  /** A sub-string is never longer than the string containing it. */
  lemma ContainsLength(s: string, sub: string)
    requires Contains(s, sub)
    ensures |sub| <= |s|
  {
  }

  /** Every character of a contained string occurs in the containing
      one, so a keyword with a character foreign to a name is not in it. */
  lemma ContainsChars(s: string, sub: string, j: int)
    requires 0 <= j < |sub| && sub[j] !in s
    ensures !Contains(s, sub)
  {
  }

  /** `keywords.some(k => s.includes(k))`. */
  predicate ContainsAny(s: string, keywords: seq<string>) {
    exists i :: 0 <= i < |keywords| && Contains(s, keywords[i])
  }

  /** No keyword occurs when each has a character, at the position given
      in `foreign`, that `s` lacks. */
  lemma NoneContained(s: string, keywords: seq<string>, foreign: seq<int>)
    requires |foreign| == |keywords|
    requires forall i :: 0 <= i < |keywords| ==>
      0 <= foreign[i] < |keywords[i]| && keywords[i][foreign[i]] !in s
    ensures !ContainsAny(s, keywords)
  {
    forall i | 0 <= i < |keywords| ensures !Contains(s, keywords[i]) {
      ContainsChars(s, keywords[i], foreign[i]);
    }
  }

  /** The characters JavaScript's `trim` removes (the Unicode White_Space
      characters of the Basic Multilingual Plane, the line terminators and
      the byte-order mark). */
  predicate IsSpace(c: char) {
    c == ' ' || c == '\t' || c == '\n' || c == '\r' || c == '\U{0B}' || c == '\U{0C}'
    || c == '\U{A0}' || c == '\U{1680}' || ('\U{2000}' <= c <= '\U{200A}')
    || c == '\U{2028}' || c == '\U{2029}' || c == '\U{202F}' || c == '\U{205F}'
    || c == '\U{3000}' || c == '\U{FEFF}'
  }

  predicate AllSpace(s: string) {
    forall i :: 0 <= i < |s| ==> IsSpace(s[i])
  }

  function TrimStart(s: string): (r: string)
    ensures |r| <= |s| && r == s[|s| - |r|..]
    ensures r == [] || !IsSpace(r[0])
    ensures AllSpace(s[..|s| - |r|])
  {
    if s != [] && IsSpace(s[0]) then TrimStart(s[1..]) else s
  }

  function TrimEnd(s: string): (r: string)
    ensures |r| <= |s| && r == s[..|r|]
    ensures r == [] || !IsSpace(r[|r| - 1])
    ensures AllSpace(s[|r|..])
  {
    if s != [] && IsSpace(s[|s| - 1]) then TrimEnd(s[..|s| - 1]) else s
  }

  /** `s.trim()`: the longest slice of `s` that neither starts nor ends with
      white space. */
  function Trim(s: string): (r: string)
    ensures |r| <= |s|
    ensures Contains(s, r)
    ensures r == [] || (!IsSpace(r[0]) && !IsSpace(r[|r| - 1]))
  {
    var t := TrimStart(s);
    var r := TrimEnd(t);
    assert StartsWith(s[|s| - |t|..], r);
    r
  }

  /** The trimmed string is what is left between the leading and the
      trailing white space: the leading run goes first, then the trailing
      run of what remains. With the ends `Trim` promises, it is the longest
      slice neither starting nor ending with white space. */
  lemma {:induction false} TrimSlice(s: string)
    ensures var t := TrimStart(s); var r := Trim(s);
      |r| <= |t| <= |s| && t == s[|s| - |t|..] && r == t[..|r|] &&
      AllSpace(s[..|s| - |t|]) && AllSpace(t[|r|..])
  {
    assert Trim(s) == TrimEnd(TrimStart(s));
  }

  /** The trimmed string is empty exactly when the input is all white space
      (this is the test `!name.trim()`). */
  lemma TrimEmptyIff(s: string)
    ensures Trim(s) == [] <==> AllSpace(s)
  {
    var t := TrimStart(s);
    if Trim(s) == [] {
      assert AllSpace(t[|TrimEnd(t)|..]);
      assert s[..|s| - |t|] == s;
    } else {
      var r := Trim(s);
      var k :| 0 <= k <= |s| - |r| && StartsWith(s[k..], r);
      assert s[k] == r[0];
    }
  }

  /** A string with no surrounding white space is its own trim. */
  lemma TrimIdentity(s: string)
    requires s == [] || (!IsSpace(s[0]) && !IsSpace(s[|s| - 1]))
    ensures Trim(s) == s
  {
  }

  /** Every character is a decimal digit. */
  predicate IsDigits(s: string) {
    forall i :: 0 <= i < |s| ==> '0' <= s[i] <= '9'
  }

  /** The value of a decimal digit character. */
  function DigitValue(c: char): int {
    c as int - '0' as int
  }

  function DigitChar(d: nat): (c: char)
    requires d < 10
    ensures '0' <= c <= '9' && DigitValue(c) == d
  {
    (d + '0' as int) as char
  }

  /** The decimal rendering of a natural number (`n.toString()`). */
  function NatToString(n: nat): (r: string)
    ensures |r| >= 1
    ensures IsDigits(r)
    ensures |r| > 1 ==> r[0] != '0'
    decreases n
  {
    if n < 10 then [DigitChar(n)] else NatToString(n / 10) + [DigitChar(n % 10)]
  }

  /** The decimal rendering of an integer, with a leading minus sign when
      negative. */
  function IntToString(n: int): (r: string)
    ensures |r| >= 1
    ensures n >= 0 ==> r == NatToString(n)
    ensures n < 0 ==> r == "-" + NatToString(-n)
  {
    if n >= 0 then NatToString(n) else "-" + NatToString(-n)
  }

  /** Reads back a string of decimal digits. */
  function ParseDigits(s: string): nat
    requires IsDigits(s)
  {
    if s == [] then 0
    else 10 * ParseDigits(s[..|s| - 1]) + DigitValue(s[|s| - 1])
  }

  /** Rendering a number in decimal loses nothing: it reads back as itself. */
  lemma {:induction false} NatToStringRoundTrip(n: nat)
    ensures ParseDigits(NatToString(n)) == n
    decreases n
  {
    if n >= 10 {
      NatToStringRoundTrip(n / 10);
      var r := NatToString(n);
      assert r[..|r| - 1] == NatToString(n / 10);
    }
  }

  /** Distinct numbers render differently. */
  lemma NatToStringInjective(m: nat, n: nat)
    requires NatToString(m) == NatToString(n)
    ensures m == n
  {
    NatToStringRoundTrip(m);
    NatToStringRoundTrip(n);
  }

  /** `s.padStart(2, '0')`. */
  function PadTwo(s: string): (r: string)
    ensures |s| >= 2 ==> r == s
    ensures |s| < 2 ==> |r| == 2 && r[2 - |s|..] == s
    ensures forall i :: 0 <= i < |r| - |s| ==> r[i] == '0'
  {
    if |s| == 0 then "00" else if |s| == 1 then "0" + s else s
  }
}

=== FILE: theme.dfy ===
/** The theme hook (src/hooks/use-theme.ts): the light/dark mode and the
    colour preset, their initial values from browser storage, the toggle,
    the preset fallback and the CSS custom-property names. */
module Theme {
  import opened Optional
  import opened Text

  /** `saved || fallback`, where a missing item and the empty string are
      both falsy. */
  function OrElse(saved: Option<string>, fallback: string): (r: string)
    ensures saved.Some? && saved.value != "" ==> r == saved.value
    ensures saved.None? || saved.value == "" ==> r == fallback
  {
    if saved.Some? && saved.value != "" then saved.value else fallback
  }

  /** The initial mode: the stored `theme-mode` when there is one, else
      dark exactly when the system prefers a dark scheme. The stored text
      is used as it is. */
  function InitialMode(saved: Option<string>, prefersDark: bool): string {
    OrElse(saved, if prefersDark then "dark" else "light")
  }

  /** The initial preset id: the stored `theme-preset`, else `'default'`. */
  function InitialPreset(saved: Option<string>): string {
    OrElse(saved, "default")
  }

  /** `toggleMode`: light becomes dark; anything else becomes light. */
  function ToggleMode(mode: string): (r: string)
    ensures r == "light" || r == "dark"
    ensures r != mode || (mode != "light" && mode != "dark")
  {
    if mode == "light" then "dark" else "light"
  }

  /** Toggling twice is the identity on the two real modes. */
  lemma ToggleTwice(mode: string)
    requires mode == "light" || mode == "dark"
    ensures ToggleMode(ToggleMode(mode)) == mode
  {
  }

  /** The ids of `THEMES`, in order. */
  const PresetIds: seq<string> := ["default", "midnight", "forest", "sunset", "cyberpunk"]

  /** Index of `THEMES.find(p => p.id === presetId) || THEMES[0]`. */
  function PresetIndex(presetId: string): (i: nat)
    ensures i < |PresetIds|
    ensures presetId in PresetIds ==> PresetIds[i] == presetId
    ensures presetId !in PresetIds ==> i == 0
  {
    if presetId == "default" then 0
    else if presetId == "midnight" then 1
    else if presetId == "forest" then 2
    else if presetId == "sunset" then 3
    else if presetId == "cyberpunk" then 4
    else 0
  }

  /** `key.replace(/([A-Z])/g, "-$1")`. */
  function InsertHyphens(key: string): (r: string)
    ensures |r| >= |key|
  {
    if key == [] then []
    else if 'A' <= key[0] <= 'Z' then ['-', key[0]] + InsertHyphens(key[1..])
    else [key[0]] + InsertHyphens(key[1..])
  }

  /** The CSS custom property a colour key is written to. */
  function CssVar(key: string): string {
    Lower("--" + InsertHyphens(key))
  }

  function UpperChar(c: char): char {
    if 'a' <= c <= 'z' then (c as int - 32) as char else c
  }

  /** Reads a kebab-case name back into camel case: a hyphen capitalises
      the letter after it. */
  function FromKebab(s: string): string {
    if s == [] then []
    else if s[0] == '-' && |s| >= 2 then [UpperChar(s[1])] + FromKebab(s[2..])
    else [s[0]] + FromKebab(s[1..])
  }

  /** The naming loses nothing for keys without a hyphen of their own: the
      variable name, without its leading `--`, reads back as the key. */
  lemma {:induction false} CssVarRoundTrip(key: string)
    requires '-' !in key
    ensures CssVar(key)[..2] == "--"
    ensures FromKebab(CssVar(key)[2..]) == key
  {
    LowerAppend("--", InsertHyphens(key));
    assert CssVar(key) == "--" + Lower(InsertHyphens(key));
    KebabRoundTrip(key);
  }

  lemma {:induction false} KebabRoundTrip(key: string)
    requires '-' !in key
    ensures FromKebab(Lower(InsertHyphens(key))) == key
  {
    if key != [] {
      var c := key[0];
      assert '-' !in key[1..] by { assert forall x :: x in key[1..] ==> x in key; }
      KebabRoundTrip(key[1..]);
      var rest := Lower(InsertHyphens(key[1..]));
      if 'A' <= c <= 'Z' {
        LowerAppend(['-', c], InsertHyphens(key[1..]));
        assert Lower(InsertHyphens(key)) == ['-', LowerChar(c)] + rest;
        assert (['-', LowerChar(c)] + rest)[2..] == rest;
      } else {
        LowerAppend([c], InsertHyphens(key[1..]));
        assert Lower(InsertHyphens(key)) == [c] + rest;
        assert ([c] + rest)[1..] == rest;
      }
      assert key == [c] + key[1..];
    }
  }

  /** The name has no upper-case letter. */
  lemma CssVarLowerCase(key: string)
    ensures forall i :: 0 <= i < |CssVar(key)| ==> !('A' <= CssVar(key)[i] <= 'Z')
  {
  }

  /** What the effect leaves in storage: the current mode and preset. */
  function Persist(items: map<string, string>, mode: string, presetId: string): map<string, string> {
    items["theme-mode" := mode]["theme-preset" := presetId]
  }

  function Stored(items: map<string, string>, key: string): Option<string> {
    if key in items then Some(items[key]) else None
  }

  /** After the effect has run, a fresh start comes back with the same
      mode and preset, whatever the system preference. */
  lemma ReloadRestores(items: map<string, string>, mode: string, presetId: string, prefersDark: bool)
    requires mode != "" && presetId != ""
    ensures InitialMode(Stored(Persist(items, mode, presetId), "theme-mode"), prefersDark) == mode
    ensures InitialPreset(Stored(Persist(items, mode, presetId), "theme-preset")) == presetId
  {
  }
}

=== FILE: tracker.dfy ===
/** The session tracker of the Electron main process: the single open
    session, the once-a-second sampling tick that feeds it, and the IPC
    handlers that read, delete from and clear the daily ledger. The clock,
    the date, the foreground-window sample and the idle time are passed in
    as parameters; the JSON file is an abstract snapshot (`persisted`). */
module Tracker {
  import opened Optional
  import opened Text
  import opened Ledger

  /** The session still in progress (`currentActivity`). */
  datatype OpenSession = OpenSession(appName: string, title: string, startTime: int)

  /** What the foreground-window query returned: the owner's name (the empty
      string when the owner or its name is missing) and the window title
      (empty when missing). */
  datatype Sample = Sample(ownerName: string, title: string)

  /** The two variables `updateActivity` reads and writes. */
  datatype TrackerState = TrackerState(ledger: seq<DayRecord>, current: Option<OpenSession>)

  /** Seconds of input inactivity from which a tick is ignored. */
  const IdleLimit := 60

  /** `loadData`: the stored document, or the empty ledger when the file is
      missing, unreadable or not valid JSON (`stored == None`). */
  function LoadData(stored: Option<seq<DayRecord>>): (l: seq<DayRecord>)
    ensures stored.None? ==> l == []
    ensures stored.Some? ==> l == stored.value
  {
    stored.GetOr([])
  }

  /** The id `${todayStr}-${Date.now()}` of a new entry. */
  function EntryId(today: string, stamp: int): string {
    today + "-" + IntToString(stamp)
  }

  /** The entry that closing `s` at `now` produces. */
  function ClosedEntry(s: OpenSession, now: int, today: string, stamp: int): Entry {
    Entry(EntryId(today, stamp), s.appName, s.title, s.startTime, now, RoundToSeconds(now - s.startTime))
  }

  /** Whether observing `appName` ends the open session. */
  predicate Switches(current: Option<OpenSession>, appName: string) {
    current.Some? && current.value.appName != appName
  }

  /** Whether observing `appName` at `now` records an entry (and saves). */
  predicate Records(current: Option<OpenSession>, appName: string, now: int) {
    Switches(current, appName) && RoundToSeconds(now - current.value.startTime) > 0
  }

  /** `updateActivity(appName, title)` at time `now` on date `today`; `stamp`
      is the second `Date.now()` reading used in the entry id. */
  function Observe(st: TrackerState, appName: string, title: string, now: int, today: string, stamp: int)
    : TrackerState
  {
    var ledger :=
      if Records(st.current, appName, now)
      then Append(st.ledger, today, ClosedEntry(st.current.value, now, today, stamp))
      else st.ledger;
    var current :=
      if st.current.None? || Switches(st.current, appName)
      then Some(OpenSession(appName, title, now))
      else st.current;
    TrackerState(ledger, current)
  }

  /** The app name a tick reports: the owner's name, `'Unknown'` when it is
      missing or empty, then trimmed. */
  function ObservedName(ownerName: string): (name: string)
    ensures ownerName == "" ==> name == "Unknown"
    ensures name == [] || (!IsSpace(name[0]) && !IsSpace(name[|name| - 1]))
    ensures ownerName != "" ==> name == Trim(ownerName)
  {
    TrimUnknown();
    Trim(if ownerName == "" then "Unknown" else ownerName)
  }

  lemma TrimUnknown()
    ensures Trim("Unknown") == "Unknown"
  {
    var u := "Unknown";
    assert !IsSpace(u[0]) && !IsSpace(u[|u| - 1]);
    TrimIdentity(u);
  }

  /** Whether a tick passes its guard: the window is alive, tracking is on, a
      sample was obtained and the user was active in the last minute. */
  predicate TickActive(windowOpen: bool, tracking: bool, sample: Option<Sample>, idleSeconds: int) {
    windowOpen && tracking && sample.Some? && idleSeconds < IdleLimit
  }

  /** One run of the 1-second interval callback. */
  function TickStep(
    st: TrackerState, windowOpen: bool, tracking: bool, sample: Option<Sample>, idleSeconds: int,
    now: int, today: string, stamp: int): TrackerState
  {
    if TickActive(windowOpen, tracking, sample, idleSeconds)
    then Observe(st, ObservedName(sample.value.ownerName), sample.value.title, now, today, stamp)
    else st
  }

  // ---------------------------------------------------------------------
  // Properties of the session state machine

  /** Observing the app of the open session changes nothing: no entry, no
      total, and the session keeps its title and start time. */
  lemma ObserveSameApp(st: TrackerState, appName: string, title: string, now: int, today: string, stamp: int)
    requires st.current.Some? && st.current.value.appName == appName
    ensures Observe(st, appName, title, now, today, stamp) == st
  {
  }

  /** The first observation opens a session and records nothing. */
  lemma ObserveFirst(st: TrackerState, appName: string, title: string, now: int, today: string, stamp: int)
    requires st.current.None?
    ensures Observe(st, appName, title, now, today, stamp)
            == TrackerState(st.ledger, Some(OpenSession(appName, title, now)))
  {
  }

  /** A switch after at least half a second appends exactly one entry, to
      the record of the closing date: it carries the closed session's app,
      title and start, ends at `now` and lasts the rounded seconds; that
      app's total grows by that much, other apps' totals and other days are
      untouched, and a session of the new app opens at `now`. */
  lemma ObserveSwitch(st: TrackerState, appName: string, title: string, now: int, today: string, stamp: int)
    requires LedgerValid(st.ledger)
    requires Records(st.current, appName, now)
    ensures var st' := Observe(st, appName, title, now, today, stamp);
      var s := st.current.value;
      var k := IndexOfDate(st.ledger, today);
      var e := Entry(EntryId(today, stamp), s.appName, s.title, s.startTime, now, RoundToSeconds(now - s.startTime));
      && st'.current == Some(OpenSession(appName, title, now))
      && k < |st'.ledger|
      && st'.ledger[k].date == today
      && st'.ledger[k].entries == (if k < |st.ledger| then st.ledger[k].entries else []) + [e]
      && st'.ledger[k].appSummary[s.appName]
         == (if k < |st.ledger| && s.appName in st.ledger[k].appSummary
             then st.ledger[k].appSummary[s.appName] else 0) + e.duration
      && (forall a :: a != s.appName ==>
            (a in st'.ledger[k].appSummary <==> k < |st.ledger| && a in st.ledger[k].appSummary)
            && (a in st'.ledger[k].appSummary ==> st'.ledger[k].appSummary[a] == st.ledger[k].appSummary[a]))
      && (forall j :: 0 <= j < |st.ledger| && st.ledger[j].date != today ==> st'.ledger[j] == st.ledger[j])
  {
    AppendEffect(st.ledger, today, ClosedEntry(st.current.value, now, today, stamp));
  }

  /** A switch whose rounded duration is not positive appends nothing and
      creates neither a record nor a key, but the new session still opens. */
  lemma ObserveZeroDuration(st: TrackerState, appName: string, title: string, now: int, today: string, stamp: int)
    requires Switches(st.current, appName)
    requires RoundToSeconds(now - st.current.value.startTime) <= 0
    ensures Observe(st, appName, title, now, today, stamp)
            == TrackerState(st.ledger, Some(OpenSession(appName, title, now)))
  {
  }

  /** Every observation keeps the ledger invariant: unique dates, positive
      durations, each total equal to the sum of its app's entries. */
  lemma ObserveValid(st: TrackerState, appName: string, title: string, now: int, today: string, stamp: int)
    requires LedgerValid(st.ledger)
    ensures LedgerValid(Observe(st, appName, title, now, today, stamp).ledger)
  {
    if Records(st.current, appName, now) {
      AppendValid(st.ledger, today, ClosedEntry(st.current.value, now, today, stamp));
    }
  }

  /** A tick that fails its guard (idle for a minute or more, tracking off,
      no sample, no window) neither closes nor extends the open session. */
  lemma TickInactiveFreezes(
    st: TrackerState, windowOpen: bool, tracking: bool, sample: Option<Sample>, idleSeconds: int,
    now: int, today: string, stamp: int)
    requires !windowOpen || !tracking || sample.None? || idleSeconds >= IdleLimit
    ensures TickStep(st, windowOpen, tracking, sample, idleSeconds, now, today, stamp) == st
  {
  }

  /** An active tick observes the trimmed owner name, or `'Unknown'`. */
  lemma TickActiveObserves(
    st: TrackerState, sample: Sample, idleSeconds: int, now: int, today: string, stamp: int)
    requires idleSeconds < IdleLimit
    ensures TickStep(st, true, true, Some(sample), idleSeconds, now, today, stamp)
            == Observe(st, if sample.ownerName == "" then "Unknown" else Trim(sample.ownerName),
                       sample.title, now, today, stamp)
  {
  }

  /** Observations of the open session's app at any number of later
      instants. */
  function ObserveSame(st: TrackerState, appName: string, title: string, times: seq<int>, today: string): TrackerState
    decreases |times|
  {
    if times == [] then st
    else ObserveSame(Observe(st, appName, title, times[0], today, times[0]), appName, title, times[1..], today)
  }

  /** Continuing one app over many samples keeps a single session open with
      its original start, so that the eventual close covers the whole span. */
  lemma {:induction false} ObserveSameKeepsSession(st: TrackerState, appName: string, title: string, times: seq<int>, today: string)
    requires st.current.Some? && st.current.value.appName == appName
    ensures ObserveSame(st, appName, title, times, today) == st
    decreases |times|
  {
    if times != [] {
      ObserveSameApp(st, appName, title, times[0], today, times[0]);
      ObserveSameKeepsSession(st, appName, title, times[1..], today);
    }
  }

  /** An idle tick between two samples of the same app does not move the
      session's start: the second sample resumes it as if there was no gap. */
  lemma IdleGapResumes(st: TrackerState, s: Sample, idle: int, now1: int, now2: int, today: string, stamp: int)
    requires st.current.Some? && st.current.value.appName == ObservedName(s.ownerName)
    requires idle >= IdleLimit
    ensures var st1 := TickStep(st, true, true, Some(s), idle, now1, today, stamp);
            TickStep(st1, true, true, Some(s), 0, now2, today, stamp) == st
  {
  }

  /** Samples Chrome at 0 s and 5 s, then VSCode at 10 s, on an empty ledger:
      one Chrome entry of 10 seconds and a Chrome total of 10. */
  lemma ChromeThenVSCode(today: string)
    ensures var st0 := TrackerState([], None);
      var st1 := Observe(st0, "Chrome", "", 0, today, 0);
      var st2 := Observe(st1, "Chrome", "", 5000, today, 5000);
      var st3 := Observe(st2, "VSCode", "", 10000, today, 10000);
      && |st3.ledger| == 1
      && st3.ledger[0].entries == [Entry(EntryId(today, 10000), "Chrome", "", 0, 10000, 10)]
      && st3.ledger[0].appSummary == map["Chrome" := 10]
      && st3.current == Some(OpenSession("VSCode", "", 10000))
  {
    var st0 := TrackerState([], None);
    var st1 := Observe(st0, "Chrome", "", 0, today, 0);
    var st2 := Observe(st1, "Chrome", "", 5000, today, 5000);
    assert st2 == st1;
    assert RoundToSeconds(10000 - 0) == 10;
    assert IndexOfDate([], today) == 0;
  }

  // ---------------------------------------------------------------------
  // The main-process state

  /** The module-level variables of the main process (`allData`,
      `currentActivity`, `isTracking`) and, as a ghost, the ledger the data
      file holds (what the next `loadData` would return). */
  class ActivityTracker {
    var ledger: seq<DayRecord>
    var current: Option<OpenSession>
    var isTracking: bool
    ghost var persisted: seq<DayRecord>

    ghost predicate Valid()
      reads this
    {
      LedgerValid(ledger) && LedgerValid(persisted)
    }

    /** Start-up: `allData = loadData()`, no open session, tracking on. The
        file is one this program wrote, so it satisfies the invariant. */
    constructor (stored: Option<seq<DayRecord>>)
      requires stored.Some? ==> LedgerValid(stored.value)
      ensures Valid()
      ensures ledger == LoadData(stored) && persisted == ledger
      ensures current == None && isTracking
    {
      ledger := LoadData(stored);
      persisted := LoadData(stored);
      current := None;
      isTracking := true;
    }

    /** `saveData(allData)`: the whole ledger is rewritten. */
    method SaveData()
      modifies this`persisted
      ensures persisted == ledger
    {
      persisted := ledger;
    }

    /** `allData.find(d => d.date === date)`, as an index. */
    method FindDay(date: string) returns (k: nat)
      ensures k == IndexOfDate(ledger, date)
    {
      k := 0;
      while k < |ledger| && ledger[k].date != date
        invariant k <= |ledger|
        invariant forall j :: 0 <= j < k ==> ledger[j].date != date
      {
        k := k + 1;
      }
      if k < |ledger| {
        IndexOfDateAt(ledger, date, k);
      }
    }

    /** `updateActivity(appName, title)`. */
    method UpdateActivity(appName: string, title: string, now: int, today: string, stamp: int)
      requires Valid()
      modifies this
      ensures Valid()
      ensures TrackerState(ledger, current)
              == Observe(old(TrackerState(ledger, current)), appName, title, now, today, stamp)
      ensures persisted == if Records(old(current), appName, now) then ledger else old(persisted)
      ensures isTracking == old(isTracking)
    {
      ghost var st := TrackerState(ledger, current);
      ObserveValid(st, appName, title, now, today, stamp);
      if current.Some? && current.value.appName != appName {
        var duration := RoundToSeconds(now - current.value.startTime);
        if duration > 0 {
          var k := FindDay(today);
          var entry := Entry(EntryId(today, stamp), current.value.appName, current.value.title,
                             current.value.startTime, now, duration);
          if k == |ledger| {
            ledger := ledger + [DayRecord(today, [], map[])];
          }
          ledger := ledger[k := AddEntry(ledger[k], entry)];
          assert ledger == Append(st.ledger, today, entry);
          SaveData();
        }
      }
      if current.None? || current.value.appName != appName {
        current := Some(OpenSession(appName, title, now));
      }
    }

    /** One tick of the 1-second interval; `windowOpen` is `win &&
        !win.isDestroyed()`, `sample` the active-window result (`None` when the
        query failed or found nothing), `idleSeconds` the system idle time. */
    method Tick(windowOpen: bool, sample: Option<Sample>, idleSeconds: int, now: int, today: string, stamp: int)
      requires Valid()
      modifies this
      ensures Valid()
      ensures TrackerState(ledger, current)
              == TickStep(old(TrackerState(ledger, current)), windowOpen, old(isTracking), sample, idleSeconds,
                          now, today, stamp)
      ensures !TickActive(windowOpen, old(isTracking), sample, idleSeconds) ==> persisted == old(persisted)
      ensures TickActive(windowOpen, old(isTracking), sample, idleSeconds) ==>
        persisted == if Records(old(current), ObservedName(sample.value.ownerName), now) then ledger else old(persisted)
      ensures isTracking == old(isTracking)
    {
      if windowOpen && isTracking && sample.Some? && idleSeconds < IdleLimit {
        var appName := ObservedName(sample.value.ownerName);
        UpdateActivity(appName, sample.value.title, now, today, stamp);
      }
    }

    /** `get-activity-data`. */
    method GetActivityData() returns (l: seq<DayRecord>)
      ensures l == ledger
    {
      l := ledger;
    }

    /** `get-today-summary`. */
    method GetTodaySummary(today: string) returns (summary: map<string, int>)
      ensures summary == SummaryFor(ledger, today)
    {
      var k := FindDay(today);
      summary := if k < |ledger| then ledger[k].appSummary else map[];
    }

    /** `is-tracking`. */
    method IsTracking() returns (b: bool)
      ensures b == isTracking
    {
      b := isTracking;
    }

    /** `set-tracking`: stores and returns the new flag; the open session is
        left as it is. */
    method SetTracking(value: bool) returns (b: bool)
      modifies this`isTracking
      ensures isTracking == value && b == value
    {
      isTracking := value;
      b := isTracking;
    }

    /** `entries.findIndex(e => e.id === id)`, with `|entries|` for -1. */
    static method FindEntry(entries: seq<Entry>, id: string) returns (i: nat)
      ensures i == IndexOfEntry(entries, id)
    {
      i := 0;
      while i < |entries| && entries[i].id != id
        invariant i <= |entries|
        invariant forall j :: 0 <= j < i ==> entries[j].id != id
      {
        i := i + 1;
      }
    }

    /** The scan over the days for the first one holding the id. */
    static method FindEntryDay(l: seq<DayRecord>, id: string) returns (d: nat)
      ensures d == DayOfEntry(l, id)
    {
      d := 0;
      while d < |l|
        invariant d <= |l|
        invariant forall j :: 0 <= j < d ==> IndexOfEntry(l[j].entries, id) == |l[j].entries|
      {
        var i := FindEntry(l[d].entries, id);
        if i < |l[d].entries| {
          DayOfEntryAt(l, id, d);
          return;
        }
        d := d + 1;
      }
    }

    /** `delete-entry`: scans the days in order and removes the first entry
        with that id, saving and answering `true`; `false` when there is
        none, with nothing changed or saved. */
    method DeleteEntry(id: string) returns (found: bool)
      requires Valid()
      modifies this
      ensures Valid()
      ensures (ledger, found) == Delete(old(ledger), id)
      ensures persisted == if found then ledger else old(persisted)
      ensures current == old(current) && isTracking == old(isTracking)
    {
      DeleteValid(ledger, id);
      var d := FindEntryDay(ledger, id);
      if d < |ledger| {
        var i := FindEntry(ledger[d].entries, id);
        assert SummaryConsistent(ledger[d]);
        ledger := ledger[d := RemoveEntry(ledger[d], i)];
        SaveData();
        return true;
      }
      return false;
    }

    /** `clear-all-data`: empties the ledger and the file; answers `true`. */
    method ClearAllData() returns (ok: bool)
      requires Valid()
      modifies this
      ensures Valid()
      ensures ledger == [] && persisted == [] && ok
      ensures current == old(current) && isTracking == old(isTracking)
    {
      ledger := [];
      SaveData();
      ok := true;
    }
  }
}
